=== FILE: README.md ===
# A verified model of the catalogue, AKAS and payment cores

This project models, in Dafny, the parts of the microservices and AKAS
repository that hold state or make decisions, and proves what they promise.

- **Product catalogue, AWS variant** (`microservices-platform-Aws` product-service).
  - The `Product` entity, with its stock arithmetic in Java `int` and its identity-based `equals`.
  - The repository's query predicates over a table of rows keyed by id. A null filter imposes no constraint. Price bounds are inclusive. LIKE is matched with `%` and `_` as wildcards and no escape character, so `%` and `_` in a search term act as wildcards; the substring results are claimed for terms without `%`, `_` or a backslash. DISTINCT ... ORDER BY lists are sorted.
  - The normalising `ProductSearchRequest`.
  - The controller's mapping from service outcomes to statuses and bodies.
- **Product service.** It is declared in the `microservices-platform` tree but written against the AWS entity and repository.
  - create, partial update, soft delete, set/reduce/add stock, availability, paging and lookups.
  - The service keeps SKUs pairwise distinct and stock non-negative.
- **Product catalogue, platform variant** (`microservices-platform` product-service).
  - The create and update requests and DTOs, as validity predicates.
  - The repository's search and filter queries.
  - The idempotent `DataLoader` seed with its ten sample products.
- **AKAS enhanced backend** (`akas/backend/enhanced_main.py`).
  - The in-memory query history (capped at 100) and feedback log (capped at 1000).
  - As the repository stands the module fails at import: lines 25-26 import `RAGPipeline` from rag_pipeline.py and `DocumentProcessor` from ingest.py, and neither file defines them. The handlers are modelled as they run once such classes are supplied.
  - The counters, per-user history slicing, the rating distribution, reset, login and register.
- **AKAS v2 backend** (`akas/backend/main_v2.py`).
  - The provider list and ingest bookkeeping.
  - The query log and feedback log, each capped at the newest 100.
  - The "popular topics" word count, with a stable sort by count.
- **Document ingestor** (`akas/backend/enhanced_ingest.py`).
  - Routing by lower-cased extension and per-file failure isolation.
  - Concatenation in listing order, then `os.path.splitext` tagging of every chunk.
- **Payment endpoint** (`microservices-platform/tracing/instrumentation/python/tracing.py`).
  - The ordered required-field check and the positive-amount rule.
  - The fixed payment result and the mapping of exceptions to 400 and 500.

Objects whose fields the source updates in place are Dafny classes: the entity, the repositories, the service, the controller, the search request, the data loader, the two backends and the ingestor. Pure computations are functions, and what they promise is proved as lemmas. Collaborators whose code is not in the repository become parameters: LangChain loaders and splitter, the RAG pipeline, the QA chain, the clock, uuid4 and the directory listing. A collaborator that raises is `None`. Every Java `Integer`/`int` is an `Int32`, and prices are integer cents.

## Model

| member | source | states |
|---|---|---|
| ProductEntity.Wrap32 | microservices-platform-Aws/services/product-service/src/main/java/com/microservices/productservice/model/Product.java:228-235 | Java `int` arithmetic: the exact value when it fits in 32 bits, the value minus 2^32 just above the maximum |
| ProductEntity.FreshRow | microservices-platform-Aws/services/product-service/src/main/java/com/microservices/productservice/model/Product.java:60-69 | a new product has stock 0, is active, has no id and no SKU, and is not in stock |
| ProductEntity.StorableStock | microservices-platform-Aws/services/product-service/src/main/java/com/microservices/productservice/model/Product.java:60-69 | a row the annotations and columns accept has a non-null, non-negative stock and a non-null active flag; it is in stock exactly when its stock is not 0 |
| ProductEntity.Product.constructor | microservices-platform-Aws/services/product-service/src/main/java/com/microservices/productservice/model/Product.java:92 | `new Product()` has exactly the field defaults |
| ProductEntity.Product.ReduceStock | microservices-platform-Aws/services/product-service/src/main/java/com/microservices/productservice/model/Product.java:224-229 | a null stock or one below the quantity is refused with "Insufficient stock" and no change; otherwise the stock becomes old − quantity in `int` arithmetic; no other field changes |
| ProductEntity.Product.AddStock | microservices-platform-Aws/services/product-service/src/main/java/com/microservices/productservice/model/Product.java:231-236 | a negative quantity is refused with no change; otherwise the stock becomes (old, or 0 when null) + quantity in `int` arithmetic; no other field changes |
| ProductEntity.Product.AddStockChecked | microservices-platform-Aws/services/product-service/src/main/java/com/microservices/productservice/model/Product.java:231-236 | addStock with overflow refused: the stock rises by exactly the quantity, and a non-negative stock stays non-negative |
| ProductEntity.Product.Equals | microservices-platform-Aws/services/product-service/src/main/java/com/microservices/productservice/model/Product.java:239-245 | two products are equal exactly when their ids and SKUs are equal; no other field takes part |
| ProductEntity.EqualsIsEquivalence | microservices-platform-Aws/services/product-service/src/main/java/com/microservices/productservice/model/Product.java:239-250 | equals is reflexive, symmetric and transitive, and equal products have the same hash key |
| ProductEntity.ReduceWithinStock | microservices-platform-Aws/services/product-service/src/main/java/com/microservices/productservice/model/Product.java:224-228 | reducing by 0 < q ≤ stock does not wrap and leaves exactly stock − q ≥ 0 |
| ProductEntity.AddStockWrapsNegative | microservices-platform-Aws/services/product-service/src/main/java/com/microservices/productservice/model/Product.java:235 | adding 1 to a stock of 2^31 − 1 gives −2^31 |
| ProductRequests.EmptyUpdate | microservices-platform/services/product-service/src/main/java/com/microservices/productservice/dto/ProductUpdateRequest.java:16-47 | the all-null update request passes every update constraint |
| ProductRequests.CreateValidIsUpdateValid | microservices-platform/services/product-service/src/main/java/com/microservices/productservice/dto/ProductCreateRequest.java:16-49 | every create constraint is at least as strict as the update constraint on the same field |
| ProductRequests.CreateValidRequiredFields | microservices-platform/services/product-service/src/main/java/com/microservices/productservice/dto/ProductCreateRequest.java:16-37 | a valid create request has a name, a SKU of 3 to 50 characters, a positive price, a category, and no negative stock |
| ProductRequests.BlankNamePassesUpdate | microservices-platform/services/product-service/src/main/java/com/microservices/productservice/dto/ProductUpdateRequest.java:16-17 | a blank name passes the update constraints though @NotBlank refuses it |
| BeanValidation.OneCentMinimumIsPositive | microservices-platform/services/product-service/src/main/java/com/microservices/productservice/dto/ProductCreateDto.java:26 | for whole cents, a minimum of 0.01 inclusive accepts the same prices as a minimum of 0.0 exclusive |
| PlatformDtos.CreateDtoFromJson | microservices-platform/services/product-service/src/main/java/com/microservices/productservice/dto/ProductCreateDto.java:53-55 | a body that omits `active` has it true |
| PlatformDtos.CreateDtoValidMeaning | microservices-platform/services/product-service/src/main/java/com/microservices/productservice/dto/ProductCreateDto.java:12-51 | a valid create body has a name, price, category, stock and SKU; price from one cent up to 10 integer digits; stock ≥ 0; SKU of 2 to 50 and name of 2 to 255 characters |
| PlatformDtos.CreateBodiesDiffer | microservices-platform/services/product-service/src/main/java/com/microservices/productservice/dto/ProductCreateDto.java:36-46 | a body without stock passes ProductCreateRequest and fails ProductCreateDto; a two-letter SKU passes ProductCreateDto and fails ProductCreateRequest |
| PlatformDtos.CreateDtoFitsColumns | microservices-platform/services/product-service/src/main/java/com/microservices/productservice/dto/ProductCreateDto.java:12-55 | a valid create body with an active flag fits the table's column definitions |
| PlatformDtos.EmptyUpdateDto | microservices-platform/services/product-service/src/main/java/com/microservices/productservice/dto/ProductUpdateDto.java:12-45 | the all-null update body is valid and has no default for `active` |
| PlatformDtos.UpdateDtoNullPasses | microservices-platform/services/product-service/src/main/java/com/microservices/productservice/dto/ProductUpdateDto.java:12-45 | null passes every update annotation, each annotation bounds only its own field, and `active` is unconstrained |
| PlatformDtos.UpdateDtoValidMeaning | microservices-platform/services/product-service/src/main/java/com/microservices/productservice/dto/ProductUpdateDto.java:12-41 | each field a valid update body carries lies within its bounds |
| SearchRequest.ClampPage | microservices-platform-Aws/services/product-service/src/main/java/com/microservices/productservice/dto/ProductSearchRequest.java:82-84 | the stored page is never negative and equals the argument when that is not negative |
| SearchRequest.ClampSize | microservices-platform-Aws/services/product-service/src/main/java/com/microservices/productservice/dto/ProductSearchRequest.java:90-92 | the stored size lies in 1..100 and equals the argument when that is in range |
| SearchRequest.SortByOrDefault | microservices-platform-Aws/services/product-service/src/main/java/com/microservices/productservice/dto/ProductSearchRequest.java:98-100 | the stored sort property is the argument, or "name" for null |
| SearchRequest.NormalizeDirection | microservices-platform-Aws/services/product-service/src/main/java/com/microservices/productservice/dto/ProductSearchRequest.java:106-108 | the stored direction is "DESC" exactly when the argument equals "DESC" ignoring case, and "ASC" otherwise |
| SearchRequest.NormalisersIdempotent | microservices-platform-Aws/services/product-service/src/main/java/com/microservices/productservice/dto/ProductSearchRequest.java:82-108 | setting a getter's value back changes nothing, and every setter result is normalised |
| SearchRequest.DirectionIgnoresCase | microservices-platform-Aws/services/product-service/src/main/java/com/microservices/productservice/dto/ProductSearchRequest.java:106-108 | "desc" and "Desc" give "DESC"; "down" and null give "ASC" |
| SearchRequest.ProductSearchRequest.constructor | microservices-platform-Aws/services/product-service/src/main/java/com/microservices/productservice/dto/ProductSearchRequest.java:15-27 | no filters, page 0, size 20, sort by name, ascending |
| SearchRequest.ProductSearchRequest.Criteria | microservices-platform-Aws/services/product-service/src/main/java/com/microservices/productservice/dto/ProductSearchRequest.java:30-76 | the repository receives exactly the six filter fields |
| SearchRequest.ProductSearchRequest.SetFilters | microservices-platform-Aws/services/product-service/src/main/java/com/microservices/productservice/dto/ProductSearchRequest.java:34-76 | each filter setter stores its argument and keeps the page fields normalised |
| SearchRequest.ProductSearchRequest.SetPage | microservices-platform-Aws/services/product-service/src/main/java/com/microservices/productservice/dto/ProductSearchRequest.java:82-84 | stores the clamped page and keeps the invariant |
| SearchRequest.ProductSearchRequest.SetSize | microservices-platform-Aws/services/product-service/src/main/java/com/microservices/productservice/dto/ProductSearchRequest.java:90-92 | stores the clamped size and keeps the invariant |
| SearchRequest.ProductSearchRequest.SetSortBy | microservices-platform-Aws/services/product-service/src/main/java/com/microservices/productservice/dto/ProductSearchRequest.java:98-100 | stores the argument or "name" and keeps the invariant |
| SearchRequest.ProductSearchRequest.SetSortDirection | microservices-platform-Aws/services/product-service/src/main/java/com/microservices/productservice/dto/ProductSearchRequest.java:106-108 | stores the normalised direction and keeps the invariant |
| CatalogRepository.SearchProducts | microservices-platform-Aws/services/product-service/src/main/java/com/microservices/productservice/repository/ProductRepository.java:98-112 | the result holds only stored, active products |
| CatalogRepository.FindByActiveTrue | microservices-platform-Aws/services/product-service/src/main/java/com/microservices/productservice/repository/ProductRepository.java:44-49 | exactly the stored products whose active flag is true |
| CatalogRepository.SearchWithoutFilters | microservices-platform-Aws/services/product-service/src/main/java/com/microservices/productservice/repository/ProductRepository.java:98-105 | with every filter null, searchProducts returns exactly the active products |
| CatalogRepository.SearchLooserFindsMore | microservices-platform-Aws/services/product-service/src/main/java/com/microservices/productservice/repository/ProductRepository.java:98-105 | a null filter imposes no constraint: clearing filters never loses a product |
| CatalogRepository.NameFilterIsSubstring | microservices-platform-Aws/services/product-service/src/main/java/com/microservices/productservice/repository/ProductRepository.java:99 | a name argument without `%` or `_` keeps exactly the products whose lower-cased name contains the lower-cased argument; a null name never matches |
| CatalogRepository.CategoryBrandExact | microservices-platform-Aws/services/product-service/src/main/java/com/microservices/productservice/repository/ProductRepository.java:100-101 | category and brand filters are exact, case-sensitive equality |
| CatalogRepository.PriceBoundsInclusive | microservices-platform-Aws/services/product-service/src/main/java/com/microservices/productservice/repository/ProductRepository.java:102-103 | both price bounds are inclusive |
| CatalogRepository.InStockFilterMeaning | microservices-platform-Aws/services/product-service/src/main/java/com/microservices/productservice/repository/ProductRepository.java:104 | inStock = true keeps exactly the products in stock; false and null keep all |
| CatalogRepository.FindLowStockProducts | microservices-platform-Aws/services/product-service/src/main/java/com/microservices/productservice/repository/ProductRepository.java:145-146 | exactly the active products whose non-null stock is at most the threshold; a null threshold matches none |
| CatalogRepository.LowStockMonotone | microservices-platform-Aws/services/product-service/src/main/java/com/microservices/productservice/repository/ProductRepository.java:145-146 | raising the threshold never drops a product |
| CatalogRepository.FindDistinctCategories | microservices-platform-Aws/services/product-service/src/main/java/com/microservices/productservice/repository/ProductRepository.java:133-134 | each category of an active product exactly once, in ascending order |
| CatalogRepository.FindDistinctBrands | microservices-platform-Aws/services/product-service/src/main/java/com/microservices/productservice/repository/ProductRepository.java:139-140 | each non-null brand of an active product exactly once, in ascending order |
| CatalogRepository.FindBySku | microservices-platform-Aws/services/product-service/src/main/java/com/microservices/productservice/repository/ProductRepository.java:29 | at most one product has a given SKU, and one does exactly when existsBySku holds |
| CatalogRepository.UniqueSkuMatch | microservices-platform-Aws/services/product-service/src/main/java/com/microservices/productservice/repository/ProductRepository.java:29 | with unique SKUs, the matching set has at most one element and is non-empty exactly when the SKU exists |
| CatalogRepository.ExistsBySkuAndIdNotMeaning | microservices-platform-Aws/services/product-service/src/main/java/com/microservices/productservice/repository/ProductRepository.java:157-163 | existsBySkuAndIdNot(sku, id) is existsBySku on the table without product id, and is existsBySku itself when id is not stored |
| CatalogRepository.FindByCategoryAndActiveTrue | microservices-platform-Aws/services/product-service/src/main/java/com/microservices/productservice/repository/ProductRepository.java:117 | exactly the active products of the category |
| CatalogRepository.FindByBrandAndActiveTrue | microservices-platform-Aws/services/product-service/src/main/java/com/microservices/productservice/repository/ProductRepository.java:122 | exactly the active products of the brand |
| CatalogRepository.CategoryIsSearch | microservices-platform-Aws/services/product-service/src/main/java/com/microservices/productservice/repository/ProductRepository.java:98-117 | the category listing equals searchProducts with only the category filter set |
| CatalogRepository.ProductRepository.constructor | microservices-platform-Aws/services/product-service/src/main/java/com/microservices/productservice/repository/ProductRepository.java:24 | an empty table whose next id is 1 |
| CatalogRepository.ProductRepository.Count | microservices-platform-Aws/services/product-service/src/main/java/com/microservices/productservice/repository/ProductRepository.java:24 | count() is 0 exactly when the table is empty |
| CatalogRepository.ProductRepository.Save | microservices-platform-Aws/services/product-service/src/main/java/com/microservices/productservice/repository/ProductRepository.java:24 | save inserts under the next id or overwrites; an annotation failure, a null NOT NULL column or a SKU held by another product is refused with no change; the table stays well formed |
| CatalogRepository.ProductRepository.UpdateProductStatusAsDeclared | microservices-platform-Aws/services/product-service/src/main/java/com/microservices/productservice/repository/ProductRepository.java:174-175 | the UPDATE declared without @Modifying is refused and changes nothing |
| CatalogRepository.ProductRepository.UpdateStockQuantityAsDeclared | microservices-platform-Aws/services/product-service/src/main/java/com/microservices/productservice/repository/ProductRepository.java:168-169 | the UPDATE declared without @Modifying is refused and changes nothing |
| CatalogRepository.ProductRepository.UpdateProductStatus | microservices-platform-Aws/services/product-service/src/main/java/com/microservices/productservice/repository/ProductRepository.java:174-175 | as a bulk UPDATE: the listed ids get the new flag, nothing else changes, and a null flag is refused |
| CatalogService.ConvertToResponse | microservices-platform/services/product-service/src/main/java/com/microservices/productservice/service/ProductService.java:325-344 | the response carries every field of the product, inStock exactly when the stock is non-null and positive, available exactly when also active |
| CatalogService.SaveOutcome | microservices-platform/services/product-service/src/main/java/com/microservices/productservice/service/ProductService.java:70 | a save stores the row under its key only if it passes validation, its NOT NULL columns and the unique SKU; otherwise a persistence error |
| CatalogService.SaveKeepsWellFormed | microservices-platform/services/product-service/src/main/java/com/microservices/productservice/service/ProductService.java:70 | a successful save keeps SKUs distinct and every stored row valid |
| CatalogService.StockNeverNegative | microservices-platform/services/product-service/src/main/java/com/microservices/productservice/service/ProductService.java:241-243 | no stored product has a null or negative stock |
| CatalogService.NewRow | microservices-platform/services/product-service/src/main/java/com/microservices/productservice/service/ProductService.java:57-68 | the new entity has no id, is active, and has the request's stock or 0 |
| CatalogService.CreateOutcome | microservices-platform/services/product-service/src/main/java/com/microservices/productservice/service/ProductService.java:49-74 | a SKU already stored is refused as a duplicate; a created product gets the next id, the request's SKU, active = true and the request's stock or 0 |
| CatalogService.CreateValidSucceeds | microservices-platform/services/product-service/src/main/java/com/microservices/productservice/service/ProductService.java:49-74 | for a validated request, creation succeeds exactly when the SKU is new, and stores exactly the request's fields under the next id |
| CatalogService.CreateKeepsWellFormed | microservices-platform/services/product-service/src/main/java/com/microservices/productservice/service/ProductService.java:49-74 | a creation adds exactly one key and keeps the table well formed |
| CatalogService.UpdateNullKeepsValue | microservices-platform/services/product-service/src/main/java/com/microservices/productservice/service/ProductService.java:119-129 | a null request field leaves its value; the id never changes; the empty request changes nothing; applying a request twice equals applying it once |
| CatalogService.UpdateOutcome | microservices-platform/services/product-service/src/main/java/com/microservices/productservice/service/ProductService.java:105-135 | an unknown id is "not found"; a changed SKU held by another product is a duplicate |
| CatalogService.UpdateKeepsWellFormed | microservices-platform/services/product-service/src/main/java/com/microservices/productservice/service/ProductService.java:105-135 | a successful update writes exactly the merged row under the same id and keeps the table well formed; the empty update rewrites the row unchanged |
| CatalogService.DeleteOutcome | microservices-platform/services/product-service/src/main/java/com/microservices/productservice/service/ProductService.java:140-150 | an unknown id is "not found" |
| CatalogService.SoftDeleteKeepsRecord | microservices-platform/services/product-service/src/main/java/com/microservices/productservice/service/ProductService.java:140-150 | deleting a stored product succeeds, keeps every record, clears only its active flag, and a second delete changes nothing |
| CatalogService.UpdateStockOutcome | microservices-platform/services/product-service/src/main/java/com/microservices/productservice/service/ProductService.java:235-250 | existence is checked before the sign: unknown id is "not found", then a negative quantity is refused |
| CatalogService.UpdateStockSets | microservices-platform/services/product-service/src/main/java/com/microservices/productservice/service/ProductService.java:235-250 | updateStock succeeds exactly for a stored id and quantity ≥ 0, and sets exactly that stock |
| CatalogService.ReduceStockOutcome | microservices-platform/services/product-service/src/main/java/com/microservices/productservice/service/ProductService.java:255-273 | unknown id is "not found", then a quantity ≤ 0 is refused |
| CatalogService.ReduceStockExact | microservices-platform/services/product-service/src/main/java/com/microservices/productservice/service/ProductService.java:255-273 | reduceStock succeeds exactly when 0 < quantity ≤ stock, lowers the stock by exactly the quantity, and otherwise reports the available and requested amounts |
| CatalogService.AddStockOutcome | microservices-platform/services/product-service/src/main/java/com/microservices/productservice/service/ProductService.java:278-293 | unknown id is "not found", then a quantity ≤ 0 is refused; otherwise the entity's `int` sum, wrapped past 2^31 − 1, is saved |
| CatalogService.AddStockExact | microservices-platform/services/product-service/src/main/java/com/microservices/productservice/service/ProductService.java:278-293 | addStock succeeds exactly when quantity > 0 and the sum fits an `int`, raising the stock by exactly the quantity; a sum past 2^31 − 1 wraps negative and the save refuses it as a constraint violation |
| CatalogService.WrappedStockIsRefused | microservices-platform/services/product-service/src/main/java/com/microservices/productservice/service/ProductService.java:288-289 | with the entity's addStock as written, a stock of 2^31 − 1 plus 1 is refused by validation at save |
| CatalogService.GetProductById | microservices-platform/services/product-service/src/main/java/com/microservices/productservice/service/ProductService.java:80-87 | a stored id gives its product, any other id "not found" |
| CatalogService.IsProductAvailable | microservices-platform/services/product-service/src/main/java/com/microservices/productservice/service/ProductService.java:312-320 | true exactly for a stored, active product whose stock is positive and at least the quantity, for every quantity |
| CatalogService.AvailableMeansReducible | microservices-platform/services/product-service/src/main/java/com/microservices/productservice/service/ProductService.java:312-320 | for a positive quantity, available exactly when active and reduceStock would succeed; availability is downward closed in the quantity |
| CatalogService.AvailableWithoutQuantity | microservices-platform/services/product-service/src/main/java/com/microservices/productservice/service/ProductService.java:312-320 | for a quantity ≤ 0, which reduceStock refuses, a stored product is available exactly when it is active and in stock |
| CatalogService.SortableHaveText | microservices-platform/services/product-service/src/main/java/com/microservices/productservice/service/ProductService.java:160 | every sortable property name has text |
| CatalogService.PagingError | microservices-platform/services/product-service/src/main/java/com/microservices/productservice/service/ProductService.java:160-161 | building and running the page request fails exactly when the direction is not asc/desc, the page is negative, the size is below 1, or the query cannot resolve the property: a derived query resolves it after decapitalising, an @Query only as spelled |
| CatalogService.Paged | microservices-platform/services/product-service/src/main/java/com/microservices/productservice/service/ProductService.java:160-164 | a page is cut from exactly the matching set, or the paging error is raised |
| CatalogService.GetAllProducts | microservices-platform/services/product-service/src/main/java/com/microservices/productservice/service/ProductService.java:155-165 | the page is cut from exactly the active products, with the sort property resolved as the derived findByActiveTrue does |
| CatalogService.Decapitalize | microservices-platform-Aws/services/product-service/src/main/java/com/microservices/productservice/repository/ProductRepository.java:49 | the derived query's property name: the first character lower-cased unless the first two are upper case, the rest kept |
| CatalogService.ResolvableHasText | microservices-platform/services/product-service/src/main/java/com/microservices/productservice/service/ProductService.java:160 | a property either kind of query resolves already passes Sort's has-text check |
| CatalogService.DerivedAcceptsCapitalised | microservices-platform/services/product-service/src/main/java/com/microservices/productservice/service/ProductService.java:160-177 | every Product attribute is accepted as spelled by both kinds of query, and capitalised ("Name") by getAllProducts' derived query but not by the searchProducts @Query |
| CatalogService.SearchProducts | microservices-platform/services/product-service/src/main/java/com/microservices/productservice/service/ProductService.java:170-188 | the page is cut from exactly the products matching the search predicate |
| CatalogService.GetProductsByCategory | microservices-platform/services/product-service/src/main/java/com/microservices/productservice/service/ProductService.java:193-200 | fails only on a negative page or a size below 1, and otherwise lists exactly the active products of the category |
| CatalogService.GetProductsByBrand | microservices-platform/services/product-service/src/main/java/com/microservices/productservice/service/ProductService.java:205-212 | fails only on a negative page or a size below 1, and otherwise lists exactly the active products of the brand |
| CatalogService.NormalisedPagingOnlyFailsOnSortBy | microservices-platform/services/product-service/src/main/java/com/microservices/productservice/service/ProductService.java:174-175 | with a normalised search request only the sort property can make the search fail |
| CatalogService.ProductService.constructor | microservices-platform/services/product-service/src/main/java/com/microservices/productservice/service/ProductService.java:41-44 | the service holds the repository it is given |
| CatalogService.ProductService.SaveRow | microservices-platform/services/product-service/src/main/java/com/microservices/productservice/service/ProductService.java:70 | save's result and new table are those SaveOutcome gives, and the repository stays valid |
| CatalogService.ProductService.CreateProduct | microservices-platform/services/product-service/src/main/java/com/microservices/productservice/service/ProductService.java:49-74 | the reply and new table are those CreateOutcome gives |
| CatalogService.ProductService.CopyProvidedDetails | microservices-platform/services/product-service/src/main/java/com/microservices/productservice/service/ProductService.java:120-126 | each non-null descriptive field overwrites the entity's, and nothing else changes |
| CatalogService.ProductService.CopyProvidedQuantities | microservices-platform/services/product-service/src/main/java/com/microservices/productservice/service/ProductService.java:122-129 | each non-null price, stock, weight, unit or active flag overwrites the entity's, and nothing else changes |
| CatalogService.ProductService.UpdateProduct | microservices-platform/services/product-service/src/main/java/com/microservices/productservice/service/ProductService.java:105-135 | the reply and new table are those UpdateOutcome gives |
| CatalogService.ProductService.DeleteProduct | microservices-platform/services/product-service/src/main/java/com/microservices/productservice/service/ProductService.java:140-150 | the result and new table are those DeleteOutcome gives |
| CatalogService.ProductService.UpdateStock | microservices-platform/services/product-service/src/main/java/com/microservices/productservice/service/ProductService.java:235-250 | the reply and new table are those UpdateStockOutcome gives |
| CatalogService.ProductService.ReduceStock | microservices-platform/services/product-service/src/main/java/com/microservices/productservice/service/ProductService.java:255-273 | the result and new table are those ReduceStockOutcome gives |
| CatalogService.ProductService.AddStock | microservices-platform/services/product-service/src/main/java/com/microservices/productservice/service/ProductService.java:278-293 | through the entity's addStock as written, the reply and new table are those AddStockOutcome gives |
| CatalogService.ProductService.GetProductBySku | microservices-platform/services/product-service/src/main/java/com/microservices/productservice/service/ProductService.java:93-100 | found exactly when some stored product has the SKU, and then returns that product; otherwise "not found" with the SKU |
| ProductController.CreateReply | microservices-platform-Aws/services/product-service/src/main/java/com/microservices/productservice/controller/ProductController.java:48-76 | a body refused by @Valid is 400; success is 201 with the product; an IllegalArgumentException is 400 with its message; any other failure is 500 |
| ProductController.DuplicateSkuIsBadRequest | microservices-platform-Aws/services/product-service/src/main/java/com/microservices/productservice/controller/ProductController.java:48-76 | a duplicate SKU is answered 400 with the duplicate message |
| ProductController.LookupReply | microservices-platform-Aws/services/product-service/src/main/java/com/microservices/productservice/controller/ProductController.java:81-108 | 200 with the product, or 404 with no body for an IllegalArgumentException |
| ProductController.GetByIdReplyMeaning | microservices-platform-Aws/services/product-service/src/main/java/com/microservices/productservice/controller/ProductController.java:81-108 | the lookup by id answers 200 exactly for a stored id, with that product, and otherwise 404 |
| ProductController.Classify | microservices-platform-Aws/services/product-service/src/main/java/com/microservices/productservice/controller/ProductController.java:166-177 | the corrected catch block: 404 exactly for an unknown id, otherwise 400 with the message |
| ProductController.ClassifyAsWritten | microservices-platform-Aws/services/product-service/src/main/java/com/microservices/productservice/controller/ProductController.java:172-177 | the catch block as written: 404 with no body exactly when the message contains "not found", otherwise 400 with the message |
| ProductController.MutationReply | microservices-platform-Aws/services/product-service/src/main/java/com/microservices/productservice/controller/ProductController.java:145-178 | the corrected handlers of the second Findings row: a refused body is 400; success is 200 with the endpoint's message; an IllegalArgumentException is 404 exactly for an unknown id; anything else is 500 |
| ProductController.MutationReplyAsWritten | microservices-platform-Aws/services/product-service/src/main/java/com/microservices/productservice/controller/ProductController.java:145-178 | a refused body is 400; success is 200 with the endpoint's message; an IllegalArgumentException is 404 with no body exactly when its message contains "not found", else 400 with the message; anything else is 500 |
| ProductController.NotFoundAgrees | microservices-platform-Aws/services/product-service/src/main/java/com/microservices/productservice/controller/ProductController.java:173-174 | for an unknown id the handlers as written and the corrected ones agree |
| ProductController.SkuSayingNotFoundIs404 | microservices-platform-Aws/services/product-service/src/main/java/com/microservices/productservice/controller/ProductController.java:173-176 | as written, a duplicate SKU containing "not found" is answered 404; deciding by kind answers 400 |
| ProductController.DeleteReply | microservices-platform-Aws/services/product-service/src/main/java/com/microservices/productservice/controller/ProductController.java:183-210 | 200 with no data, or 404 with no body for an IllegalArgumentException |
| ProductController.ListReply | microservices-platform-Aws/services/product-service/src/main/java/com/microservices/productservice/controller/ProductController.java:215-233 | the list endpoints catch nothing: 200 exactly when the service succeeds, with its result |
| ProductController.GetAllProductsReplyMeaning | microservices-platform-Aws/services/product-service/src/main/java/com/microservices/productservice/controller/ProductController.java:215-233 | getAllProducts answers 200 exactly for a valid direction, a sort property that is a Product attribute once decapitalised ("Name" included), a page ≥ 0 and a size ≥ 1 |
| ProductController.SearchReplyMeaning | microservices-platform-Aws/services/product-service/src/main/java/com/microservices/productservice/controller/ProductController.java:239-252 | a search request its setters normalised answers 200 exactly when its sort property is known |
| ProductController.AvailabilityReply | microservices-platform-Aws/services/product-service/src/main/java/com/microservices/productservice/controller/ProductController.java:434-449 | always 200 and success, carrying isProductAvailable's answer |
| ProductController.HealthReply | microservices-platform-Aws/services/product-service/src/main/java/com/microservices/productservice/controller/ProductController.java:455-464 | always 200 with data "OK" |
| ProductController.ProductController.constructor | microservices-platform-Aws/services/product-service/src/main/java/com/microservices/productservice/controller/ProductController.java:41-43 | the controller holds the service it is given |
| ProductController.ProductController.CreateProduct | microservices-platform-Aws/services/product-service/src/main/java/com/microservices/productservice/controller/ProductController.java:48-76 | an invalid body is 400 with no change; otherwise the reply and new table follow CreateOutcome |
| ProductController.ProductController.UpdateProduct | microservices-platform-Aws/services/product-service/src/main/java/com/microservices/productservice/controller/ProductController.java:145-178 | an invalid body is 400 with no change; otherwise the new table follows UpdateOutcome and the reply is MutationReplyAsWritten's |
| ProductController.ProductController.DeleteProduct | microservices-platform-Aws/services/product-service/src/main/java/com/microservices/productservice/controller/ProductController.java:183-210 | the reply and new table follow DeleteOutcome |
| ProductController.ProductController.UpdateStock | microservices-platform-Aws/services/product-service/src/main/java/com/microservices/productservice/controller/ProductController.java:338-371 | the new table follows UpdateStockOutcome and the reply is MutationReplyAsWritten's, 404 by the "not found" test |
| ProductController.ProductController.AddStock | microservices-platform-Aws/services/product-service/src/main/java/com/microservices/productservice/controller/ProductController.java:376-409 | the new table follows AddStockOutcome and the reply is MutationReplyAsWritten's, 404 by the "not found" test |
| ProductController.ProductController.GetProductBySku | microservices-platform-Aws/services/product-service/src/main/java/com/microservices/productservice/controller/ProductController.java:113-140 | 200 exactly when a stored product has the SKU, with that product converted in the success body; otherwise 404 with no body |
| ProductController.UpdateStockReplyMeaning | microservices-platform-Aws/services/product-service/src/main/java/com/microservices/productservice/controller/ProductController.java:338-371 | as written, updating the stock of an unknown id is 404 whatever the quantity; a negative quantity for a stored product is 400 and changes nothing |
| ProductController.AddStockReplyMeaning | microservices-platform-Aws/services/product-service/src/main/java/com/microservices/productservice/controller/ProductController.java:376-409 | as written, an unknown id is 404 and a quantity ≤ 0 is 400; an overflowing sum wraps negative, the save's constraint violation is not caught, so the client gets 500; the table changes exactly when the service succeeds |
| PlatformCatalog.FreshPlatformRow | microservices-platform/services/product-service/src/main/java/com/microservices/productservice/model/Product.java:32-42 | a new product has stock 0, is active, and has no id, name, SKU, price or category |
| PlatformCatalog.SaveStep | microservices-platform/services/product-service/src/main/java/com/microservices/productservice/repository/ProductRepository.java:16 | one save succeeds exactly when the columns accept the row and no other row holds its SKU, and keeps the table well formed |
| PlatformCatalog.SaveAllOutcome | microservices-platform/services/product-service/src/main/java/com/microservices/productservice/repository/ProductRepository.java:16 | saveAll in its transaction keeps the table well formed or rolls back |
| PlatformCatalog.InsertAllContents | microservices-platform/services/product-service/src/main/java/com/microservices/productservice/repository/ProductRepository.java:16 | inserting a batch keeps every stored row and adds exactly the consecutive new ids, the i-th holding the i-th row |
| PlatformCatalog.SaveFirstNew | microservices-platform/services/product-service/src/main/java/com/microservices/productservice/repository/ProductRepository.java:16 | the first save of a new, distinct batch inserts it under the next id and leaves the rest new and distinct |
| PlatformCatalog.SaveAllNew | microservices-platform/services/product-service/src/main/java/com/microservices/productservice/repository/ProductRepository.java:16 | a batch of new rows with distinct, unused SKUs that the columns accept is stored whole under consecutive ids |
| PlatformCatalog.PlatformRepository.constructor | microservices-platform/services/product-service/src/main/java/com/microservices/productservice/repository/ProductRepository.java:16 | an empty table whose next id is 1 |
| PlatformCatalog.PlatformRepository.Count | microservices-platform/services/product-service/src/main/java/com/microservices/productservice/repository/ProductRepository.java:16 | count() is 0 exactly when the table is empty |
| PlatformCatalog.PlatformRepository.SaveAll | microservices-platform/services/product-service/src/main/java/com/microservices/productservice/repository/ProductRepository.java:16 | the new table is SaveAllOutcome's, or unchanged with an error when the batch is refused |
| PlatformCatalog.SearchByNameOrDescription | microservices-platform/services/product-service/src/main/java/com/microservices/productservice/repository/ProductRepository.java:35-52 | only stored, active products with a non-null name or description, and nothing for a null search |
| PlatformCatalog.SearchIsSubstring | microservices-platform/services/product-service/src/main/java/com/microservices/productservice/repository/ProductRepository.java:35-39 | for a term without wildcards, a hit is exactly an active product whose name or description contains the term, case aside |
| PlatformCatalog.FindWithFilters | microservices-platform/services/product-service/src/main/java/com/microservices/productservice/repository/ProductRepository.java:55-66 | only stored, active products |
| PlatformCatalog.ActiveIds | microservices-platform/services/product-service/src/main/java/com/microservices/productservice/repository/ProductRepository.java:24-25 | exactly the active products |
| PlatformCatalog.FiltersAllNull | microservices-platform/services/product-service/src/main/java/com/microservices/productservice/repository/ProductRepository.java:55-61 | with every filter null, findWithFilters returns exactly the active products |
| PlatformCatalog.FiltersSearchOnly | microservices-platform/services/product-service/src/main/java/com/microservices/productservice/repository/ProductRepository.java:35-61 | with only the search given, findWithFilters equals searchByNameOrDescription |
| PlatformCatalog.FiltersPriceOnly | microservices-platform/services/product-service/src/main/java/com/microservices/productservice/repository/ProductRepository.java:32-58 | with only the price bounds given, findWithFilters equals findByPriceBetweenAndActiveTrue |
| PlatformCatalog.FiltersCategoryExact | microservices-platform/services/product-service/src/main/java/com/microservices/productservice/repository/ProductRepository.java:56 | the category filter keeps exactly the rows of that category among what the other filters find |
| PlatformCatalog.EmptySearchFiltersNothing | microservices-platform/services/product-service/src/main/java/com/microservices/productservice/repository/ProductRepository.java:59-60 | an empty search string filters nothing |
| PlatformCatalog.FindByPriceBetweenAndActiveTrue | microservices-platform/services/product-service/src/main/java/com/microservices/productservice/repository/ProductRepository.java:32 | exactly the active products whose price lies in the inclusive range; a null bound matches none |
| PlatformCatalog.EmptyPriceRange | microservices-platform/services/product-service/src/main/java/com/microservices/productservice/repository/ProductRepository.java:32 | an inverted range finds nothing |
| PlatformCatalog.FindDistinctCategories | microservices-platform/services/product-service/src/main/java/com/microservices/productservice/repository/ProductRepository.java:69-70 | each category of an active product exactly once, ascending |
| PlatformCatalog.FindLowStockProducts | microservices-platform/services/product-service/src/main/java/com/microservices/productservice/repository/ProductRepository.java:73-74 | exactly the active products whose stock is at most the threshold; a null threshold matches none |
| PlatformCatalog.LowStockBounds | microservices-platform/services/product-service/src/main/java/com/microservices/productservice/repository/ProductRepository.java:73-74 | at the largest threshold every active product is low; a higher threshold never finds fewer; null finds none |
| PlatformCatalog.FindByIdInAndActiveTrue | microservices-platform/services/product-service/src/main/java/com/microservices/productservice/repository/ProductRepository.java:77 | exactly the listed ids that are stored and active |
| PlatformCatalog.FindByIdInBounds | microservices-platform/services/product-service/src/main/java/com/microservices/productservice/repository/ProductRepository.java:77 | listing every id finds every active product; listing none finds none |
| DataLoader.CreateProduct | microservices-platform/services/product-service/src/main/java/com/microservices/productservice/config/DataLoader.java:76-90 | the new row carries exactly the arguments, no id, and active = true |
| DataLoader.Samples | microservices-platform/services/product-service/src/main/java/com/microservices/productservice/config/DataLoader.java:30-70 | the batch holds one product per createProduct call, ten in all, in call order |
| DataLoader.SampleFacts | microservices-platform/services/product-service/src/main/java/com/microservices/productservice/config/DataLoader.java:30-70 | the ten SKUs, stocks and prices in cents, in list order, as the calls pass them |
| DataLoader.SampleRows | microservices-platform/services/product-service/src/main/java/com/microservices/productservice/config/DataLoader.java:30-70 | every sample is new, accepted by the columns, active, in Electronics, priced above zero with stock ≥ 0 |
| DataLoader.SampleSkusDistinct | microservices-platform/services/product-service/src/main/java/com/microservices/productservice/config/DataLoader.java:30-70 | no two samples share a SKU |
| DataLoader.SamplesNewAndDistinct | microservices-platform/services/product-service/src/main/java/com/microservices/productservice/config/DataLoader.java:30-72 | the samples are a batch saveAll stores whole into an empty table |
| DataLoader.RunOutcome | microservices-platform/services/product-service/src/main/java/com/microservices/productservice/config/DataLoader.java:21-74 | a non-empty table is left unchanged; any outcome keeps the table well formed |
| DataLoader.SeededTable | microservices-platform/services/product-service/src/main/java/com/microservices/productservice/config/DataLoader.java:30-72 | saving a batch into an empty table stores exactly its products, in list order, under consecutive ids starting at the counter, and nothing else |
| DataLoader.KeysOfRange | microservices-platform/services/product-service/src/main/java/com/microservices/productservice/config/DataLoader.java:72-73 | a table keyed by exactly n consecutive ids holds n products |
| DataLoader.RunSeedsEmptyTable | microservices-platform/services/product-service/src/main/java/com/microservices/productservice/config/DataLoader.java:21-74 | on an empty table run saves a new, distinct batch whole and advances the id counter by its length |
| DataLoader.RunIdempotent | microservices-platform/services/product-service/src/main/java/com/microservices/productservice/config/DataLoader.java:21-74 | run always succeeds with such a batch, and running it twice leaves what running it once left |
| DataLoader.DataLoader.constructor | microservices-platform/services/product-service/src/main/java/com/microservices/productservice/config/DataLoader.java:17-18 | the loader holds the repository it is given |
| DataLoader.DataLoader.Run | microservices-platform/services/product-service/src/main/java/com/microservices/productservice/config/DataLoader.java:21-74 | the new table is RunOutcome's for the samples, or unchanged with an error |
| Text.Lower | microservices-platform-Aws/services/product-service/src/main/java/com/microservices/productservice/repository/ProductRepository.java:86 | SQL LOWER keeps the length of its argument |
| Text.LowerIsLower | microservices-platform-Aws/services/product-service/src/main/java/com/microservices/productservice/repository/ProductRepository.java:86 | a lowered string is a fixed point of lowering |
| Text.LowerConcat | microservices-platform-Aws/services/product-service/src/main/java/com/microservices/productservice/repository/ProductRepository.java:86 | LOWER distributes over the CONCAT of the pattern pieces |
| Text.LikePercentMatchesAll | microservices-platform-Aws/services/product-service/src/main/java/com/microservices/productservice/repository/ProductRepository.java:99 | the pattern `%` matches every string |
| Text.LikeLiteralThenPercent | microservices-platform-Aws/services/product-service/src/main/java/com/microservices/productservice/repository/ProductRepository.java:99 | a wildcard-free literal followed by `%` matches exactly the strings it prefixes |
| Text.LikeLeadingPercent | microservices-platform-Aws/services/product-service/src/main/java/com/microservices/productservice/repository/ProductRepository.java:99 | a leading `%` matches exactly when the rest of the pattern matches some suffix |
| Text.LikeSurroundedIsContains | microservices-platform-Aws/services/product-service/src/main/java/com/microservices/productservice/repository/ProductRepository.java:99 | `%t%` with a wildcard-free t matches exactly the strings containing t |
| Text.LowerKeepsNoWildcards | microservices-platform-Aws/services/product-service/src/main/java/com/microservices/productservice/repository/ProductRepository.java:99 | lowering a search term adds no LIKE wildcard |
| Text.LikeContainsIgnoreCaseIsSubstring | microservices-platform-Aws/services/product-service/src/main/java/com/microservices/productservice/repository/ProductRepository.java:99 | LOWER(col) LIKE LOWER('%'+arg+'%') is a case-insensitive substring test when arg has no wildcard |
| Text.UnderscoreIsAWildcard | microservices-platform/services/product-service/src/main/java/com/microservices/productservice/repository/ProductRepository.java:36 | an `_` in the search term is not escaped: "a_c" matches "ABC" though "abc" does not contain "a_c" |
| Lex.LessIrreflexive | microservices-platform-Aws/services/product-service/src/main/java/com/microservices/productservice/repository/ProductRepository.java:133 | the ORDER BY string order is irreflexive |
| Lex.LessTransitive | microservices-platform-Aws/services/product-service/src/main/java/com/microservices/productservice/repository/ProductRepository.java:133 | the ORDER BY string order is transitive |
| Lex.LessTotal | microservices-platform-Aws/services/product-service/src/main/java/com/microservices/productservice/repository/ProductRepository.java:139 | any two distinct strings are ordered one way or the other |
| Lex.HasLeast | microservices-platform-Aws/services/product-service/src/main/java/com/microservices/productservice/repository/ProductRepository.java:133 | every non-empty set of names has a least element, so sorting is defined |
| Lex.Sorted | microservices-platform-Aws/services/product-service/src/main/java/com/microservices/productservice/repository/ProductRepository.java:139 | SELECT DISTINCT ... ORDER BY yields each value once, every value, strictly ascending |
| BoundedLog.TailSlice | akas/backend/enhanced_main.py:334 | Python `s[-k:]` is always a suffix: the last k entries for k > 0, the whole list for 0, and all but the first abs(k) for k < 0 |
| BoundedLog.KeepLast | akas/backend/main_v2.py:146-147 | the newest n entries in their original order |
| BoundedLog.PopFrontKeepsNewest | akas/backend/enhanced_main.py:303-307 | append then pop(0) on overflow keeps the newest cap entries and drops only the oldest |
| BoundedLog.SliceKeepsNewest | akas/backend/main_v2.py:173-177 | append then re-slice to `[-cap:]` keeps the newest cap entries |
| BoundedLog.KeepLastAppend | akas/backend/main_v2.py:143-147 | capping after every append is the same as capping once at the end |
| PyText.Run | akas/backend/main_v2.py:191 | the maximal run of non-whitespace characters at the start |
| PyText.Words | akas/backend/main_v2.py:191 | `str.split()` yields only non-empty pieces with no whitespace |
| PyText.Join | akas/backend/main_v2.py:190 | `" ".join` of one part is that part |
| PyText.RunOfWord | akas/backend/main_v2.py:191 | a word followed by nothing or by whitespace is exactly one run |
| PyText.SplitJoin | akas/backend/main_v2.py:190-191 | splitting a space-joined list of words gives the words back |
| PyText.WordsOfLower | akas/backend/main_v2.py:191 | every word of a lower-cased string is lower-cased |
| PopularTopics.Occurrences | akas/backend/main_v2.py:193-195 | a word's count is positive exactly when it occurs and at most the number of words |
| PopularTopics.FirstIndex | akas/backend/main_v2.py:192-195 | the position where a word first occurs |
| PopularTopics.FirstIndexPrefix | akas/backend/main_v2.py:193-195 | a word's first occurrence does not move as more words are counted |
| PopularTopics.PrefixOrderKept | akas/backend/main_v2.py:192-195 | keys in first-occurrence order for a prefix of the words stay so for all the words |
| PopularTopics.AppendLaterKept | akas/backend/main_v2.py:192-195 | appending a word that first occurs after every key keeps first-occurrence order |
| PopularTopics.FrequenciesMeaning | akas/backend/main_v2.py:192-195 | the dict holds exactly the words longer than 3 characters, each with its number of occurrences |
| PopularTopics.FirstOccurrencesKeys | akas/backend/main_v2.py:192-195 | the dict's keys are exactly the words longer than 3 characters |
| PopularTopics.FirstOccurrencesOrder | akas/backend/main_v2.py:192-195 | the dict's keys are in order of first occurrence |
| PopularTopics.Insert | akas/backend/main_v2.py:197 | one step of the stable sort by count: a permutation of the entries plus the new key |
| PopularTopics.ConsOrdered | akas/backend/main_v2.py:197 | a word ranked before every entry of an ordered list can be put at its front |
| PopularTopics.SortByCount | akas/backend/main_v2.py:197 | the stable sort by count descending is a permutation of the keys |
| PopularTopics.InsertOrdered | akas/backend/main_v2.py:197 | inserting a key that occurred later keeps the order by count, then first occurrence |
| PopularTopics.RearrangedEarlier | akas/backend/main_v2.py:197 | a rearrangement of the earlier keys holds only words that first occur before the last key |
| PopularTopics.SortOrdered | akas/backend/main_v2.py:197 | keys in first-occurrence order come out by count descending, ties in first-occurrence order |
| PopularTopics.OrderedDistinct | akas/backend/main_v2.py:197 | a list so ordered has no repeated word |
| PopularTopics.OrderedByOccurrences | akas/backend/main_v2.py:197 | an ordered ranking lists counts descending, ties by first occurrence |
| PopularTopics.Top | akas/backend/main_v2.py:197-198 | the first at most five ranked words, all of them when fewer |
| PopularTopics.RankedWordsMeaning | akas/backend/main_v2.py:190-198 | the ranked words are exactly the long words, by count then first occurrence |
| PopularTopics.TopOrdered | akas/backend/main_v2.py:197-198 | the topics are distinct long words of the questions, by count descending, ties by first occurrence |
| PopularTopics.TopComplete | akas/backend/main_v2.py:197-198 | a long word left out means five topics were found, each at least as frequent |
| PopularTopics.TopicsMeaning | akas/backend/main_v2.py:186-198 | popular_topics: at most five distinct lower-cased words longer than 3, the most frequent first, ties by first occurrence, no more frequent word left out |
| AkasEnhanced.OwnedBy | akas/backend/enhanced_main.py:330-331 | the authenticated caller's entries: only theirs, drawn from the log, never more than the log holds |
| AkasEnhanced.OwnedByComplete | akas/backend/enhanced_main.py:330-331 | every entry of the caller's is kept by the filter |
| AkasEnhanced.OwnedByConcat | akas/backend/enhanced_main.py:331 | the filter keeps the log's order |
| AkasEnhanced.CountRating | akas/backend/enhanced_main.py:386 | the number of feedback entries with a given rating, at most the number of entries |
| AkasEnhanced.RatingKey | akas/backend/enhanced_main.py:385-386 | `str(i)`: the key is the decimal rendering of the rating |
| AkasEnhanced.RatingCountsSum | akas/backend/enhanced_main.py:381-386 | with ratings 1 to 5 the five counts add up to the number of entries |
| AkasEnhanced.DistributionMeaning | akas/backend/enhanced_main.py:384-386 | the distribution has exactly the keys "1" to "5", each holding the number of entries with that rating |
| AkasEnhanced.DistributionDisplay | akas/backend/enhanced_main.py:384-386 | the five loop steps build the map "1" to "5" with the five rating counts |
| AkasEnhanced.DistributionTotal | akas/backend/enhanced_main.py:382-386 | with ratings 1 to 5 the distribution's five values add up to total_feedback |
| AkasEnhanced.Login | akas/backend/enhanced_main.py:171-191 | a bearer token with 1800 seconds only for admin/admin123 when one is created; otherwise 401 with its message |
| AkasEnhanced.Register | akas/backend/enhanced_main.py:193-209 | body bounds first (422), then "admin" is refused with 400; every other valid name is registered |
| AkasEnhanced.AdminCannotRegister | akas/backend/enhanced_main.py:193-204 | "admin" passes the field bounds and is refused only by the explicit check |
| AkasEnhanced.QueryReply | akas/backend/enhanced_main.py:270-319 | 422 for an invalid body; 500 without a pipeline, when it raises, when the result has no `get`, or when its response or sources are values QueryResponse refuses; otherwise the query echoed with the response ("No response generated" when absent) and sources ([] when absent) |
| AkasEnhanced.StoredResponse | akas/backend/enhanced_main.py:298 | `result.get("response", "")` as stored: "" when absent, the string when there is one, and no string for a value of another type |
| AkasEnhanced.QueryFailsAfterCounting | akas/backend/enhanced_main.py:270-319 | a reply is given only for a counted, recorded query; a result without `get` fails with 500 after counting and before recording; an unusable response fails with 500 after recording |
| AkasEnhanced.EnhancedBackend.constructor | akas/backend/enhanced_main.py:84-94 | empty logs and zero counters; pipeline and processor set as the lifespan hook got |
| AkasEnhanced.EnhancedBackend.ProcessQuery | akas/backend/enhanced_main.py:270-319 | the reply is QueryReply's; both counters advance exactly when the pipeline returned, whatever it returned; the record is appended to the newest-100 history exactly when the result answered `get`, so a 500 raised after those steps keeps their effects |
| AkasEnhanced.EnhancedBackend.CountQuery | akas/backend/enhanced_main.py:291-293 | the query counter and the total response time advance, and nothing else changes |
| AkasEnhanced.EnhancedBackend.RecordQuery | akas/backend/enhanced_main.py:295-307 | only the history changes: it becomes the newest 100 of the old one plus the record, and at the cap the oldest is dropped |
| AkasEnhanced.EnhancedBackend.QueryHistory | akas/backend/enhanced_main.py:321-336 | the caller's own records (all for anonymous), sliced `[-limit:]`, with the count before slicing |
| AkasEnhanced.EnhancedBackend.SubmitFeedback | akas/backend/enhanced_main.py:342-364 | 422 for a rating outside 1 to 5; otherwise the record is appended and the last 1000 kept |
| AkasEnhanced.EnhancedBackend.FeedbackAnalytics | akas/backend/enhanced_main.py:370-392 | zero and an empty distribution with no feedback; otherwise the total and the per-rating counts, which add up to it |
| AkasEnhanced.EnhancedBackend.SystemStats | akas/backend/enhanced_main.py:411-426 | the document and query counters as they stand |
| AkasEnhanced.EnhancedBackend.ResetSystem | akas/backend/enhanced_main.py:433-456 | only "admin" clears the logs and counters; anyone else gets 500 (the 403 re-raised) and nothing changes |
| AkasEnhanced.EnhancedBackend.UploadDocument | akas/backend/enhanced_main.py:212-253 | a named, saved upload is answered 200 when the processor returns None or an int and the file is removed, with chunks_created null, the int, or 0 without a processor; total_documents advances as soon as the processor returns, so a failed os.remove or a non-int result is a 500 that keeps the increment; every failure is 500 |
| AkasV2.AvailableProviders | akas/backend/main_v2.py:58-69 | each provider whose key is set, in fixed order, without repeats; ["openai"] when none is |
| AkasV2.QuestionOnly | akas/backend/main_v2.py:33-37 | the declared defaults openai, similarity and 4 |
| AkasV2.QueryAnswer | akas/backend/main_v2.py:117-158 | 400 with its message before ingestion; the chain's answer with empty sources; 500 when the chain raises |
| AkasV2.QueryIgnoresOptions | akas/backend/main_v2.py:130 | only the question reaches the chain |
| AkasV2.SumRatingsBounds | akas/backend/main_v2.py:202 | ratings within [lo, hi] sum to within n times those bounds |
| AkasV2.SatisfactionMeaning | akas/backend/main_v2.py:201-204 | the satisfaction lies within the ratings' range, is 4.0 with no feedback, and an unchecked rating 0 gives 0 |
| AkasV2.MeanBounds | akas/backend/main_v2.py:202 | a mean of values within [lo, hi] is within [lo, hi] |
| AkasV2.ChunksPerFileApproximate | akas/backend/main_v2.py:110 | the per-file chunk figure under-counts by less than one chunk per file |
| AkasV2.V2Backend.constructor | akas/backend/main_v2.py:26-30 | no chain and empty logs |
| AkasV2.V2Backend.Ingest | akas/backend/main_v2.py:72-115 | no files is 422 and a failed write 500, both with no change; otherwise one saved entry per file, and with chunks the chain is built and every entry processed with `len(docs) // len(results)`; ingestion or chain failures are 500 |
| AkasV2.V2Backend.Query | akas/backend/main_v2.py:117-158 | the reply is QueryAnswer's; an answered query is logged and the last 100 kept |
| AkasV2.V2Backend.SubmitFeedback | akas/backend/main_v2.py:160-179 | every rating accepted; the entry appended and the last 100 kept; the acknowledgement carries its id |
| AkasV2.V2Backend.Questions | akas/backend/main_v2.py:190 | the logged questions, oldest first |
| AkasV2.V2Backend.GetAnalytics | akas/backend/main_v2.py:181-211 | the number of logged queries, the popular topics of their questions, and the mean rating or 4.0 |
| AkasIngest.Route | akas/backend/enhanced_ingest.py:27-36 | each loader exactly for its case-insensitive suffix, in the order pdf, txt, docx, xlsx; others skipped |
| AkasIngest.RouteIgnoresCase | akas/backend/enhanced_ingest.py:27 | "Report.PDF" goes to the PDF loader |
| AkasIngest.RouteNeedsSuffix | akas/backend/enhanced_ingest.py:27-36 | "notes.pdf.zip" is skipped |
| AkasIngest.GatheredConcat | akas/backend/enhanced_ingest.py:23-43 | each item's documents are collected independently and in order |
| AkasIngest.LoadedDocsConcat | akas/backend/enhanced_ingest.py:23-43 | the files' documents are concatenated in listing order; a failing file removes only its own |
| AkasIngest.SingleFile | akas/backend/enhanced_ingest.py:26-43 | one file contributes its loader's documents, or nothing when skipped or when its loader raises |
| AkasIngest.WebDocsConcat | akas/backend/enhanced_ingest.py:57-64 | a failing URL removes only its own documents |
| AkasIngest.LastIndex | akas/backend/enhanced_ingest.py:51 | the position of the last occurrence of a character, or -1 |
| AkasIngest.Splitext | akas/backend/enhanced_ingest.py:51 | `os.path.splitext`: root plus extension is the path, the extension is empty or one dot and no further dot or slash |
| AkasIngest.LastIndexAt | akas/backend/enhanced_ingest.py:51 | the last occurrence is found |
| AkasIngest.NoneAfter | akas/backend/enhanced_ingest.py:51 | no occurrence gives -1 |
| AkasIngest.SplitextExamples | akas/backend/enhanced_ingest.py:51 | case kept, only the last dot counts, a leading dot or a dot in a directory gives no extension |
| AkasIngest.NoSourceNoFileType | akas/backend/enhanced_ingest.py:51 | a chunk without a source gets an empty file_type |
| AkasIngest.TagMeaning | akas/backend/enhanced_ingest.py:49-51 | a tagged chunk keeps its content and every other metadata entry and gains exactly processed_at (the stamp) and file_type (the source's extension) |
| AkasIngest.Mapped | akas/backend/enhanced_ingest.py:49-51 | rewriting each element of a list in place keeps its length |
| AkasIngest.MappedMeaning | akas/backend/enhanced_ingest.py:49-51 | the i-th element is the step applied to the i-th chunk at index i |
| AkasIngest.TagAllMeaning | akas/backend/enhanced_ingest.py:49-51 | every chunk is tagged in place, the i-th with the i-th clock reading |
| AkasIngest.EnhancedDocumentIngestor.constructor | akas/backend/enhanced_ingest.py:13-17 | a splitter of chunk size 1000 and overlap 200 |
| AkasIngest.EnhancedDocumentIngestor.LoadDocuments | akas/backend/enhanced_ingest.py:19-43 | the loop's documents are the listing's files' loader outputs concatenated in listing order, skipping unrouted files and files whose loader raises |
| AkasIngest.EnhancedDocumentIngestor.IngestDocuments | akas/backend/enhanced_ingest.py:19-53 | the split of the listing's loaded documents, every chunk tagged |
| AkasIngest.EnhancedDocumentIngestor.IngestWebContent | akas/backend/enhanced_ingest.py:55-66 | the split of the documents every URL that loads returns, untagged |
| Payment.FirstMissing | microservices-platform/tracing/instrumentation/python/tracing.py:87-92 | None exactly when every field is present; otherwise a field that is absent |
| Payment.FirstMissingMeaning | microservices-platform/tracing/instrumentation/python/tracing.py:89-92 | the first absent field in list order is the one reported |
| Payment.RequiredFieldsListed | microservices-platform/tracing/instrumentation/python/tracing.py:87 | the required fields are amount, currency, method and card_number |
| Payment.ValidatePayment | microservices-platform/tracing/instrumentation/python/tracing.py:84-100 | the data is returned unchanged exactly when all four fields are present and the amount is positive |
| Payment.MissingFieldReported | microservices-platform/tracing/instrumentation/python/tracing.py:89-92 | a ValueError naming the first missing field in the order amount, currency, method, card_number |
| Payment.AmountRule | microservices-platform/tracing/instrumentation/python/tracing.py:94-96 | "Amount must be positive" exactly when all fields are present and the amount compares as not positive |
| Payment.ProcessPayment | microservices-platform/tracing/instrumentation/python/tracing.py:117-122 | the fixed id and status, echoing amount and currency, and nothing else |
| Payment.CreatePayment | microservices-platform/tracing/instrumentation/python/tracing.py:48-82 | the reply status is 201, 400 or 500 |
| Payment.CreatedMeaning | microservices-platform/tracing/instrumentation/python/tracing.py:61-72 | 201 exactly for an object body that validates, with the processed payment as body |
| Payment.ErrorStatusMeaning | microservices-platform/tracing/instrumentation/python/tracing.py:74-82 | a ValueError is 400 with its message; every other failure is 500 with "Internal server error" |
| Payment.StringAmountIsInternalError | microservices-platform/tracing/instrumentation/python/tracing.py:94 | a string amount raises TypeError, so the client sees 500 |

## Left out

- Floating-point results are not modelled: average response times, `average_rating` and `round`, `processing_time`, uptime, the constant confidence 0.85. The running total of response times is kept as an exact real sum.
- AkasEnhanced.EnhancedBackend.FeedbackAnalytics: does not return `average_rating`, a rounded float.
- AkasEnhanced.EnhancedBackend.SystemStats: does not return the average response time or the uptime, which come from float division and the clock.
- AkasV2.V2Backend.GetAnalytics: does not return `avg_response_time`; `user_satisfaction` is the exact mean, without `round(…, 1)`.
- AkasEnhanced.EnhancedBackend.UploadDocument: DocumentProcessor is not defined in the repository, so what `process_document` returns is a parameter covering every case (raises, None, an int, a value the response model refuses); which values pydantic coerces to an int is not modelled, and `processing_time` is left out of the reply.
- AkasEnhanced.EnhancedBackend.ProcessQuery: the stored record keeps the query, the response and the user, but not the timestamp or the processing time. The pipeline's result is a dictionary whose `response` and `sources` are absent, usable or unusable, or a value without `get`; a value with a `get` of its own that is not a dictionary is not modelled, and a stored response that is not a string is recorded as none.
- Timestamps and clock readings are not part of the records: query and feedback timestamps, `uploaded_at`, JPA auditing dates and `@PrePersist`. In the ingestor the clock is a parameter, and its i-th reading stamps the i-th chunk.
- The JWT encoding and decoding, token expiry and bcrypt in enhanced_main.py (lines 97-125) are not modelled. Login takes the token creation's outcome as a parameter, and handlers take the verified subject as `Option<string>`.
- uuid4 values, the files written under /tmp and docs/, `os.remove` and `os.listdir` become parameters: the file ids, a "written" flag (in the upload handler and in the v2 ingest handler), a "removed" flag for the upload handler's `os.remove`, and the directory listing. The files already written before a failed write stay on disk; the directory's contents are not part of the model.
- The RAG pipeline, the document processor, `ingest_documents`, `build_vector_store`, `get_qa_chain`, `qa_chain.run`, the LangChain loaders and the text splitter are opaque. Each is a function parameter returning a value, or `None` where it raises. Chunking and overlap behaviour is not claimed.
- Exception texts that a handler copies into a 500 detail (`f"Query failed: {e}"` and the like) are not modelled; such a reply carries `None` as its detail.
- Metadata values in the ingestor are strings. Non-string `source` values, which `os.path.splitext` would reject, are not modelled.
- Payment amounts are exact rationals. NaN and infinite JSON numbers are not modelled. Tracing spans, span attributes, events, the simulated 0.1 s delay and `send_notification` do not affect the reply and are left out.
- Concurrency is not modelled: `asyncio.to_thread` and interleaved requests. Every handler is one atomic step.
- Text.Like: a backslash is an ordinary character. PostgreSQL, H2 and MySQL treat it as LIKE's default escape, so the substring lemmas require a search term without one.
- BeanValidation.Size: counts characters (code points), where Hibernate's `@Size` counts UTF-16 units of `String.length()`; the two differ only for characters outside the Basic Multilingual Plane.
- Lex.Less: `ORDER BY` on text is modelled as code-point order; a database collation that orders otherwise (case- or locale-aware) is not modelled.
- Python's `str.lower` is modelled on ASCII letters only, and Java's `toLowerCase`/SQL LOWER the same way. Non-ASCII case mapping is not modelled.
- Paging and sorting by `Pageable`/`Sort` on an arbitrary field name: query results are modelled as sets of ids, so the order and the page slice are not. The paging errors modelled are those of Sort.Direction.fromString, Sort.by and PageRequest.of, plus a sort property the query cannot resolve; the order and the page slice are not modelled.
- CatalogService.Decapitalize: only ASCII letters count as upper case and only they are lower-cased (Character.isUpperCase and toLowerCase are Unicode-wide); a derived query's nested property paths (a dotted name, or a camel-case split into an attribute of an attribute) are not modelled, so such a sort property counts as unknown.
- BeanValidation.PriceDigits: prices are whole cents, so a request price with three or more decimals (9.999), which @Digits(integer = 10, fraction = 2) refuses with 400 (the request classes and the entity say "Price must have at most 10 integer digits and 2 fractional digits", the platform DTOs "Price must have at most 2 decimal places"), cannot be expressed; likewise weights are whole thousandths, so a weight with more than three decimals, which passes validation (only @DecimalMin applies) and is then rounded by the numeric(8,3) column, is not modelled.
- `@Transactional` rollback and Spring Security configuration (every route permitted) are not modelled. The Spring application classes are also left out.
- CatalogRepository.ProductRepository.UpdateProductStatusAsDeclared: the `@Query` UPDATE statements of updateProductStatus and updateStockQuantity lack `@Modifying`, so Spring Data refuses them at run time; the provider's exact exception is not modelled. UpdateProductStatus states what the declared statement would do.
- getLowStockProducts, getAllCategories and getAllBrands of the service only delegate to the repository. They are modelled by the repository functions FindLowStockProducts, FindDistinctCategories and FindDistinctBrands.
- The platform variant's ProductController is not modelled. It calls service methods and a DTO that no service in the repository defines.
- The Streamlit frontends are not modelled, and neither are akas/backend/main.py, mcp.py, ingest.py, rag_pipeline.py and enhanced_rag_pipeline.py. They hold no logic beyond library calls, or beyond what main_v2.py covers.
- Lex.Sorted, CatalogRepository.FindDistinctCategories, CatalogRepository.FindDistinctBrands and PlatformCatalog.FindDistinctCategories are ghost functions: the sorted list is defined by its properties and not computed.

## Findings

| source | as written | input that shows it | evidently intended | confidence | as-written member | corrected member |
|---|---|---|---|---|---|---|
| microservices-platform-Aws/services/product-service/src/main/java/com/microservices/productservice/model/Product.java:231-236 | `addStock` adds in `int` arithmetic with no overflow check, so a large quantity wraps the stock to a negative value | stock 2147483647, `addStock(1)` gives stock -2147483648 | stock never becomes negative; an addition past the `int` range is refused | not executed | ProductEntity.AddStockWrapsNegative | ProductEntity.Product.AddStockChecked |
| microservices-platform-Aws/services/product-service/src/main/java/com/microservices/productservice/controller/ProductController.java:173-176 | update, updateStock and addStock answer 404 whenever the exception message contains "not found", and the duplicate-SKU message embeds the requested SKU | updating a product to the SKU "not found" when another product holds it gives 404 instead of 400 | 404 only when the product does not exist | not executed | ProductController.SkuSayingNotFoundIs404 | ProductController.MutationReply |

=== FILE: akas_enhanced_main.dfy ===
/** The enhanced AKAS backend: its module-level bookkeeping (the query and
    feedback logs, the document and query counters) and the endpoints that
    read and write it. The RAG pipeline, the document processor, the JWT
    library and the clock are collaborators whose results arrive as
    parameters: `None` where the call raises. Every handler body sits in a
    `try ... except Exception` that re-raises as 500, so an HTTPException the
    body raises itself (the 503, 400 and 403 below) reaches the client as a
    500. */
module AkasEnhanced {
  import opened Wrappers
  import opened BoundedLog
  import opened Http
  import Text

  const QUERY_HISTORY_CAP: nat := 100
  const FEEDBACK_CAP: nat := 1000
  const ACCESS_TOKEN_EXPIRE_MINUTES: nat := 30

  /** How startup went: `RAGPipeline()` raised, its `initialize` raised (the
      pipeline global is already assigned then), or both collaborators were
      created. */
  datatype Startup = ConstructionFailed | InitializeFailed | Started

  // ---------------------------------------------------------------------
  // Request models

  datatype QueryRequest = QueryRequest(query: string, maxResults: Option<int>, includeMetadata: Option<bool>)

  /** The Field bounds of QueryRequest: a query of 1 to 1000 characters and,
      when given, 1 <= max_results <= 20. */
  predicate QueryRequestValid(q: QueryRequest) {
    1 <= |q.query| <= 1000 && (q.maxResults.Some? ==> 1 <= q.maxResults.value <= 20)
  }

  datatype FeedbackRequest = FeedbackRequest(query: string, response: string, rating: int, comment: Option<string>)

  /** The Field bounds of FeedbackRequest: 1 <= rating <= 5. */
  predicate FeedbackRequestValid(f: FeedbackRequest) {
    1 <= f.rating <= 5
  }

  datatype UserCreate = UserCreate(username: string, password: string, email: Option<string>)

  /** The Field bounds of UserCreate: a username of 3 to 50 characters and a
      password of at least 6. */
  predicate UserCreateValid(u: UserCreate) {
    3 <= |u.username| <= 50 && |u.password| >= 6
  }

  // ---------------------------------------------------------------------
  // Records and replies

  /** One source document the pipeline cites. */
  type Source = map<string, string>

  /** One key of the dictionary the pipeline returns, as `get` sees it:
      absent, holding a value the QueryResponse model accepts, or holding
      one it refuses (None, or a value of another type). */
  datatype Entry<T> = Absent | Holds(value: T) | Unusable
  {
    /** `get(key, default)` where the value is usable. */
    function Or(default: T): T {
      if Holds? then value else default
    }
  }

  /** What the pipeline's `query` returns: a dictionary, seen through its
      two keys, or a value without a `get` method. */
  datatype PipelineResult = Dict(response: Entry<string>, sources: Entry<seq<Source>>) | NotDict

  /** An entry of `query_history`; its timestamp and timing are left out. The
      response is None where the dictionary held a value that is not a
      string. */
  datatype QueryRecord = QueryRecord(query: string, response: Option<string>, user: Option<string>)

  /** `result.get("response", "")` as the history stores it. */
  function StoredResponse(e: Entry<string>): (r: Option<string>)
    ensures r.None? <==> e.Unusable?
    ensures e.Absent? ==> r == Some("")
    ensures e.Holds? ==> r == Some(e.value)
  {
    match e
    case Absent => Some("")
    case Holds(v) => Some(v)
    case Unusable => None
  }

  datatype QueryResponse = QueryResponse(query: string, response: string, sources: seq<Source>)

  /** An entry of `feedback_data`; its timestamp is left out. */
  datatype FeedbackRecord = FeedbackRecord(query: string, response: string, rating: int, comment: Option<string>, user: Option<string>)

  /** `chunks_created` is `Optional[int]`, so a processor that returns None
      still gives a reply, with no chunk count. */
  datatype UploadResponse = UploadResponse(filename: string, size: nat, status: string, chunksCreated: Option<int>)

  /** What `doc_processor.process_document` did. DocumentProcessor is not
      part of this model, so every outcome is admitted: it raised, it
      returned None, it returned an int (or a value pydantic coerces to
      one), or it returned a value the response model refuses. */
  datatype Processed = Raised | ReturnedNone | ReturnedInt(chunks: int) | ReturnedOther

  datatype TokenReply = TokenReply(accessToken: string, tokenType: string, expiresIn: nat)

  datatype RegisterReply = RegisterReply(message: string, username: string)

  /** `if current_user:` on what verify_token returns: None and the empty
      subject are both false. */
  predicate Authenticated(user: Option<string>) {
    user.Some? && Text.Truthy(user.value)
  }

  // ---------------------------------------------------------------------
  // History

  /** `[q for q in log if q.get("user") == u]`. */
  function OwnedBy(log: seq<QueryRecord>, u: string): (r: seq<QueryRecord>)
    ensures |r| <= |log|
    ensures forall i :: 0 <= i < |r| ==> r[i].user == Some(u) && r[i] in log
  {
    if log == [] then []
    else if log[0].user == Some(u) then [log[0]] + OwnedBy(log[1..], u)
    else OwnedBy(log[1..], u)
  }

  /** Every entry of the caller's is kept. */
  lemma {:induction false} OwnedByComplete(log: seq<QueryRecord>, u: string)
    ensures forall x :: x in log && x.user == Some(u) ==> x in OwnedBy(log, u)
  {
    if log != [] {
      OwnedByComplete(log[1..], u);
      forall x | x in log && x.user == Some(u) ensures x in OwnedBy(log, u) {
        if x != log[0] {
          assert x in log[1..];
        }
      }
    }
  }

  /** The filter keeps the log's order: filtering a concatenation is the
      concatenation of the filtered parts. */
  lemma {:induction false} OwnedByConcat(a: seq<QueryRecord>, b: seq<QueryRecord>, u: string)
    ensures OwnedBy(a + b, u) == OwnedBy(a, u) + OwnedBy(b, u)
  {
    if a == [] {
      assert a + b == b;
    } else {
      assert (a + b)[0] == a[0] && (a + b)[1..] == a[1..] + b;
      OwnedByConcat(a[1..], b, u);
      if a[0].user == Some(u) {
        calc {
          OwnedBy(a + b, u);
          [a[0]] + OwnedBy(a[1..] + b, u);
          [a[0]] + (OwnedBy(a[1..], u) + OwnedBy(b, u));
          ([a[0]] + OwnedBy(a[1..], u)) + OwnedBy(b, u);
        }
      }
    }
  }

  /** The entries a caller may see: only their own when authenticated, the
      whole log otherwise. */
  function Visible(log: seq<QueryRecord>, user: Option<string>): seq<QueryRecord> {
    if Authenticated(user) then OwnedBy(log, user.value) else log
  }

  // ---------------------------------------------------------------------
  // Feedback analytics

  /** `len([f for f in log if f["rating"] == i])`. */
  function CountRating(log: seq<FeedbackRecord>, i: int): (r: nat)
    ensures r <= |log|
  {
    if log == [] then 0
    else (if log[0].rating == i then 1 else 0) + CountRating(log[1..], i)
  }

  /** The key `str(i)` under which rating i is counted. */
  function RatingKey(i: int): (r: string)
    requires 1 <= i <= 5
    ensures r == Text.NatToString(i)
  {
    ["0123456789"[i]]
  }

  /** The distribution after the loop has counted ratings 1 to i - 1. */
  function PartialDistribution(log: seq<FeedbackRecord>, i: int): map<string, nat>
    requires 1 <= i <= 6
    decreases i
  {
    if i == 1 then map[] else PartialDistribution(log, i - 1)[RatingKey(i - 1) := CountRating(log, i - 1)]
  }

  predicate RatingsInRange(log: seq<FeedbackRecord>) {
    forall k :: 0 <= k < |log| ==> 1 <= log[k].rating <= 5
  }

  /** Every entry is counted under exactly one rating when ratings are 1 to 5. */
  lemma {:induction false} RatingCountsSum(log: seq<FeedbackRecord>)
    requires RatingsInRange(log)
    ensures CountRating(log, 1) + CountRating(log, 2) + CountRating(log, 3)
          + CountRating(log, 4) + CountRating(log, 5) == |log|
  {
    if log != [] {
      RatingCountsSum(log[1..]);
    }
  }

  /** The loop's five steps, written out as one map. */
  lemma DistributionDisplay(log: seq<FeedbackRecord>)
    ensures PartialDistribution(log, 6) == map["1" := CountRating(log, 1), "2" := CountRating(log, 2),
      "3" := CountRating(log, 3), "4" := CountRating(log, 4), "5" := CountRating(log, 5)]
  {
    var c1, c2, c3, c4, c5 := CountRating(log, 1), CountRating(log, 2), CountRating(log, 3),
                              CountRating(log, 4), CountRating(log, 5);
    assert PartialDistribution(log, 2) == map["1" := c1] by {
      assert RatingKey(1) == "1";
    }
    assert PartialDistribution(log, 3) == map["1" := c1, "2" := c2] by {
      assert RatingKey(2) == "2";
    }
    assert PartialDistribution(log, 4) == map["1" := c1, "2" := c2, "3" := c3] by {
      assert RatingKey(3) == "3";
    }
    assert PartialDistribution(log, 5) == map["1" := c1, "2" := c2, "3" := c3, "4" := c4] by {
      assert RatingKey(4) == "4";
    }
    assert RatingKey(5) == "5";
  }

  /** The full distribution has exactly the keys "1" to "5", each holding the
      number of entries with that rating. */
  lemma DistributionMeaning(log: seq<FeedbackRecord>)
    ensures PartialDistribution(log, 6).Keys == {"1", "2", "3", "4", "5"}
    ensures var d := PartialDistribution(log, 6);
      d["1"] == CountRating(log, 1) && d["2"] == CountRating(log, 2) && d["3"] == CountRating(log, 3)
      && d["4"] == CountRating(log, 4) && d["5"] == CountRating(log, 5)
  {
    DistributionDisplay(log);
  }

  /** On a log of ratings 1 to 5 the five counts add up to the number of
      entries. */
  lemma DistributionTotal(log: seq<FeedbackRecord>)
    requires RatingsInRange(log)
    ensures var d := PartialDistribution(log, 6); d["1"] + d["2"] + d["3"] + d["4"] + d["5"] == |log|
  {
    DistributionMeaning(log);
    RatingCountsSum(log);
  }

  // ---------------------------------------------------------------------
  // Authentication

  /** login: a token only for admin/admin123, and only when token creation
      produced one (`create_access_token` returns None on failure); anything
      else is 401. */
  function Login(username: string, password: string, token: Option<string>): (r: Outcome<TokenReply>)
    ensures r.Done? <==> username == "admin" && password == "admin123" && token.Some? && Text.Truthy(token.value)
    ensures r.Done? ==> r.value == TokenReply(token.value, "bearer", 1800)
    ensures r.Failed? ==> r == Failed(401, Some("Incorrect username or password"))
  {
    if username == "admin" && password == "admin123" && token.Some? && Text.Truthy(token.value) then
      Done(TokenReply(token.value, "bearer", ACCESS_TOKEN_EXPIRE_MINUTES * 60))
    else
      Failed(401, Some("Incorrect username or password"))
  }

  /** register: the body's bounds first (422), then the one name taken. */
  function Register(u: UserCreate): (r: Outcome<RegisterReply>)
    ensures !UserCreateValid(u) ==> r == Failed(422, None)
    ensures UserCreateValid(u) && u.username == "admin" ==> r == Failed(400, Some("Username already exists"))
    ensures r.Done? <==> UserCreateValid(u) && u.username != "admin"
    ensures r.Done? ==> r.value == RegisterReply("User registered successfully", u.username)
  {
    if !UserCreateValid(u) then Unprocessable()
    else if u.username == "admin" then Failed(400, Some("Username already exists"))
    else Done(RegisterReply("User registered successfully", u.username))
  }

  /** The reserved name passes the body's bounds, so only the explicit check
      refuses it. */
  lemma AdminCannotRegister(password: string, email: Option<string>)
    requires |password| >= 6
    ensures UserCreateValid(UserCreate("admin", password, email))
    ensures Register(UserCreate("admin", password, email)).status == 400
  {
  }

  // ---------------------------------------------------------------------
  // The query endpoint's reply

  /** process_query's reply, from the request, whether the pipeline exists
      and what its `query` returned (None when it raised): the body's bounds
      first, then the missing pipeline (its 503 re-raised as 500), a failed
      call, a result without `get` and a value QueryResponse refuses, all
      500; otherwise the response and sources, each defaulted when the
      dictionary lacks it. */
  function QueryReply(req: QueryRequest, ready: bool, result: Option<PipelineResult>): (r: Outcome<QueryResponse>)
    ensures r.Done? <==> QueryRequestValid(req) && ready && result.Some? && result.value.Dict?
                         && !result.value.response.Unusable? && !result.value.sources.Unusable?
    ensures !QueryRequestValid(req) ==> r == Failed(422, None)
    ensures QueryRequestValid(req) && !r.Done? ==> r == Failed(500, None)
    ensures r.Done? ==> r.value.query == req.query
    ensures r.Done? && result.value.response.Holds? ==> r.value.response == result.value.response.value
    ensures r.Done? && result.value.response.Absent? ==> r.value.response == "No response generated"
    ensures r.Done? && result.value.sources.Holds? ==> r.value.sources == result.value.sources.value
    ensures r.Done? && result.value.sources.Absent? ==> r.value.sources == []
  {
    if !QueryRequestValid(req) then Unprocessable()
    else if !ready || result.None? || result.value.NotDict? then Swallowed()
    else if result.value.response.Unusable? || result.value.sources.Unusable? then Swallowed()
    else Done(QueryResponse(req.query, result.value.response.Or("No response generated"),
                            result.value.sources.Or([])))
  }

  /** The query is counted once the pipeline has returned, whatever it
      returned. */
  predicate Counted(req: QueryRequest, ready: bool, result: Option<PipelineResult>) {
    QueryRequestValid(req) && ready && result.Some?
  }

  /** The record is stored once the result has answered `get`. */
  predicate Recorded(req: QueryRequest, ready: bool, result: Option<PipelineResult>) {
    Counted(req, ready, result) && result.value.Dict?
  }

  /** A reply is given only for a counted, recorded query; a result without
      `get`, or one holding a value QueryResponse refuses, fails with 500
      after the query was counted (and, for the latter, recorded). */
  lemma QueryFailsAfterCounting(req: QueryRequest, ready: bool, result: Option<PipelineResult>)
    ensures QueryReply(req, ready, result).Done? ==> Recorded(req, ready, result)
    ensures Counted(req, ready, result) && result.value.NotDict? ==>
      QueryReply(req, ready, result) == Failed(500, None) && !Recorded(req, ready, result)
    ensures Recorded(req, ready, result) && result.value.response.Unusable? ==>
      QueryReply(req, ready, result) == Failed(500, None)
  {
  }

  // ---------------------------------------------------------------------
  // The backend state

  class EnhancedBackend {
    /** `rag_pipeline is not None` and `doc_processor is not None`. */
    var pipelineReady: bool
    var processorReady: bool
    var queryHistory: seq<QueryRecord>
    var feedbackData: seq<FeedbackRecord>
    var totalDocuments: nat
    var totalQueries: nat
    var totalResponseTime: real

    /** The caps the logs are kept under, and the rating range the feedback
        model admits. */
    ghost predicate Valid()
      reads this
    {
      |queryHistory| <= QUERY_HISTORY_CAP && |feedbackData| <= FEEDBACK_CAP && RatingsInRange(feedbackData)
    }

    /** Module load and the lifespan hook. */
    constructor (startup: Startup)
      ensures Valid()
      ensures pipelineReady <==> !startup.ConstructionFailed?
      ensures processorReady <==> startup.Started?
      ensures queryHistory == [] && feedbackData == []
      ensures totalDocuments == 0 && totalQueries == 0 && totalResponseTime == 0.0
    {
      pipelineReady := !startup.ConstructionFailed?;
      processorReady := startup.Started?;
      queryHistory := [];
      feedbackData := [];
      totalDocuments := 0;
      totalQueries := 0;
      totalResponseTime := 0.0;
    }

    /** POST /query. `result` is what `rag_pipeline.query` returns (None when
        it raises); `elapsed` is the measured processing time. The counters
        advance as soon as the pipeline has returned and the record is
        stored once the result has answered `get`, so a reply that fails
        after those steps keeps their effects. */
    method ProcessQuery(req: QueryRequest, user: Option<string>, result: Option<PipelineResult>, elapsed: real)
      returns (r: Outcome<QueryResponse>)
      requires Valid()
      modifies this
      ensures Valid()
      ensures r == QueryReply(req, old(pipelineReady), result)
      ensures pipelineReady == old(pipelineReady) && processorReady == old(processorReady)
      ensures feedbackData == old(feedbackData) && totalDocuments == old(totalDocuments)
      ensures Counted(req, old(pipelineReady), result) ==>
        totalQueries == old(totalQueries) + 1 && totalResponseTime == old(totalResponseTime) + elapsed
      ensures !Counted(req, old(pipelineReady), result) ==>
        totalQueries == old(totalQueries) && totalResponseTime == old(totalResponseTime)
      ensures Recorded(req, old(pipelineReady), result) ==>
        var rec := QueryRecord(req.query, StoredResponse(result.value.response), user);
        && queryHistory == KeepLast(old(queryHistory) + [rec], QUERY_HISTORY_CAP)
        && (|old(queryHistory)| == QUERY_HISTORY_CAP ==> queryHistory == old(queryHistory)[1..] + [rec])
      ensures !Recorded(req, old(pipelineReady), result) ==> queryHistory == old(queryHistory)
    {
      if !QueryRequestValid(req) {
        return Unprocessable();
      }
      if !pipelineReady || result.None? {
        return Swallowed();
      }
      CountQuery(elapsed);
      var res := result.value;
      if res.NotDict? {
        return Swallowed();
      }
      RecordQuery(QueryRecord(req.query, StoredResponse(res.response), user));
      if res.response.Unusable? || res.sources.Unusable? {
        return Swallowed();
      }
      r := Done(QueryResponse(req.query, res.response.Or("No response generated"), res.sources.Or([])));
    }

    /** The statistics update: the query counter and the total response time
        advance, and nothing else changes. */
    method CountQuery(elapsed: real)
      modifies this
      ensures totalQueries == old(totalQueries) + 1
      ensures totalResponseTime == old(totalResponseTime) + elapsed
      ensures pipelineReady == old(pipelineReady) && processorReady == old(processorReady)
      ensures feedbackData == old(feedbackData) && totalDocuments == old(totalDocuments)
      ensures queryHistory == old(queryHistory)
    {
      totalQueries := totalQueries + 1;
      totalResponseTime := totalResponseTime + elapsed;
    }

    /** The record is appended to the history, which `pop(0)` keeps at its
        newest 100 entries; nothing else changes. */
    method RecordQuery(rec: QueryRecord)
      requires Valid()
      modifies this
      ensures Valid()
      ensures pipelineReady == old(pipelineReady) && processorReady == old(processorReady)
      ensures feedbackData == old(feedbackData) && totalDocuments == old(totalDocuments)
      ensures totalQueries == old(totalQueries) && totalResponseTime == old(totalResponseTime)
      ensures queryHistory == KeepLast(old(queryHistory) + [rec], QUERY_HISTORY_CAP)
      ensures |old(queryHistory)| == QUERY_HISTORY_CAP ==> queryHistory == old(queryHistory)[1..] + [rec]
    {
      var history := AppendPopFront(queryHistory, rec, QUERY_HISTORY_CAP);
      PopFrontKeepsNewest(queryHistory, rec, QUERY_HISTORY_CAP);
      assert |history| <= QUERY_HISTORY_CAP;
      queryHistory := history;
    }

    /** GET /query/history: the caller's entries (all of them for an
        anonymous caller), sliced with Python's `[-limit:]`, and the number
        of entries before slicing. */
    function QueryHistory(limit: int, user: Option<string>): (r: (seq<QueryRecord>, nat))
      reads this
      ensures r.1 == |Visible(queryHistory, user)|
      ensures |r.0| <= r.1 && r.0 == Visible(queryHistory, user)[r.1 - |r.0|..]
      ensures Authenticated(user) ==> forall i :: 0 <= i < |r.0| ==> r.0[i].user == user
      ensures !Authenticated(user) ==> r.1 == |queryHistory|
      ensures limit > 0 ==> |r.0| == if limit < r.1 then limit else r.1
      ensures limit == 0 ==> |r.0| == r.1
      ensures limit < 0 ==> |r.0| == if -limit < r.1 then r.1 + limit else 0
    {
      var visible := Visible(queryHistory, user);
      (TailSlice(visible, limit), |visible|)
    }

    /** POST /feedback. */
    method SubmitFeedback(f: FeedbackRequest, user: Option<string>) returns (r: Outcome<string>)
      requires Valid()
      modifies this
      ensures Valid()
      ensures pipelineReady == old(pipelineReady) && processorReady == old(processorReady)
      ensures queryHistory == old(queryHistory) && totalDocuments == old(totalDocuments)
      ensures totalQueries == old(totalQueries) && totalResponseTime == old(totalResponseTime)
      ensures !FeedbackRequestValid(f) ==> r == Failed(422, None) && feedbackData == old(feedbackData)
      ensures FeedbackRequestValid(f) ==>
        var rec := FeedbackRecord(f.query, f.response, f.rating, f.comment, user);
        && r == Done("Feedback submitted successfully")
        && feedbackData == KeepLast(old(feedbackData) + [rec], FEEDBACK_CAP)
        && (|old(feedbackData)| == FEEDBACK_CAP ==> feedbackData == old(feedbackData)[1..] + [rec])
    {
      if !FeedbackRequestValid(f) {
        return Unprocessable();
      }
      var rec := FeedbackRecord(f.query, f.response, f.rating, f.comment, user);
      PopFrontKeepsNewest(feedbackData, rec, FEEDBACK_CAP);
      var next := AppendPopFront(feedbackData, rec, FEEDBACK_CAP);
      assert forall k :: 0 <= k < |next| ==> next[k] in feedbackData + [rec];
      feedbackData := next;
      r := Done("Feedback submitted successfully");
    }

    /** GET /feedback/analytics, without the average (a rounded float): the
        number of entries and the per-rating counts, or zero and an empty
        distribution when there is no feedback. */
    method FeedbackAnalytics() returns (total: nat, distribution: map<string, nat>)
      requires Valid()
      ensures feedbackData == [] ==> total == 0 && distribution == map[]
      ensures feedbackData != [] ==> total == |feedbackData| && distribution == PartialDistribution(feedbackData, 6)
      ensures distribution.Keys == {} || distribution.Keys == {"1", "2", "3", "4", "5"}
      ensures feedbackData != [] ==>
        distribution["1"] + distribution["2"] + distribution["3"] + distribution["4"] + distribution["5"] == total
    {
      if feedbackData == [] {
        return 0, map[];
      }
      total := |feedbackData|;
      distribution := map[];
      var i := 1;
      while i < 6
        invariant 1 <= i <= 6
        invariant distribution == PartialDistribution(feedbackData, i)
      {
        distribution := distribution[RatingKey(i) := CountRating(feedbackData, i)];
        i := i + 1;
      }
      DistributionMeaning(feedbackData);
      DistributionTotal(feedbackData);
    }

    /** GET /stats, without the average response time and the uptime. */
    method SystemStats() returns (documents: nat, queries: nat)
      ensures documents == totalDocuments && queries == totalQueries
    {
      documents := totalDocuments;
      queries := totalQueries;
    }

    /** POST /admin/reset: only the subject "admin" may reset; anyone else
        gets the 403, re-raised as 500, and nothing changes. */
    method ResetSystem(user: Option<string>) returns (r: Outcome<string>)
      requires Valid()
      modifies this
      ensures Valid()
      ensures pipelineReady == old(pipelineReady) && processorReady == old(processorReady)
      ensures user != Some("admin") ==>
        r == Failed(500, None)
        && queryHistory == old(queryHistory) && feedbackData == old(feedbackData)
        && totalDocuments == old(totalDocuments) && totalQueries == old(totalQueries)
        && totalResponseTime == old(totalResponseTime)
      ensures user == Some("admin") ==>
        r == Done("System data reset successfully")
        && queryHistory == [] && feedbackData == []
        && totalDocuments == 0 && totalQueries == 0 && totalResponseTime == 0.0
    {
      if user != Some("admin") {
        return Swallowed();
      }
      queryHistory := [];
      feedbackData := [];
      totalDocuments := 0;
      totalQueries := 0;
      totalResponseTime := 0.0;
      r := Done("System data reset successfully");
    }

    /** POST /documents/upload. `written` says whether saving the upload
        under /tmp succeeded, `processed` what `process_document` did, and
        `removed` whether `os.remove` succeeded. The counter is advanced as
        soon as the processor returns, so a failed removal or a result the
        response model refuses is a 500 that keeps the increment. */
    method UploadDocument(filename: string, content: seq<bv8>, written: bool, processed: Processed, removed: bool)
      returns (r: Outcome<UploadResponse>)
      requires Valid()
      modifies this
      ensures Valid()
      ensures pipelineReady == old(pipelineReady) && processorReady == old(processorReady)
      ensures queryHistory == old(queryHistory) && feedbackData == old(feedbackData)
      ensures totalQueries == old(totalQueries) && totalResponseTime == old(totalResponseTime)
      ensures filename == "" || !written ==> r == Failed(500, None)
      ensures r.Done? <==>
        filename != "" && written && removed
        && (processorReady ==> processed.ReturnedNone? || processed.ReturnedInt?)
      ensures r.Failed? ==> r == Failed(500, None)
      ensures totalDocuments == old(totalDocuments)
        + (if filename != "" && written && processorReady && !processed.Raised? then 1 else 0)
      ensures r.Done? ==>
        r.value == UploadResponse(filename, |content|, "processed",
                                  if !processorReady then Some(0)
                                  else if processed.ReturnedInt? then Some(processed.chunks)
                                  else None)
    {
      if filename == "" || !written {
        return Swallowed();
      }
      var created: Option<int> := Some(0);
      var refused := false;
      if processorReady {
        if processed.Raised? {
          return Swallowed();
        }
        totalDocuments := totalDocuments + 1;
        created := if processed.ReturnedInt? then Some(processed.chunks) else None;
        refused := processed.ReturnedOther?;
      }
      if !removed {
        return Swallowed();
      }
      // building DocumentUploadResponse validates chunks_created
      if refused {
        return Swallowed();
      }
      r := Done(UploadResponse(filename, |content|, "processed", created));
    }
  }
}

=== FILE: akas_ingest.dfy ===
/** The document ingestor of the AKAS backend: it routes each file of a
    directory listing to a loader by its extension, skips a file whose
    loader raises, splits what was loaded, and tags every file chunk with a
    processing time and the extension of its source. The loaders, the
    splitter, the directory listing and the clock are collaborators passed
    in as values. */
module AkasIngest {
  import opened Wrappers
  import Text

  const CHUNK_SIZE: nat := 1000
  const CHUNK_OVERLAP: nat := 200

  /** The splitter's settings; what it does with them is not modelled. */
  datatype SplitterConfig = SplitterConfig(chunkSize: nat, chunkOverlap: nat)

  type Metadata = map<string, string>

  datatype Document = Document(content: string, metadata: Metadata)

  /** The four loaders. */
  datatype Format = Pdf | Txt | Docx | Xlsx

  /** `fname.lower().endswith(...)`, tried in the order .pdf, .txt, .docx,
      .xlsx; None for a file that is skipped. */
  function Route(fname: string): (r: Option<Format>)
    ensures r == Some(Pdf) <==> Text.EndsWith(Text.Lower(fname), ".pdf")
    ensures r == Some(Txt) <==> Text.EndsWith(Text.Lower(fname), ".txt")
    ensures r == Some(Docx) <==> Text.EndsWith(Text.Lower(fname), ".docx")
    ensures r == Some(Xlsx) <==> Text.EndsWith(Text.Lower(fname), ".xlsx")
  {
    var name := Text.Lower(fname);
    if Text.EndsWith(name, ".pdf") then Some(Pdf)
    else if Text.EndsWith(name, ".txt") then Some(Txt)
    else if Text.EndsWith(name, ".docx") then Some(Docx)
    else if Text.EndsWith(name, ".xlsx") then Some(Xlsx)
    else None
  }

  /** The routing ignores the case of the extension. */
  lemma RouteIgnoresCase()
    ensures Route("Report.PDF") == Some(Pdf)
  {
    assert Text.Lower("Report.PDF") == "report.pdf";
  }

  /** A name that only contains a supported extension is skipped. */
  lemma RouteNeedsSuffix()
    ensures Route("notes.pdf.zip") == None
  {
    assert Text.Lower("notes.pdf.zip") == "notes.pdf.zip";
  }

  /** `os.path.join(directory, name)` on POSIX. */
  function PathJoin(directory: string, name: string): string {
    if |name| > 0 && name[0] == '/' then name
    else if directory == "" || directory[|directory| - 1] == '/' then directory + name
    else directory + "/" + name
  }

  /** What one listed file contributes: the documents its loader returns, or
      nothing when it is skipped or its loader raises. */
  function FileDocs(directory: string, fname: string, load: (Format, string) -> Option<seq<Document>>)
    : seq<Document>
  {
    match Route(fname)
    case None => []
    case Some(format) =>
      match load(format, PathJoin(directory, fname))
      case None => []
      case Some(documents) => documents
  }

  /** The documents a loop over `items` collects when each item contributes
      `contribution(item)`, in order. */
  function Gathered(items: seq<string>, contribution: string -> seq<Document>): seq<Document> {
    if items == [] then []
    else Gathered(items[..|items| - 1], contribution) + contribution(items[|items| - 1])
  }

  /** Each item's contribution is independent of the others. */
  lemma {:induction false} GatheredConcat(a: seq<string>, b: seq<string>, contribution: string -> seq<Document>)
    ensures Gathered(a + b, contribution) == Gathered(a, contribution) + Gathered(b, contribution)
    decreases |b|
  {
    if b == [] {
      assert a + b == a;
    } else {
      var b' := b[..|b| - 1];
      assert (a + b)[..|a + b| - 1] == a + b';
      GatheredConcat(a, b', contribution);
    }
  }

  function FileContribution(directory: string, load: (Format, string) -> Option<seq<Document>>)
    : string -> seq<Document>
  {
    fname => FileDocs(directory, fname, load)
  }

  /** `docs` after the loop over the listing. */
  function LoadedDocs(directory: string, listing: seq<string>, load: (Format, string) -> Option<seq<Document>>)
    : seq<Document>
  {
    Gathered(listing, FileContribution(directory, load))
  }

  /** The documents are concatenated in listing order, each file's
      contribution independent of the others: a file that fails removes only
      its own documents. */
  lemma LoadedDocsConcat(directory: string, a: seq<string>, b: seq<string>,
                         load: (Format, string) -> Option<seq<Document>>)
    ensures LoadedDocs(directory, a + b, load) == LoadedDocs(directory, a, load) + LoadedDocs(directory, b, load)
  {
    GatheredConcat(a, b, FileContribution(directory, load));
  }

  /** A single file contributes its loader's documents when it is routed and
      its loader succeeds, and nothing otherwise. */
  lemma SingleFile(directory: string, fname: string, load: (Format, string) -> Option<seq<Document>>)
    ensures Route(fname).None? ==> LoadedDocs(directory, [fname], load) == []
    ensures Route(fname).Some? && load(Route(fname).value, PathJoin(directory, fname)).None? ==>
      LoadedDocs(directory, [fname], load) == []
    ensures Route(fname).Some? && load(Route(fname).value, PathJoin(directory, fname)).Some? ==>
      LoadedDocs(directory, [fname], load) == load(Route(fname).value, PathJoin(directory, fname)).value
  {
    var c := FileContribution(directory, load);
    assert [fname][..0] == [];
    assert Gathered([fname], c) == Gathered([], c) + c(fname);
    assert c(fname) == FileDocs(directory, fname, load);
  }

  function WebContribution(load: string -> Option<seq<Document>>): string -> seq<Document> {
    url => load(url).GetOr([])
  }

  /** `docs` after the loop over the URLs. */
  function WebDocs(urls: seq<string>, load: string -> Option<seq<Document>>): seq<Document> {
    Gathered(urls, WebContribution(load))
  }

  /** A URL that fails removes only its own documents. */
  lemma WebDocsConcat(a: seq<string>, b: seq<string>, load: string -> Option<seq<Document>>)
    ensures WebDocs(a + b, load) == WebDocs(a, load) + WebDocs(b, load)
  {
    GatheredConcat(a, b, WebContribution(load));
  }

  // ---------------------------------------------------------------------
  // os.path.splitext

  /** The index of the last c in s, or -1. */
  function LastIndex(s: string, c: char): (r: int)
    ensures -1 <= r < |s|
    ensures r >= 0 ==> s[r] == c
    ensures forall i :: r < i < |s| ==> s[i] != c
  {
    if s == [] then -1
    else if s[|s| - 1] == c then |s| - 1
    else LastIndex(s[..|s| - 1], c)
  }

  /** Some character of s[from..to] is not a dot. */
  predicate NotAllDots(s: string, from: int, to: int)
    requires 0 <= from <= to <= |s|
  {
    exists i :: from <= i < to && s[i] != '.'
  }

  /** `os.path.splitext(p)` on POSIX: the extension runs from the last dot
      of the last path component, provided that component has something
      other than dots before it; otherwise there is none. */
  function Splitext(p: string): (r: (string, string))
    ensures r.0 + r.1 == p
    ensures r.1 == "" || r.1[0] == '.'
    ensures forall i :: 1 <= i < |r.1| ==> r.1[i] != '.' && r.1[i] != '/'
  {
    var sep := LastIndex(p, '/');
    var dot := LastIndex(p, '.');
    if dot > sep && NotAllDots(p, sep + 1, dot) then
      assert p[..dot] + p[dot..] == p;
      (p[..dot], p[dot..])
    else (p, "")
  }

  lemma LastIndexAt(s: string, c: char, k: int)
    requires 0 <= k < |s| && s[k] == c && forall i :: k < i < |s| ==> s[i] != c
    ensures LastIndex(s, c) == k
  {
  }

  lemma NoneAfter(s: string, c: char)
    requires forall i :: 0 <= i < |s| ==> s[i] != c
    ensures LastIndex(s, c) == -1
  {
  }

  /** The extension keeps its case, a leading dot does not start one, a dot
      in a directory name does not count, and only the last dot does. */
  lemma SplitextExamples()
    ensures Splitext("docs/Report.PDF").1 == ".PDF"
    ensures Splitext("docs/archive.tar.gz").1 == ".gz"
    ensures Splitext("docs/.env").1 == ""
    ensures Splitext("v1.2/README").1 == ""
    ensures Splitext("").1 == ""
  {
    var p := "docs/Report.PDF";
    LastIndexAt(p, '/', 4);
    LastIndexAt(p, '.', 11);
    assert p[5] != '.';
    var q := "docs/archive.tar.gz";
    LastIndexAt(q, '/', 4);
    LastIndexAt(q, '.', 16);
    assert q[5] != '.';
    var e := "docs/.env";
    LastIndexAt(e, '/', 4);
    LastIndexAt(e, '.', 5);
    var v := "v1.2/README";
    LastIndexAt(v, '/', 4);
    LastIndexAt(v, '.', 2);
    NoneAfter("", '/');
  }

  // ---------------------------------------------------------------------
  // Metadata tagging

  /** `doc.metadata.get('source', '')`. */
  function Source(d: Document): string {
    if "source" in d.metadata then d.metadata["source"] else ""
  }

  /** The extension of a chunk's source, `os.path.splitext(source)[1]`. */
  function FileType(d: Document): string {
    Splitext(Source(d)).1
  }

  /** One pass of the tagging loop's body on a chunk. */
  function Tag(d: Document, stamp: string): Document {
    d.(metadata := d.metadata["processed_at" := stamp]["file_type" := FileType(d)])
  }

  /** A tagged chunk keeps its content and every other metadata entry, and
      gains exactly the keys processed_at and file_type. */
  lemma TagMeaning(d: Document, stamp: string)
    ensures Tag(d, stamp).content == d.content
    ensures Tag(d, stamp).metadata.Keys == d.metadata.Keys + {"processed_at", "file_type"}
    ensures Tag(d, stamp).metadata["processed_at"] == stamp
    ensures Tag(d, stamp).metadata["file_type"] == FileType(d)
    ensures forall k :: k in d.metadata && k != "processed_at" && k != "file_type" ==>
      Tag(d, stamp).metadata[k] == d.metadata[k]
  {
  }

  /** A chunk without a source gets an empty file type. */
  lemma NoSourceNoFileType(d: Document, stamp: string)
    requires "source" !in d.metadata
    ensures Tag(d, stamp).metadata["file_type"] == ""
  {
    assert Source(d) == "";
  }

  /** `step(chunks[i], i)` for every chunk, in order: the shape of a loop
      that rewrites each element of a list in place. */
  function Mapped(chunks: seq<Document>, step: (Document, nat) -> Document): (r: seq<Document>)
    ensures |r| == |chunks|
  {
    if chunks == [] then []
    else Mapped(chunks[..|chunks| - 1], step) + [step(chunks[|chunks| - 1], |chunks| - 1)]
  }

  /** Each element is rewritten by the step, at its own index. */
  lemma {:induction false} MappedMeaning(chunks: seq<Document>, step: (Document, nat) -> Document)
    ensures forall i :: 0 <= i < |chunks| ==> Mapped(chunks, step)[i] == step(chunks[i], i)
  {
    if chunks != [] {
      var p := chunks[..|chunks| - 1];
      MappedMeaning(p, step);
      forall i | 0 <= i < |chunks| ensures Mapped(chunks, step)[i] == step(chunks[i], i) {
        if i < |p| {
          assert chunks[i] == p[i];
        }
      }
    }
  }

  /** The tagging loop's body: the i-th chunk is stamped with clock(i). */
  function Tagger(clock: nat -> string): (Document, nat) -> Document {
    (d: Document, i: nat) => Tag(d, clock(i))
  }

  /** The chunks after the tagging loop. */
  function TagAll(chunks: seq<Document>, clock: nat -> string): seq<Document> {
    Mapped(chunks, Tagger(clock))
  }

  /** Every chunk is tagged, in place and in order, the i-th with clock(i). */
  lemma TagAllMeaning(chunks: seq<Document>, clock: nat -> string)
    ensures |TagAll(chunks, clock)| == |chunks|
    ensures forall i :: 0 <= i < |chunks| ==> TagAll(chunks, clock)[i] == Tag(chunks[i], clock(i))
  {
    MappedMeaning(chunks, Tagger(clock));
  }

  class EnhancedDocumentIngestor {
    const splitter: SplitterConfig

    constructor ()
      ensures splitter == SplitterConfig(CHUNK_SIZE, CHUNK_OVERLAP)
    {
      splitter := SplitterConfig(CHUNK_SIZE, CHUNK_OVERLAP);
    }

    /** The loop of ingest_documents over the listing: each routed file's
        loader output is appended, and a file whose loader raises is
        skipped. `listing` is `os.listdir(directory)` and `load` the loaders
        (None where one raises). */
    method LoadDocuments(directory: string, listing: seq<string>, load: (Format, string) -> Option<seq<Document>>)
      returns (docs: seq<Document>)
      ensures docs == LoadedDocs(directory, listing, load)
    {
      docs := [];
      var n := 0;
      while n < |listing|
        invariant 0 <= n <= |listing|
        invariant docs == Gathered(listing[..n], FileContribution(directory, load))
      {
        var fname := listing[n];
        var path := PathJoin(directory, fname);
        var format := Route(fname);
        assert listing[..n + 1][..n] == listing[..n];
        if format.Some? {
          var documents := load(format.value, path);
          if documents.Some? {
            docs := docs + documents.value;
          }
          assert FileDocs(directory, fname, load) == documents.GetOr([]);
        } else {
          assert FileDocs(directory, fname, load) == [];
        }
        n := n + 1;
      }
      assert listing[..|listing|] == listing;
    }

    /** ingest_documents: the loaded documents are split, and the tagging
        loop stamps the i-th chunk with `clock(i)`, the time read for it. */
    method IngestDocuments(directory: string, listing: seq<string>, load: (Format, string) -> Option<seq<Document>>,
                           split: (SplitterConfig, seq<Document>) -> seq<Document>, clock: nat -> string)
      returns (chunks: seq<Document>)
      ensures chunks == TagAll(split(splitter, LoadedDocs(directory, listing, load)), clock)
    {
      var docs := LoadDocuments(directory, listing, load);
      var split_docs := split(splitter, docs);
      assert split_docs[..|split_docs|] == split_docs;
      var tag := Tagger(clock);
      chunks := [];
      var i := 0;
      while i < |split_docs|
        invariant 0 <= i <= |split_docs|
        invariant chunks == Mapped(split_docs[..i], tag)
      {
        assert split_docs[..i + 1][..i] == split_docs[..i];
        chunks := chunks + [tag(split_docs[i], i)];
        i := i + 1;
      }
    }

    /** ingest_web_content: the same splitter, and no tagging. */
    method IngestWebContent(urls: seq<string>, load: string -> Option<seq<Document>>,
                            split: (SplitterConfig, seq<Document>) -> seq<Document>)
      returns (chunks: seq<Document>)
      ensures chunks == split(splitter, WebDocs(urls, load))
    {
      var docs: seq<Document> := [];
      var n := 0;
      while n < |urls|
        invariant 0 <= n <= |urls|
        invariant docs == Gathered(urls[..n], WebContribution(load))
      {
        assert urls[..n + 1][..n] == urls[..n];
        var webDocs := load(urls[n]);
        if webDocs.Some? {
          docs := docs + webDocs.value;
        }
        n := n + 1;
      }
      assert urls[..|urls|] == urls;
      chunks := split(splitter, docs);
    }
  }
}

=== FILE: akas_main_v2.dfy ===
/** The v2 AKAS API: the provider list read from the environment, and the
    in-memory query and feedback logs behind the ingest, query, feedback and
    analytics endpoints. The ingestion pipeline, the vector store, the
    question-answering chain, uuid4 and the clock are collaborators whose
    results arrive as parameters; a collaborator that raises is `None`. */
module AkasV2 {
  import opened Wrappers
  import opened BoundedLog
  import opened Http
  import Text
  import PopularTopics

  const LOG_CAP: nat := 100
  const DEFAULT_SATISFACTION: real := 4.0
  const NOT_INGESTED: string := "No data ingested yet. Please upload documents first."

  // ---------------------------------------------------------------------
  // Providers

  const PROVIDERS: seq<string> := ["openai", "anthropic", "google"]

  /** get_available_llm_providers: each provider whose API key variable is
      set to a non-empty value, in the fixed order; "openai" when none is. */
  function AvailableProviders(openaiKey: Option<string>, anthropicKey: Option<string>, googleKey: Option<string>)
    : (r: seq<string>)
    ensures r != []
    ensures forall i, j :: 0 <= i < j < |r| ==> r[i] != r[j]
    ensures forall p :: p in r ==> p in PROVIDERS
    ensures "anthropic" in r <==> KeySet(anthropicKey)
    ensures "google" in r <==> KeySet(googleKey)
    ensures "openai" in r <==> KeySet(openaiKey) || r == ["openai"]
    ensures !KeySet(openaiKey) && !KeySet(anthropicKey) && !KeySet(googleKey) ==> r == ["openai"]
    ensures forall i, j :: 0 <= i < j < |r| ==> ProviderRank(r[i]) < ProviderRank(r[j])
  {
    var providers :=
      (if KeySet(openaiKey) then ["openai"] else [])
      + (if KeySet(anthropicKey) then ["anthropic"] else [])
      + (if KeySet(googleKey) then ["google"] else []);
    if providers != [] then providers else ["openai"]
  }

  /** `if os.getenv(name):` — unset and empty are both false. */
  predicate KeySet(v: Option<string>) {
    v.Some? && Text.Truthy(v.value)
  }

  /** A provider's place in the fixed order. */
  function ProviderRank(p: string): nat {
    if p == "openai" then 0 else if p == "anthropic" then 1 else 2
  }

  // ---------------------------------------------------------------------
  // Records and replies

  datatype UploadedFile = UploadedFile(filename: string, content: seq<bv8>)

  /** One entry of the ingest reply; the upload timestamp is left out. */
  datatype IngestResult = IngestResult(fileId: string, filename: string, status: string, filePath: string,
                                       chunksCreated: Option<nat>)

  datatype IngestReply = IngestReply(results: seq<IngestResult>, totalChunks: nat)

  /** The entry for a file just written under docs/. */
  function SavedResult(fileId: string, f: UploadedFile): IngestResult {
    IngestResult(fileId, f.filename, "saved", "docs/" + fileId + "_" + f.filename, None)
  }

  datatype QueryRequest = QueryRequest(question: string, llmProvider: Option<string>, searchType: Option<string>,
                                       k: Option<int>)

  /** A query request as Pydantic builds it from a body naming only the
      question: the declared defaults fill the rest. */
  function QuestionOnly(question: string): (q: QueryRequest)
    ensures q.question == question && q.llmProvider == Some("openai")
    ensures q.searchType == Some("similarity") && q.k == Some(4)
  {
    QueryRequest(question, Some("openai"), Some("similarity"), Some(4))
  }

  /** A `query_logs` entry; processing time and timestamp are left out. */
  datatype QueryLog = QueryLog(queryId: string, question: string, answer: string, llmProvider: Option<string>)

  /** The reply of a query; sources are always empty and the confidence is
      the constant 0.85, left out with the other floats. */
  datatype QueryResponse = QueryResponse(answer: string, sources: seq<map<string, string>>, queryId: string)

  datatype UserFeedback = UserFeedback(queryId: string, rating: int, comment: Option<string>)

  /** A `feedback_data` entry; the timestamp is left out. */
  datatype FeedbackEntry = FeedbackEntry(feedbackId: string, queryId: string, rating: int, comment: Option<string>)

  datatype FeedbackAck = FeedbackAck(status: string, feedbackId: string)

  datatype Analytics = Analytics(totalQueries: nat, popularTopics: seq<string>, userSatisfaction: real)

  // ---------------------------------------------------------------------
  // Specification of the query endpoint and of the satisfaction figure

  /** enhanced_query as a function of whether a chain exists, the chain
      itself, the request and the query id. */
  function QueryAnswer(ready: bool, chain: string -> Option<string>, req: QueryRequest, queryId: string)
    : (r: Outcome<QueryResponse>)
    ensures !ready ==> r == Failed(400, Some(NOT_INGESTED))
    ensures ready && chain(req.question).None? ==> r == Failed(500, None)
    ensures r.Done? <==> ready && chain(req.question).Some?
    ensures r.Done? ==> r.value == QueryResponse(chain(req.question).value, [], queryId)
  {
    if !ready then Failed(400, Some(NOT_INGESTED))
    else match chain(req.question)
      case None => Swallowed()
      case Some(answer) => Done(QueryResponse(answer, [], queryId))
  }

  /** Only the question reaches the chain: the provider, the search type and
      k do not change the answer. */
  lemma QueryIgnoresOptions(ready: bool, chain: string -> Option<string>, a: QueryRequest, b: QueryRequest,
                            queryId: string)
    requires a.question == b.question
    ensures QueryAnswer(ready, chain, a, queryId) == QueryAnswer(ready, chain, b, queryId)
  {
  }

  function SumRatings(fb: seq<FeedbackEntry>): int {
    if fb == [] then 0 else SumRatings(fb[..|fb| - 1]) + fb[|fb| - 1].rating
  }

  /** `user_satisfaction` before rounding: the mean rating, or 4.0 with no
      feedback. */
  function Satisfaction(fb: seq<FeedbackEntry>): real {
    if fb == [] then DEFAULT_SATISFACTION else SumRatings(fb) as real / |fb| as real
  }

  /** Ratings within [lo, hi] give a sum within [n * lo, n * hi]. */
  lemma {:induction false} SumRatingsBounds(fb: seq<FeedbackEntry>, lo: int, hi: int)
    requires forall k :: 0 <= k < |fb| ==> lo <= fb[k].rating <= hi
    ensures |fb| * lo <= SumRatings(fb) <= |fb| * hi
  {
    if fb != [] {
      SumRatingsBounds(fb[..|fb| - 1], lo, hi);
    }
  }

  /** The satisfaction figure lies within the range of the ratings given,
      and since ratings are not range-checked, so can it: a single rating of
      0 makes it 0. */
  lemma SatisfactionMeaning(fb: seq<FeedbackEntry>, lo: int, hi: int)
    requires fb != [] && forall k :: 0 <= k < |fb| ==> lo <= fb[k].rating <= hi
    ensures lo as real <= Satisfaction(fb) <= hi as real
    ensures Satisfaction([]) == 4.0
    ensures Satisfaction([FeedbackEntry("f", "q", 0, None)]) == 0.0
  {
    SumRatingsBounds(fb, lo, hi);
    MeanBounds(SumRatings(fb), |fb|, lo, hi);
    assert SumRatings([FeedbackEntry("f", "q", 0, None)]) == 0;
  }

  /** A sum of n values within [lo, hi], divided by n, is within [lo, hi]. */
  lemma MeanBounds(s: int, n: nat, lo: int, hi: int)
    requires n > 0 && n * lo <= s <= n * hi
    ensures lo as real <= s as real / n as real <= hi as real
  {
    var m := s as real / n as real;
    assert m * (n as real) == s as real;
    assert (m - lo as real) * (n as real) >= 0.0;
    assert (hi as real - m) * (n as real) >= 0.0;
  }

  /** Ingest's chunk figure is `len(docs) // len(results)` for every file: it
      never adds up to more than the chunks created, and falls short by less
      than one per file. */
  lemma ChunksPerFileApproximate(docs: nat, files: nat)
    requires files > 0
    ensures files * (docs / files) <= docs < files * (docs / files) + files
  {
  }

  // ---------------------------------------------------------------------
  // The backend state

  class V2Backend {
    /** `qa_chain` is set (a chain object is truthy). */
    var qaReady: bool
    var queryLogs: seq<QueryLog>
    var feedbackData: seq<FeedbackEntry>

    ghost predicate Valid()
      reads this
    {
      |queryLogs| <= LOG_CAP && |feedbackData| <= LOG_CAP
    }

    constructor ()
      ensures Valid() && !qaReady && queryLogs == [] && feedbackData == []
    {
      qaReady := false;
      queryLogs := [];
      feedbackData := [];
    }

    /** POST /v2/ingest/. `files` is the required `File(...)` list, which
        FastAPI answers 422 when the request carries none; `fileIds` are the
        uuid4 values drawn, one per file; `written` says whether saving every
        file under docs/ succeeded (an uncaught failure there is 500);
        `docCount` is the number of chunks `ingest_documents("docs")` returns
        (None when it raises), and `chainBuilt` says whether building the
        vector store and the chain succeeded. */
    method Ingest(files: seq<UploadedFile>, fileIds: seq<string>, written: bool, docCount: Option<nat>, chainBuilt: bool)
      returns (r: Outcome<IngestReply>)
      requires |fileIds| == |files|
      modifies this
      ensures queryLogs == old(queryLogs) && feedbackData == old(feedbackData)
      ensures |files| == 0 ==> r == Failed(422, None) && qaReady == old(qaReady)
      ensures |files| > 0 && !written ==> r == Failed(500, None) && qaReady == old(qaReady)
      ensures docCount.None? ==> r.Failed? && qaReady == old(qaReady)
      ensures docCount == Some(0) ==> qaReady == old(qaReady)
      ensures |files| > 0 && written && docCount.Some? && docCount.value > 0 ==> qaReady == (old(qaReady) || chainBuilt)
      ensures r.Done? <==> |files| > 0 && written && docCount.Some? && (docCount.value > 0 ==> chainBuilt)
      ensures |files| > 0 && r.Failed? ==> r == Failed(500, None)
      ensures r.Done? ==>
        && r.value.totalChunks == docCount.value
        && |r.value.results| == |files|
        && forall i :: 0 <= i < |files| ==>
             var saved := SavedResult(fileIds[i], files[i]);
             r.value.results[i] ==
               if docCount.value == 0 then saved
               else saved.(status := "processed", chunksCreated := Some(docCount.value / |files|))
    {
      if |files| == 0 {
        return Unprocessable();
      }
      if !written {
        // Raised outside the try block: the server's own 500.
        return Failed(500, None);
      }
      var results: seq<IngestResult> := [];
      var i := 0;
      while i < |files|
        invariant 0 <= i <= |files| && |results| == i
        invariant forall k :: 0 <= k < i ==> results[k] == SavedResult(fileIds[k], files[k])
      {
        results := results + [SavedResult(fileIds[i], files[i])];
        i := i + 1;
      }
      if docCount.None? {
        return Swallowed();
      }
      var docs := docCount.value;
      if docs > 0 {
        if !chainBuilt {
          return Swallowed();
        }
        qaReady := true;
        var j := 0;
        while j < |results|
          invariant 0 <= j <= |results| == |files|
          invariant forall k :: 0 <= k < |files| ==>
            results[k] == if k < j
              then SavedResult(fileIds[k], files[k]).(status := "processed", chunksCreated := Some(docs / |files|))
              else SavedResult(fileIds[k], files[k])
        {
          results := results[j := results[j].(status := "processed", chunksCreated := Some(docs / |results|))];
          j := j + 1;
        }
      }
      r := Done(IngestReply(results, docs));
    }

    /** POST /v2/query/. `chain` is `qa_chain.run`; `queryId` the uuid4
        drawn. */
    method Query(req: QueryRequest, chain: string -> Option<string>, queryId: string)
      returns (r: Outcome<QueryResponse>)
      requires Valid()
      modifies this
      ensures Valid()
      ensures qaReady == old(qaReady) && feedbackData == old(feedbackData)
      ensures r == QueryAnswer(old(qaReady), chain, req, queryId)
      ensures r.Failed? ==> queryLogs == old(queryLogs)
      ensures r.Done? ==>
        queryLogs == KeepLast(old(queryLogs) + [QueryLog(queryId, req.question, r.value.answer, req.llmProvider)], LOG_CAP)
    {
      if !qaReady {
        return Failed(400, Some(NOT_INGESTED));
      }
      var answer := chain(req.question);
      if answer.None? {
        return Swallowed();
      }
      var entry := QueryLog(queryId, req.question, answer.value, req.llmProvider);
      SliceKeepsNewest(queryLogs, entry, LOG_CAP);
      queryLogs := AppendSlice(queryLogs, entry, LOG_CAP);
      r := Done(QueryResponse(answer.value, [], queryId));
    }

    /** POST /v2/feedback/. Any rating is accepted. */
    method SubmitFeedback(f: UserFeedback, feedbackId: string) returns (r: FeedbackAck)
      requires Valid()
      modifies this
      ensures Valid()
      ensures qaReady == old(qaReady) && queryLogs == old(queryLogs)
      ensures feedbackData == KeepLast(old(feedbackData) + [FeedbackEntry(feedbackId, f.queryId, f.rating, f.comment)], LOG_CAP)
      ensures r == FeedbackAck("feedback_received", feedbackId)
    {
      var entry := FeedbackEntry(feedbackId, f.queryId, f.rating, f.comment);
      SliceKeepsNewest(feedbackData, entry, LOG_CAP);
      feedbackData := AppendSlice(feedbackData, entry, LOG_CAP);
      r := FeedbackAck("feedback_received", feedbackId);
    }

    /** The logged questions, oldest first. */
    function Questions(): (qs: seq<string>)
      reads this
      ensures |qs| == |queryLogs| && forall i :: 0 <= i < |qs| ==> qs[i] == queryLogs[i].question
    {
      seq(|queryLogs|, i requires 0 <= i < |queryLogs| reads this => queryLogs[i].question)
    }

    /** GET /v2/analytics/, without the average response time: the number of
        logged queries, the popular topics and the satisfaction figure. The
        loop is the word-counting loop of the endpoint; its dict keeps its
        keys in insertion order, recorded in `order`. */
    method GetAnalytics() returns (a: Analytics)
      ensures a.totalQueries == |queryLogs|
      ensures a.popularTopics == PopularTopics.Topics(Questions())
      ensures a.userSatisfaction == Satisfaction(feedbackData)
    {
      var words := PopularTopics.QuestionWords(Questions());
      var order: seq<string> := [];
      var freq: map<string, nat> := map[];
      var i := 0;
      while i < |words|
        invariant 0 <= i <= |words|
        invariant order == PopularTopics.FirstOccurrences(words[..i])
        invariant freq == PopularTopics.Frequencies(words[..i])
        invariant forall w :: w in order <==> w in freq
      {
        var w := words[i];
        assert words[..i + 1] == words[..i] + [w];
        if |w| > PopularTopics.MIN_WORD_LENGTH {
          if w !in freq {
            order := order + [w];
          }
          freq := freq[w := (if w in freq then freq[w] else 0) + 1];
        }
        i := i + 1;
      }
      assert words[..|words|] == words;
      var ranked := PopularTopics.SortByCount(freq, order);
      var topics := PopularTopics.Top(ranked);
      a := Analytics(|queryLogs|, topics, Satisfaction(feedbackData));
    }
  }
}

=== FILE: bean_validation.dfy ===
/** The Jakarta Bean Validation constraints the Java entities and request
    objects are annotated with, on nullable fields. Every constraint but
    @NotNull and @NotBlank accepts null. Decimal values are integers in a
    fixed unit: prices in cents, weights in thousandths. */
module BeanValidation {
  import opened Wrappers
  import Text

  /** @NotNull */
  predicate NotNull<T>(v: Option<T>) {
    v.Some?
  }

  /** @NotBlank: non-null and something other than characters up to U+0020. */
  predicate NotBlank(v: Option<string>) {
    v.Some? && Text.NotBlank(v.value)
  }

  /** @Size(min, max) on a string: its length lies in [min, max]. */
  predicate Size(v: Option<string>, min: nat, max: nat) {
    v.None? || min <= |v.value| <= max
  }

  /** @Min(min) on an integer. */
  predicate Min(v: Option<int>, min: int) {
    v.None? || v.value >= min
  }

  /** @DecimalMin(value = bound, inclusive = false), bound in the field's unit. */
  predicate DecimalMinExclusive(v: Option<int>, bound: int) {
    v.None? || v.value > bound
  }

  /** @DecimalMin(value = bound), inclusive, bound in the field's unit. */
  predicate DecimalMinInclusive(v: Option<int>, bound: int) {
    v.None? || v.value >= bound
  }

  /** 10^12: a price in cents with at most 10 integer digits stays below it. */
  const PRICE_CENTS_LIMIT: int := 1_000_000_000_000

  /** @Digits(integer = 10, fraction = 2) on a price held in cents: at most ten
      digits before the decimal point. The two fraction digits are implied by
      counting in cents. */
  predicate PriceDigits(v: Option<int>) {
    v.None? || -PRICE_CENTS_LIMIT < v.value < PRICE_CENTS_LIMIT
  }

  /** A price bound written in the annotation as "0.01" is one cent: for whole
      cents, `>= 0.01` and `> 0.0` accept the same values. */
  lemma OneCentMinimumIsPositive(v: Option<int>)
    ensures DecimalMinInclusive(v, 1) <==> DecimalMinExclusive(v, 0)
  {
  }
}

=== FILE: bounded_log.dfy ===
/** Python list idioms the backends use on their in-memory logs: the
    negative-start slice `s[-k:]`, and the two ways of capping a log after an
    append (`pop(0)` when one entry too many, or re-slicing to the last n). */
module BoundedLog {

  /** Python's `s[-k:]` for any integer k. A positive k keeps the last k
      entries (all of them when there are fewer); k == 0 is `s[0:]`, the whole
      list; a negative k is `s[|k|:]`, which drops the first |k| entries. */
  function TailSlice<T>(s: seq<T>, k: int): (r: seq<T>)
    ensures |r| <= |s| && r == s[|s| - |r|..]
    ensures k > 0 ==> |r| == if k < |s| then k else |s|
    ensures k == 0 ==> r == s
    ensures k < 0 ==> r == if -k < |s| then s[-k..] else []
  {
    var start := -k;
    if start < 0 then
      (if start + |s| < 0 then s else s[start + |s|..])
    else
      (if start > |s| then [] else s[start..])
  }

  /** The newest n entries of a log, in their original order. */
  function KeepLast<T>(s: seq<T>, n: nat): (r: seq<T>)
    ensures |r| <= n && |r| <= |s|
    ensures |s| <= n ==> r == s
    ensures |s| > n ==> |r| == n
    ensures r == s[|s| - |r|..]
  {
    if |s| <= n then s else s[|s| - n..]
  }

  /** `log.append(x)` followed by `if len(log) > cap: log.pop(0)`. */
  function AppendPopFront<T>(s: seq<T>, x: T, cap: nat): (r: seq<T>)
  {
    var t := s + [x];
    if |t| > cap then t[1..] else t
  }

  /** `log.append(x)` followed by `if len(log) > cap: log = log[-cap:]`. */
  function AppendSlice<T>(s: seq<T>, x: T, cap: nat): (r: seq<T>)
  {
    var t := s + [x];
    if |t| > cap then TailSlice(t, cap) else t
  }

  /** Appending under a pop-front cap keeps exactly the newest cap entries
      while the log was within its cap: the oldest entry, and only it, is
      dropped on overflow. */
  lemma PopFrontKeepsNewest<T>(s: seq<T>, x: T, cap: nat)
    requires cap >= 1 && |s| <= cap
    ensures AppendPopFront(s, x, cap) == KeepLast(s + [x], cap)
    ensures 1 <= |AppendPopFront(s, x, cap)| <= cap
    ensures AppendPopFront(s, x, cap)[|AppendPopFront(s, x, cap)| - 1] == x
    ensures |s| == cap ==> AppendPopFront(s, x, cap) == s[1..] + [x]
  {
    var t := s + [x];
    if |t| > cap {
      assert |t| == cap + 1;
      assert t[1..] == t[|t| - cap..];
      assert t[1..] == s[1..] + [x];
    }
  }

  /** The re-slicing cap keeps the newest cap entries whatever the length of
      the log before the append. */
  lemma SliceKeepsNewest<T>(s: seq<T>, x: T, cap: nat)
    requires cap >= 1
    ensures AppendSlice(s, x, cap) == KeepLast(s + [x], cap)
  {
  }

  /** Capping after every append is the same as capping once at the end. */
  lemma {:induction false} KeepLastAppend<T>(s: seq<T>, x: T, cap: nat)
    requires cap >= 1
    ensures KeepLast(KeepLast(s, cap) + [x], cap) == KeepLast(s + [x], cap)
  {
    var k := KeepLast(s, cap);
    var t := s + [x];
    if |s| > cap {
      assert k == s[|s| - cap..];
      assert (k + [x])[1..] == t[|t| - cap..];
    }
  }
}

=== FILE: catalog_repository.dfy ===
/** The catalogue's repository: the products table as a map from id to row,
    JPA's save with IDENTITY ids and pre-write validation, and the JPQL
    queries the service runs, each as the set of ids whose row passes the
    WHERE clause. SQL's unknown truth value counts as false: no predicate here
    negates a comparison, so a NULL operand simply excludes the row. Ordering
    and paging of the results are left to the caller. */
module CatalogRepository {
  import opened Wrappers
  import opened ProductEntity
  import Text
  import Lex

  type Table = map<int, ProductRow>

  /** The unique index on sku. */
  predicate SkusDistinct(t: Table) {
    forall i, j :: i in t && j in t && i != j ==> t[i].sku != t[j].sku
  }

  /** Every stored row is keyed by its own id, below the next IDENTITY value,
      and passes validation; SKUs are unique. */
  predicate WellFormed(t: Table, nextId: int) {
    && nextId >= 1
    && SkusDistinct(t)
    && forall id :: id in t ==> 1 <= id < nextId && t[id].id == Some(id) && Storable(t[id])
  }

  // ----- searchProducts -----

  /** The six optional filters of searchProducts; None is a null parameter. */
  datatype SearchCriteria = SearchCriteria(
    name: Option<string>,
    category: Option<string>,
    brand: Option<string>,
    minPrice: Option<int>,
    maxPrice: Option<int>,
    inStock: Option<bool>)

  predicate NameFilter(p: ProductRow, name: Option<string>) {
    name.None? || (p.name.Some? && Text.LikeContainsIgnoreCase(p.name.value, name.value))
  }

  predicate CategoryFilter(p: ProductRow, category: Option<string>) {
    category.None? || p.category == category
  }

  predicate BrandFilter(p: ProductRow, brand: Option<string>) {
    brand.None? || p.brand == brand
  }

  predicate MinPriceFilter(p: ProductRow, minPrice: Option<int>) {
    minPrice.None? || (p.price.Some? && p.price.value >= minPrice.value)
  }

  predicate MaxPriceFilter(p: ProductRow, maxPrice: Option<int>) {
    maxPrice.None? || (p.price.Some? && p.price.value <= maxPrice.value)
  }

  predicate InStockFilter(p: ProductRow, inStock: Option<bool>) {
    || inStock.None?
    || (inStock == Some(true) && p.stockQuantity.Some? && p.stockQuantity.value > 0)
    || inStock == Some(false)
  }

  predicate IsActive(p: ProductRow) {
    p.active == Some(true)
  }

  /** The WHERE clause of searchProducts. */
  predicate MatchesSearch(p: ProductRow, c: SearchCriteria) {
    && NameFilter(p, c.name)
    && CategoryFilter(p, c.category)
    && BrandFilter(p, c.brand)
    && MinPriceFilter(p, c.minPrice)
    && MaxPriceFilter(p, c.maxPrice)
    && InStockFilter(p, c.inStock)
    && IsActive(p)
  }

  function SearchProducts(t: Table, c: SearchCriteria): (r: set<int>)
    ensures r <= t.Keys
    ensures forall id :: id in r ==> t[id].active == Some(true)
  {
    set id | id in t && MatchesSearch(t[id], c)
  }

  /** findByActiveTrue; PlatformCatalog.ActiveIds is the same set on the
      platform variant's table. */
  function FindByActiveTrue(t: Table): (r: set<int>)
    ensures forall id :: id in r <==> id in t && t[id].active == Some(true)
  {
    set id | id in t && IsActive(t[id])
  }

  /** With every filter null, searchProducts returns every active product. */
  lemma SearchWithoutFilters(t: Table)
    ensures SearchProducts(t, SearchCriteria(None, None, None, None, None, None)) == FindByActiveTrue(t)
  {
    var c := SearchCriteria(None, None, None, None, None, None);
    forall id | id in t ensures MatchesSearch(t[id], c) <==> IsActive(t[id]) {
    }
  }

  /** c1 is c2 with some filters cleared. */
  predicate Looser(c1: SearchCriteria, c2: SearchCriteria) {
    && (c1.name.None? || c1.name == c2.name)
    && (c1.category.None? || c1.category == c2.category)
    && (c1.brand.None? || c1.brand == c2.brand)
    && (c1.minPrice.None? || c1.minPrice == c2.minPrice)
    && (c1.maxPrice.None? || c1.maxPrice == c2.maxPrice)
    && (c1.inStock.None? || c1.inStock == c2.inStock)
  }

  /** A null filter imposes no constraint: clearing filters never loses a row. */
  lemma SearchLooserFindsMore(t: Table, c1: SearchCriteria, c2: SearchCriteria)
    requires Looser(c1, c2)
    ensures SearchProducts(t, c2) <= SearchProducts(t, c1)
  {
    forall id | id in SearchProducts(t, c2) ensures id in SearchProducts(t, c1) {
      assert MatchesSearch(t[id], c2);
    }
  }

  /** The name filter with an argument free of `%` and `_` is a
      case-insensitive substring test; a product without a name never passes. */
  lemma NameFilterIsSubstring(p: ProductRow, name: string)
    requires Text.NoWildcards(name)
    ensures NameFilter(p, Some(name)) <==>
      p.name.Some? && Text.Contains(Text.Lower(p.name.value), Text.Lower(name))
  {
    if p.name.Some? {
      Text.LikeContainsIgnoreCaseIsSubstring(p.name.value, name);
    }
  }

  /** Category and brand filters are exact, case-sensitive equality. */
  lemma CategoryBrandExact(p: ProductRow, category: string, brand: string)
    ensures CategoryFilter(p, Some(category)) <==> p.category == Some(category)
    ensures BrandFilter(p, Some(brand)) <==> p.brand == Some(brand)
  {
  }

  /** Both price bounds are inclusive: a price equal to a bound passes it. */
  lemma PriceBoundsInclusive(p: ProductRow, lo: int, hi: int)
    requires p.price.Some?
    ensures MinPriceFilter(p, Some(lo)) && MaxPriceFilter(p, Some(hi)) <==> lo <= p.price.value <= hi
  {
  }

  /** inStock = true keeps exactly the products in stock; false and null keep all. */
  lemma InStockFilterMeaning(p: ProductRow)
    ensures InStockFilter(p, Some(true)) <==> p.InStock()
    ensures InStockFilter(p, Some(false)) && InStockFilter(p, None)
  {
  }

  // ----- other queries -----

  /** findLowStockProducts(threshold): active products whose stock is at most
      the threshold; a null threshold compares as unknown and matches none. */
  function FindLowStockProducts(t: Table, threshold: Option<Int32>): (r: set<int>)
    ensures forall id :: id in r <==>
      id in t && t[id].active == Some(true) && threshold.Some?
      && t[id].stockQuantity.Some? && t[id].stockQuantity.value <= threshold.value
  {
    set id | id in t && IsActive(t[id]) && threshold.Some?
      && t[id].stockQuantity.Some? && t[id].stockQuantity.value <= threshold.value
  }

  /** Raising the threshold never drops a product from the low-stock list. */
  lemma LowStockMonotone(t: Table, a: Int32, b: Int32)
    requires a <= b
    ensures FindLowStockProducts(t, Some(a)) <= FindLowStockProducts(t, Some(b))
  {
  }

  function ActiveCategories(t: Table): set<string> {
    set id | id in t && IsActive(t[id]) && t[id].category.Some? :: t[id].category.value
  }

  function ActiveBrands(t: Table): set<string> {
    set id | id in t && IsActive(t[id]) && t[id].brand.Some? :: t[id].brand.value
  }

  /** findDistinctCategories: each category of an active product once, ascending.
      PlatformCatalog.FindDistinctCategories declares the same query on the
      platform variant's table. */
  ghost function FindDistinctCategories(t: Table): (r: seq<string>)
    ensures Lex.StrictlySorted(r)
    ensures forall c :: c in r <==> exists id :: id in t && t[id].active == Some(true) && t[id].category == Some(c)
  {
    var s := ActiveCategories(t);
    assert forall c :: c in s <==> exists id :: id in t && t[id].active == Some(true) && t[id].category == Some(c) by {
      forall c | c in s ensures exists id :: id in t && t[id].active == Some(true) && t[id].category == Some(c) {
        var id :| id in t && IsActive(t[id]) && t[id].category.Some? && t[id].category.value == c;
      }
    }
    Lex.Sorted(s)
  }

  /** findDistinctBrands: each non-null brand of an active product once, ascending. */
  ghost function FindDistinctBrands(t: Table): (r: seq<string>)
    ensures Lex.StrictlySorted(r)
    ensures forall b :: b in r <==> exists id :: id in t && t[id].active == Some(true) && t[id].brand == Some(b)
  {
    var s := ActiveBrands(t);
    assert forall b :: b in s <==> exists id :: id in t && t[id].active == Some(true) && t[id].brand == Some(b) by {
      forall b | b in s ensures exists id :: id in t && t[id].active == Some(true) && t[id].brand == Some(b) {
        var id :| id in t && IsActive(t[id]) && t[id].brand.Some? && t[id].brand.value == b;
      }
    }
    Lex.Sorted(s)
  }

  /** existsBySku */
  predicate ExistsBySku(t: Table, sku: string) {
    exists id :: id in t && t[id].sku == Some(sku)
  }

  /** existsBySkuAndIdNot: some product other than id has this SKU. */
  predicate ExistsBySkuAndIdNot(t: Table, sku: string, id: int) {
    exists j :: j in t && j != id && t[j].sku == Some(sku)
  }

  /** The ids whose row has this SKU: at most one while SKUs are unique. */
  function FindBySku(t: Table, sku: string): (r: set<int>)
    requires SkusDistinct(t)
    ensures |r| <= 1
    ensures r != {} <==> ExistsBySku(t, sku)
    ensures forall id :: id in r ==> id in t && t[id].sku == Some(sku)
  {
    var r := set id | id in t && t[id].sku == Some(sku);
    UniqueSkuMatch(t, sku, r);
    r
  }

  lemma UniqueSkuMatch(t: Table, sku: string, r: set<int>)
    requires SkusDistinct(t)
    requires forall id :: id in r <==> id in t && t[id].sku == Some(sku)
    ensures |r| <= 1
    ensures r != {} <==> ExistsBySku(t, sku)
  {
    if ExistsBySku(t, sku) {
      var id :| id in t && t[id].sku == Some(sku);
      forall j | j in r ensures j == id {
        assert t[j].sku == t[id].sku;
      }
      assert id in r;
      assert r == {id};
    } else {
      forall j ensures j !in r {
        if j in t {
          assert t[j].sku != Some(sku);
        }
      }
      assert r == {};
    }
  }

  /** existsBySkuAndIdNot agrees with existsBySku except on the product's own
      SKU: it is existsBySku on the table without that product. */
  lemma ExistsBySkuAndIdNotMeaning(t: Table, sku: string, id: int)
    ensures ExistsBySkuAndIdNot(t, sku, id) <==> ExistsBySku(t - {id}, sku)
    ensures id !in t ==> (ExistsBySkuAndIdNot(t, sku, id) <==> ExistsBySku(t, sku))
  {
    if ExistsBySkuAndIdNot(t, sku, id) {
      var j :| j in t && j != id && t[j].sku == Some(sku);
      assert j in t - {id};
    }
    if ExistsBySku(t - {id}, sku) {
      var j :| j in t - {id} && (t - {id})[j].sku == Some(sku);
      assert j in t && j != id;
    }
  }

  /** findByCategoryAndActiveTrue */
  function FindByCategoryAndActiveTrue(t: Table, category: string): (r: set<int>)
    ensures forall id :: id in r <==> id in t && t[id].active == Some(true) && t[id].category == Some(category)
  {
    set id | id in t && IsActive(t[id]) && t[id].category == Some(category)
  }

  /** findByBrandAndActiveTrue: the brand counterpart of
      FindByCategoryAndActiveTrue, a separate derived query in the repository. */
  function FindByBrandAndActiveTrue(t: Table, brand: string): (r: set<int>)
    ensures forall id :: id in r <==> id in t && t[id].active == Some(true) && t[id].brand == Some(brand)
  {
    set id | id in t && IsActive(t[id]) && t[id].brand == Some(brand)
  }

  /** The category page of an active product is a searchProducts result with
      only the category filter set. */
  lemma CategoryIsSearch(t: Table, category: string)
    ensures FindByCategoryAndActiveTrue(t, category) == SearchProducts(t, SearchCriteria(None, Some(category), None, None, None, None))
  {
    var c := SearchCriteria(None, Some(category), None, None, None, None);
    forall id | id in t ensures MatchesSearch(t[id], c) <==> IsActive(t[id]) && t[id].category == Some(category) {
    }
  }

  // ----- writes -----

  /** Why a write was refused: the entity's validation annotations
      (ConstraintViolationException), a database constraint
      (DataIntegrityViolationException), or a JPQL UPDATE run as a SELECT. */
  datatype DbError = ConstraintViolation | DataIntegrityViolation | NotASelectQuery

  class ProductRepository {
    var rows: Table
    var nextId: int

    ghost predicate Valid()
      reads this
    {
      WellFormed(rows, nextId)
    }

    constructor ()
      ensures Valid() && rows == map[] && nextId == 1
    {
      rows, nextId := map[], 1;
    }

    /** count(); PlatformCatalog.PlatformRepository.Count is the same query on
        the platform variant's own table. */
    function Count(): (n: nat)
      reads this
      ensures n == 0 <==> rows == map[]
    {
      |rows.Keys|
    }

    /** save(row): a row without an id, or with an id the table does not hold,
        is inserted under the next IDENTITY value; otherwise it overwrites the
        stored row. The entity's annotations are checked first, then the NOT
        NULL columns and the unique SKU; a refused write changes nothing. */
    method Save(row: ProductRow) returns (r: Result<ProductRow, DbError>)
      requires Valid()
      modifies this
      ensures Valid()
      ensures var isNew := row.id.None? || row.id.value !in old(rows);
              var key := if isNew then old(nextId) else row.id.value;
              var stored := row.(id := Some(key));
              && (!BeanConstraintsHold(stored) ==>
                    r == Err(ConstraintViolation) && rows == old(rows) && nextId == old(nextId))
              && (BeanConstraintsHold(stored) && (!ColumnConstraintsHold(stored) || ExistsBySkuAndIdNot(old(rows), stored.sku.value, key)) ==>
                    r == Err(DataIntegrityViolation) && rows == old(rows) && nextId == old(nextId))
              && (Storable(stored) && !ExistsBySkuAndIdNot(old(rows), stored.sku.value, key) ==>
                    r == Ok(stored) && rows == old(rows)[key := stored]
                    && nextId == if isNew then old(nextId) + 1 else old(nextId))
    {
      var isNew := row.id.None? || row.id.value !in rows;
      var key := if isNew then nextId else row.id.value;
      var stored := row.(id := Some(key));
      if !BeanConstraintsHold(stored) {
        return Err(ConstraintViolation);
      }
      if !ColumnConstraintsHold(stored) || ExistsBySkuAndIdNot(rows, stored.sku.value, key) {
        return Err(DataIntegrityViolation);
      }
      rows := rows[key := stored];
      if isNew {
        nextId := nextId + 1;
      }
      r := Ok(stored);
    }

    /** updateProductStatus as declared: its UPDATE statement lacks
        @Modifying, so Spring Data runs it as a query, the persistence provider
        refuses a DML statement there, and nothing changes. */
    method UpdateProductStatusAsDeclared(ids: seq<int>, active: Option<bool>) returns (r: Result<(), DbError>)
      ensures r == Err(NotASelectQuery)
    {
      r := Err(NotASelectQuery);
    }

    /** updateStockQuantity as declared: the same missing @Modifying, so it
        fails exactly as UpdateProductStatusAsDeclared does, for any arguments. */
    method UpdateStockQuantityAsDeclared(id: int, quantity: Option<Int32>) returns (r: Result<(), DbError>)
      ensures r == Err(NotASelectQuery)
    {
      r := Err(NotASelectQuery);
    }

    /** updateProductStatus run as the bulk UPDATE it is meant to be: the
        listed ids get the new active flag and nothing else changes; setting
        the NOT NULL column to null is refused. */
    method UpdateProductStatus(ids: seq<int>, active: Option<bool>) returns (r: Result<(), DbError>)
      requires Valid()
      modifies this
      ensures Valid() && nextId == old(nextId)
      ensures active.None? ==> r == Err(DataIntegrityViolation) && rows == old(rows)
      ensures active.Some? ==> r == Ok(()) && rows.Keys == old(rows).Keys
      ensures active.Some? ==> forall id :: id in rows ==>
        rows[id] == if id in ids then old(rows)[id].(active := active) else old(rows)[id]
    {
      if active.None? {
        return Err(DataIntegrityViolation);
      }
      rows := map id | id in rows :: if id in ids then rows[id].(active := active) else rows[id];
      r := Ok(());
    }
  }
}

=== FILE: data_loader.dfy ===
/** The second variant's start-up seed: when the products table is empty, ten
    sample products are saved in one `saveAll`; otherwise nothing happens. */
module DataLoader {
  import opened Wrappers
  import opened ProductEntity
  import opened PlatformCatalog
  import CatalogRepository

  /** The createProduct helper: a new entity whose setters fill every column
      from the arguments and set `active` to true. */
  function CreateProduct(name: string, description: string, price: int, category: string,
                         stock: Int32, sku: string, imageUrl: string): (r: PlatformRow)
    ensures r.id.None? && r.active == Some(true)
    ensures r.name == Some(name) && r.description == Some(description) && r.price == Some(price)
    ensures r.category == Some(category) && r.stock == Some(stock) && r.sku == Some(sku)
    ensures r.imageUrl == Some(imageUrl)
  {
    FreshPlatformRow().(name := Some(name), description := Some(description), price := Some(price),
                        category := Some(category), stock := Some(stock), sku := Some(sku),
                        imageUrl := Some(imageUrl), active := Some(true))
  }

  const ELECTRONICS := "Electronics"

  /** The arguments of one createProduct call; the price in cents. */
  datatype CreateArgs = CreateArgs(name: string, description: string, price: int, category: string,
                                   stock: Int32, sku: string, imageUrl: string)

  /** The ten calls of createProduct, in list order. */
  const SAMPLE_ARGS: seq<CreateArgs> := [
    CreateArgs("iPhone 15 Pro", "Latest Apple iPhone with A17 Pro chip and titanium design",
               99999, ELECTRONICS, 50, "IPHONE15PRO001",
               "https://images.unsplash.com/photo-1592750475338-74b7b21085ab?w=400"),
    CreateArgs("Samsung Galaxy S24 Ultra", "Premium Android smartphone with S Pen and AI features",
               119999, ELECTRONICS, 30, "GALAXYS24ULTRA001",
               "https://images.unsplash.com/photo-1610945265064-0e34e5519bbf?w=400"),
    CreateArgs("MacBook Air M3", "Ultra-thin laptop powered by Apple M3 chip",
               129999, ELECTRONICS, 25, "MACBOOKAIRM3001",
               "https://images.unsplash.com/photo-1541807084-5c52b6b3adef?w=400"),
    CreateArgs("Sony WH-1000XM5", "Premium noise-canceling wireless headphones",
               39999, ELECTRONICS, 75, "SONYWH1000XM5001",
               "https://images.unsplash.com/photo-1505740420928-5e560c06d30e?w=400"),
    CreateArgs("iPad Pro 12.9\"", "Professional tablet with M2 chip and Liquid Retina display",
               109999, ELECTRONICS, 40, "IPADPRO129001",
               "https://images.unsplash.com/photo-1544244015-0df4b3ffc6b0?w=400"),
    CreateArgs("Dell XPS 13", "Premium ultrabook with InfinityEdge display",
               89999, ELECTRONICS, 35, "DELLXPS13001",
               "https://images.unsplash.com/photo-1496181133206-80ce9b88a853?w=400"),
    CreateArgs("Gaming Mechanical Keyboard", "RGB backlit mechanical keyboard for gaming",
               14999, ELECTRONICS, 100, "GAMINGKEYBOARD001",
               "https://images.unsplash.com/photo-1541140532154-b024d705b90a?w=400"),
    CreateArgs("4K Wireless Camera", "Professional 4K camera with wireless connectivity",
               79999, ELECTRONICS, 20, "4KWIRELESSCAM001",
               "https://images.unsplash.com/photo-1606983340126-99ab4feaa64a?w=400"),
    CreateArgs("Smart Watch Series 9", "Advanced fitness and health tracking smartwatch",
               34999, ELECTRONICS, 60, "SMARTWATCH9001",
               "https://images.unsplash.com/photo-1523275335684-37898b6baf30?w=400"),
    CreateArgs("Bluetooth Speaker", "Portable waterproof Bluetooth speaker with 360\U{C2}\U{B0} sound",
               7999, ELECTRONICS, 150, "BLUETOOTHSPK001",
               "https://images.unsplash.com/photo-1608043152269-423dbba4e7e1?w=400")
  ]

  /** The k-th sample. */
  function Sample(k: nat): (r: PlatformRow)
    requires k < |SAMPLE_ARGS|
  {
    var a := SAMPLE_ARGS[k];
    CreateProduct(a.name, a.description, a.price, a.category, a.stock, a.sku, a.imageUrl)
  }

  /** Arrays.asList of the ten createProduct calls. */
  function Samples(): (r: seq<PlatformRow>)
    ensures |r| == |SAMPLE_ARGS| == 10
  {
    seq(|SAMPLE_ARGS|, k requires 0 <= k < |SAMPLE_ARGS| => Sample(k))
  }

  /** The samples' SKUs, stocks and prices in cents, in list order. */
  lemma SampleFacts()
    ensures seq(10, k requires 0 <= k < 10 => Samples()[k].sku) ==
      [Some("IPHONE15PRO001"), Some("GALAXYS24ULTRA001"), Some("MACBOOKAIRM3001"), Some("SONYWH1000XM5001"),
       Some("IPADPRO129001"), Some("DELLXPS13001"), Some("GAMINGKEYBOARD001"), Some("4KWIRELESSCAM001"),
       Some("SMARTWATCH9001"), Some("BLUETOOTHSPK001")]
    ensures seq(10, k requires 0 <= k < 10 => Samples()[k].stock) ==
      [Some(50), Some(30), Some(25), Some(75), Some(40), Some(35), Some(100), Some(20), Some(60), Some(150)]
    ensures seq(10, k requires 0 <= k < 10 => Samples()[k].price) ==
      [Some(99999), Some(119999), Some(129999), Some(39999), Some(109999), Some(89999), Some(14999),
       Some(79999), Some(34999), Some(7999)]
  {
  }

  /** Every sample is new, active, in "Electronics", priced above zero with
      stock not negative, and acceptable to the columns. */
  lemma SampleRows()
    ensures forall k :: 0 <= k < |Samples()| ==>
      var p := Samples()[k];
      && p.id.None? && ColumnsAccept(p)
      && p.active == Some(true) && p.category == Some(ELECTRONICS)
      && p.price.Some? && p.price.value > 0 && p.stock.Some? && p.stock.value >= 0
  {
  }

  /** No two samples share a SKU. */
  lemma SampleSkusDistinct()
    ensures forall i, j :: 0 <= i < j < |Samples()| ==> Samples()[i].sku != Samples()[j].sku
  {
    SampleFacts();
    var skus := [Some("IPHONE15PRO001"), Some("GALAXYS24ULTRA001"), Some("MACBOOKAIRM3001"), Some("SONYWH1000XM5001"),
                 Some("IPADPRO129001"), Some("DELLXPS13001"), Some("GAMINGKEYBOARD001"), Some("4KWIRELESSCAM001"),
                 Some("SMARTWATCH9001"), Some("BLUETOOTHSPK001")];
    assert forall k :: 0 <= k < 10 ==> Samples()[k].sku == skus[k];
    forall i, j | 0 <= i < j < 10 ensures skus[i] != skus[j] {
    }
  }

  /** The samples form a batch saveAll stores whole into an empty table. */
  lemma SamplesNewAndDistinct()
    ensures NewAndDistinct(map[], Samples())
  {
    SampleRows();
    SampleSkusDistinct();
  }

  /** What `run` leaves behind when its sample list is `batch`, or None when
      it would throw: an unchanged table when it already holds a row,
      otherwise the outcome of saving the batch. */
  function RunOutcome(t: PlatformTable, nextId: int, batch: seq<PlatformRow>): (r: Option<(PlatformTable, int)>)
    requires WellFormed(t, nextId)
    ensures |t| > 0 ==> r == Some((t, nextId))
    ensures r.Some? ==> WellFormed(r.value.0, r.value.1)
  {
    if |t| > 0 then Some((t, nextId)) else SaveAllOutcome(t, nextId, batch)
  }

  /** The table a batch produces when inserted into an empty one from id
      `from` on: exactly the batch, in list order, under consecutive ids; for
      the samples, ten rows. */
  lemma SeededTable(from: int, batch: seq<PlatformRow>)
    ensures var r := InsertAll(map[], from, batch);
      && (forall id :: id in r <==> from <= id < from + |batch|)
      && (forall i :: 0 <= i < |batch| ==> r[from + i] == batch[i].(id := Some(from + i)))
      && |r| == |batch|
  {
    var r := InsertAll(map[], from, batch);
    InsertAllContents(map[], from, batch);
    KeysOfRange(r, from, |batch|);
  }

  /** A table whose keys are exactly from .. from + n - 1 has n rows. */
  lemma {:induction false} KeysOfRange(m: PlatformTable, from: int, n: nat)
    requires forall id :: id in m <==> from <= id < from + n
    ensures |m| == n
    decreases n
  {
    if n == 0 {
      assert forall id :: id !in m.Keys;
      assert m.Keys == {};
    } else {
      var last := from + n - 1;
      assert last in m;
      var m' := m - {last};
      assert m.Keys == m'.Keys + {last} && last !in m'.Keys;
      KeysOfRange(m', from, n - 1);
    }
  }

  /** On an empty table `run` succeeds and saves a batch of new rows with
      distinct SKUs whole, advancing the IDENTITY counter by its length. The
      samples are such a batch (SamplesNewAndDistinct), and SeededTable says
      what they leave in the table. */
  lemma RunSeedsEmptyTable(t: PlatformTable, nextId: int, batch: seq<PlatformRow>)
    requires WellFormed(t, nextId) && |t| == 0
    requires NewAndDistinct(map[], batch)
    ensures RunOutcome(t, nextId, batch) == Some((InsertAll(t, nextId, batch), nextId + |batch|))
  {
    assert t == map[] by { assert forall id :: id !in t.Keys; }
    SaveAllNew(t, nextId, batch);
  }

  /** Running the loader twice leaves what running it once left: with such a
      non-empty batch it always succeeds, and a second run finds the table
      non-empty. */
  lemma RunIdempotent(t: PlatformTable, nextId: int, batch: seq<PlatformRow>)
    requires WellFormed(t, nextId)
    requires NewAndDistinct(map[], batch) && batch != []
    ensures RunOutcome(t, nextId, batch).Some?
    ensures var s := RunOutcome(t, nextId, batch).value; RunOutcome(s.0, s.1, batch) == RunOutcome(t, nextId, batch)
  {
    if |t| == 0 {
      RunSeedsEmptyTable(t, nextId, batch);
      InsertAllContents(t, nextId, batch);
      assert nextId in InsertAll(t, nextId, batch);
    }
  }

  /** The CommandLineRunner bean, holding the repository it seeds. */
  class DataLoader {
    const repository: PlatformRepository

    constructor (repository: PlatformRepository)
      ensures this.repository == repository
    {
      this.repository := repository;
    }

    /** run(): skip when count() > 0, otherwise saveAll the samples; a
        refused batch propagates as an exception (Err). */
    method Run() returns (r: Result<(), CatalogRepository.DbError>)
      requires repository.Valid()
      modifies repository
      ensures repository.Valid()
      ensures var o := RunOutcome(old(repository.rows), old(repository.nextId), Samples());
              && (o.Some? ==> r.Ok? && repository.rows == o.value.0 && repository.nextId == o.value.1)
              && (o.None? ==> r.Err? && repository.rows == old(repository.rows))
    {
      if repository.Count() > 0 {
        return Ok(());
      }
      var sampleProducts := Samples();
      r := repository.SaveAll(sampleProducts);
    }
  }
}

=== FILE: http.dfy ===
/** How a FastAPI endpoint answers: the value the handler returns, or the
    HTTPException that leaves it. A detail built from an exception's own
    text is not modelled; such a reply carries `None`. */
module Http {
  import opened Wrappers

  datatype Outcome<T> = Done(value: T) | Failed(status: int, detail: Option<string>)

  /** A request body refused by its Pydantic model, before the handler runs. */
  function Unprocessable<T>(): Outcome<T> {
    Failed(422, None)
  }

  /** An exception caught by a handler's `except Exception` and re-raised as
      a 500 whose detail embeds the exception's text. */
  function Swallowed<T>(): Outcome<T> {
    Failed(500, None)
  }
}

=== FILE: lex.dfy ===
/** Ascending string order, as `ORDER BY` on a text column gives it when the
    collation compares character codes, and the sorted list of a set of
    strings that `SELECT DISTINCT … ORDER BY` returns. */
module Lex {

  /** a sorts strictly before b: the first differing character decides, and a
      proper prefix sorts first. */
  predicate Less(a: string, b: string)
    decreases |a|
  {
    if a == [] then b != []
    else b != [] && (a[0] < b[0] || (a[0] == b[0] && Less(a[1..], b[1..])))
  }

  lemma {:induction false} LessIrreflexive(a: string)
    ensures !Less(a, a)
    decreases |a|
  {
    if a != [] {
      LessIrreflexive(a[1..]);
    }
  }

  lemma {:induction false} LessTransitive(a: string, b: string, c: string)
    requires Less(a, b) && Less(b, c)
    ensures Less(a, c)
    decreases |a|
  {
    if a != [] && a[0] == b[0] && b[0] == c[0] {
      LessTransitive(a[1..], b[1..], c[1..]);
    }
  }

  lemma {:induction false} LessTotal(a: string, b: string)
    ensures a == b || Less(a, b) || Less(b, a)
    decreases |a|
  {
    if a != [] && b != [] && a[0] == b[0] {
      LessTotal(a[1..], b[1..]);
      if a[1..] == b[1..] {
        assert a == [a[0]] + a[1..] && b == [b[0]] + b[1..];
      }
    }
  }

  /** Strictly ascending, hence without repetitions. */
  predicate StrictlySorted(s: seq<string>) {
    forall i, j :: 0 <= i < j < |s| ==> Less(s[i], s[j])
  }

  /** m is in s and sorts before every other element of s. */
  predicate IsLeast(m: string, s: set<string>) {
    m in s && forall x :: x in s && x != m ==> Less(m, x)
  }

  lemma {:induction false} HasLeast(s: set<string>)
    requires s != {}
    ensures exists m :: IsLeast(m, s)
    decreases |s|
  {
    var y :| y in s;
    if s == {y} {
      assert IsLeast(y, s);
    } else {
      var rest := s - {y};
      HasLeast(rest);
      var m :| IsLeast(m, rest);
      LessTotal(m, y);
      if Less(m, y) {
        assert IsLeast(m, s);
      } else {
        forall x | x in s && x != y ensures Less(y, x) {
          if x != m {
            assert x in rest;
            LessTransitive(y, m, x);
          }
        }
        assert IsLeast(y, s);
      }
    }
  }

  /** The elements of s in ascending order. */
  ghost function Sorted(s: set<string>): (r: seq<string>)
    ensures |r| == |s|
    ensures forall x :: x in s <==> x in r
    ensures StrictlySorted(r)
    decreases |s|
  {
    if s == {} then []
    else
      HasLeast(s);
      var m :| IsLeast(m, s);
      var rest := Sorted(s - {m});
      assert forall j :: 0 <= j < |rest| ==> Less(m, rest[j]) by {
        forall j | 0 <= j < |rest| ensures Less(m, rest[j]) {
          assert rest[j] in s - {m};
        }
      }
      var r := [m] + rest;
      assert StrictlySorted(r) by {
        forall i, j | 0 <= i < j < |r| ensures Less(r[i], r[j]) {
          assert r[j] == rest[j - 1];
          if i > 0 {
            assert r[i] == rest[i - 1];
          }
        }
      }
      assert forall x :: x in s <==> x in r by {
        forall x ensures x in s <==> x in r {
          assert x in r <==> x == m || x in rest;
        }
      }
      r
  }
}

=== FILE: payment.dfy ===
/** The payment endpoint of the traced Flask service: a JSON body is
    validated (four required fields, a positive amount), turned into a fixed
    payment result that echoes the amount and the currency, and the outcome
    is mapped to an HTTP status. Spans, attributes, events, the simulated
    delay and the notification have no effect on the reply and are not
    modelled. */
module Payment {
  import opened Wrappers

  /** A parsed JSON value; Python ints and floats are both numbers. */
  datatype Json =
    | JNull
    | JBool(b: bool)
    | JNumber(n: real)
    | JString(s: string)
    | JArray(items: seq<Json>)
    | JObject(fields: map<string, Json>)

  type Payload = map<string, Json>

  /** The exceptions that can leave validate_payment. */
  datatype Raised = ValueError(message: string) | TypeError

  const REQUIRED_FIELDS: seq<string> := ["amount", "currency", "method", "card_number"]
  const AMOUNT_NOT_POSITIVE: string := "Amount must be positive"
  const INTERNAL_ERROR: string := "Internal server error"
  const PAYMENT_ID: string := "pay_123456789"
  const PAYMENT_STATUS: string := "success"

  function MissingField(field: string): string {
    "Missing required field: " + field
  }

  /** The first of `fields` that `data` lacks, as the loop finds it. */
  function FirstMissing(fields: seq<string>, data: Payload): (r: Option<string>)
    ensures r.None? <==> forall i :: 0 <= i < |fields| ==> fields[i] in data
    ensures r.Some? ==> r.value in fields && r.value !in data
  {
    if fields == [] then None
    else if fields[0] !in data then Some(fields[0])
    else FirstMissing(fields[1..], data)
  }

  /** A field is reported exactly when it is missing and every field listed
      before it is present. */
  lemma {:induction false} FirstMissingMeaning(fields: seq<string>, data: Payload, k: nat)
    requires k < |fields|
    requires fields[k] !in data && forall j :: 0 <= j < k ==> fields[j] in data
    ensures FirstMissing(fields, data) == Some(fields[k])
  {
    if k > 0 {
      assert fields[0] in data;
      FirstMissingMeaning(fields[1..], data, k - 1);
    }
  }

  /** `data['amount'] <= 0`: None where Python raises TypeError (a string,
      null, list or object amount); a bool compares as 0 or 1. */
  function AmountNotPositive(amount: Json): Option<bool> {
    match amount
    case JNumber(n) => Some(n <= 0.0)
    case JBool(b) => Some(!b)
    case _ => None
  }

  predicate HasRequiredFields(data: Payload) {
    "amount" in data && "currency" in data && "method" in data && "card_number" in data
  }

  /** The loop's list and the predicate name the same four fields. */
  lemma RequiredFieldsListed(data: Payload)
    ensures FirstMissing(REQUIRED_FIELDS, data).None? <==> HasRequiredFields(data)
  {
    assert REQUIRED_FIELDS[0] == "amount" && REQUIRED_FIELDS[1] == "currency";
    assert REQUIRED_FIELDS[2] == "method" && REQUIRED_FIELDS[3] == "card_number";
  }

  /** validate_payment. */
  function ValidatePayment(data: Payload): (r: Result<Payload, Raised>)
    ensures r.Ok? ==> r.value == data
    ensures r.Ok? <==> HasRequiredFields(data) && AmountNotPositive(data["amount"]) == Some(false)
  {
    RequiredFieldsListed(data);
    match FirstMissing(REQUIRED_FIELDS, data)
    case Some(field) => Err(ValueError(MissingField(field)))
    case None =>
      match AmountNotPositive(data["amount"])
      case None => Err(TypeError)
      case Some(true) => Err(ValueError(AMOUNT_NOT_POSITIVE))
      case Some(false) => Ok(data)
  }

  /** The fields are checked in the order amount, currency, method,
      card_number, and the first one absent is the one reported. */
  lemma MissingFieldReported(data: Payload, k: nat)
    requires k < |REQUIRED_FIELDS|
    requires REQUIRED_FIELDS[k] !in data
    requires forall j :: 0 <= j < k ==> REQUIRED_FIELDS[j] in data
    ensures ValidatePayment(data) == Err(ValueError(MissingField(REQUIRED_FIELDS[k])))
  {
    FirstMissingMeaning(REQUIRED_FIELDS, data, k);
  }

  /** The amount is looked at only once all four fields are present, and a
      present amount that is not positive is refused with its own message. */
  lemma AmountRule(data: Payload)
    ensures ValidatePayment(data) == Err(ValueError(AMOUNT_NOT_POSITIVE)) <==>
      HasRequiredFields(data) && AmountNotPositive(data["amount"]) == Some(true)
  {
    RequiredFieldsListed(data);
    match FirstMissing(REQUIRED_FIELDS, data)
    case Some(field) =>
      assert MissingField(field)[..5] == "Missi";
    case None =>
  }

  /** process_payment: a fixed id and status, echoing amount and currency. */
  function ProcessPayment(data: Payload): (r: Payload)
    requires "amount" in data && "currency" in data
    ensures r.Keys == {"id", "status", "amount", "currency"}
    ensures r["id"] == JString(PAYMENT_ID) && r["status"] == JString(PAYMENT_STATUS)
    ensures r["amount"] == data["amount"] && r["currency"] == data["currency"]
  {
    map["id" := JString(PAYMENT_ID), "status" := JString(PAYMENT_STATUS),
        "amount" := data["amount"], "currency" := data["currency"]]
  }

  datatype Reply = Reply(status: int, body: Payload)

  function ErrorBody(message: string): Payload {
    map["error" := JString(message)]
  }

  /** create_payment. `body` is `request.json`, None where reading it
      raises (a body that is not JSON). A body that is JSON but not an
      object fails at its first `.get` and is answered like any other
      unexpected exception. */
  function CreatePayment(body: Option<Json>): (r: Reply)
    ensures r.status in {201, 400, 500}
  {
    if body.None? || !body.value.JObject? then Reply(500, ErrorBody(INTERNAL_ERROR))
    else
      match ValidatePayment(body.value.fields)
      case Ok(data) => Reply(201, ProcessPayment(data))
      case Err(ValueError(message)) => Reply(400, ErrorBody(message))
      case Err(TypeError) => Reply(500, ErrorBody(INTERNAL_ERROR))
  }

  /** A payment is created (201) exactly for an object body with the four
      fields and a positive amount, and the reply echoes its amount and
      currency. */
  lemma CreatedMeaning(body: Option<Json>)
    ensures CreatePayment(body).status == 201 <==>
      body.Some? && body.value.JObject? && ValidatePayment(body.value.fields).Ok?
    ensures CreatePayment(body).status == 201 ==>
      CreatePayment(body).body == ProcessPayment(body.value.fields)
  {
  }

  /** A validation ValueError becomes 400 with its message; everything else
      that goes wrong becomes 500 with a fixed message. */
  lemma ErrorStatusMeaning(body: Option<Json>)
    ensures CreatePayment(body).status == 400 <==>
      body.Some? && body.value.JObject? && ValidatePayment(body.value.fields).Err?
      && ValidatePayment(body.value.fields).error.ValueError?
    ensures CreatePayment(body).status == 400 ==>
      CreatePayment(body).body == ErrorBody(ValidatePayment(body.value.fields).error.message)
    ensures CreatePayment(body).status == 500 ==> CreatePayment(body).body == ErrorBody(INTERNAL_ERROR)
  {
  }

  /** An amount that is a string is not compared but raises, so the client
      sees 500 rather than 400. */
  lemma StringAmountIsInternalError()
    ensures CreatePayment(Some(JObject(map["amount" := JString("10"), "currency" := JString("USD"),
                                           "method" := JString("card"), "card_number" := JString("4242")])))
            == Reply(500, ErrorBody(INTERNAL_ERROR))
  {
    var m := map["amount" := JString("10"), "currency" := JString("USD"),
                 "method" := JString("card"), "card_number" := JString("4242")];
    assert FirstMissing(REQUIRED_FIELDS, m) == None;
  }
}

=== FILE: platform_catalog.dfy ===
/** The second catalogue variant: its product table, whose stock column is
    `stock` and whose entity carries column definitions but no validation
    annotations, the JPA `saveAll` the seed loader calls, and the queries its
    repository declares. As in the first variant each query is the set of ids
    whose row passes the WHERE clause, and a NULL operand makes a comparison
    unknown, which excludes the row. */
module PlatformCatalog {
  import opened Wrappers
  import opened ProductEntity
  import BV = BeanValidation
  import Text
  import Lex
  import CatalogRepository

  /** One row of the products table; price in cents. Timestamps are left out. */
  datatype PlatformRow = PlatformRow(
    id: Option<int>,
    name: Option<string>,
    description: Option<string>,
    price: Option<int>,
    category: Option<string>,
    stock: Option<Int32>,
    sku: Option<string>,
    imageUrl: Option<string>,
    active: Option<bool>)

  /** `new Product()`: only the field initialisers have run. */
  function FreshPlatformRow(): (r: PlatformRow)
    ensures r.stock == Some(0) && r.active == Some(true)
    ensures r.id.None? && r.name.None? && r.sku.None? && r.price.None? && r.category.None?
  {
    PlatformRow(None, None, None, None, None, Some(0), None, None, Some(true))
  }

  /** The column definitions: NOT NULL name, price, category, stock, sku and
      active; VARCHAR lengths 255, 1000, 100, 50 and 500; NUMERIC(12, 2) for
      the price. */
  predicate ColumnsAccept(r: PlatformRow) {
    && r.name.Some? && |r.name.value| <= 255
    && (r.description.None? || |r.description.value| <= 1000)
    && r.price.Some? && BV.PriceDigits(r.price)
    && r.category.Some? && |r.category.value| <= 100
    && r.stock.Some?
    && r.sku.Some? && |r.sku.value| <= 50
    && (r.imageUrl.None? || |r.imageUrl.value| <= 500)
    && r.active.Some?
  }

  type PlatformTable = map<int, PlatformRow>

  /** Another row than `id` already holds SKU `sku`. */
  predicate SkuHeldByOther(t: PlatformTable, sku: string, id: int) {
    exists j :: j in t && j != id && t[j].sku == Some(sku)
  }

  predicate SkusDistinct(t: PlatformTable) {
    forall i, j :: i in t && j in t && i != j ==> t[i].sku != t[j].sku
  }

  /** Every stored row is keyed by its own id below the next IDENTITY value,
      satisfies its columns, and SKUs are unique. */
  predicate WellFormed(t: PlatformTable, nextId: int) {
    && nextId >= 1
    && SkusDistinct(t)
    && forall id :: id in t ==> 1 <= id < nextId && t[id].id == Some(id) && ColumnsAccept(t[id])
  }

  // ----- saveAll -----

  /** One `save` inside `saveAll`: a row without an id, or with one the table
      does not hold, is inserted under the next IDENTITY value; otherwise it
      overwrites. None when a column or the unique SKU refuses the write. */
  function SaveStep(t: PlatformTable, nextId: int, p: PlatformRow): (r: Option<(PlatformTable, int)>)
    requires WellFormed(t, nextId)
    ensures r.Some? ==> WellFormed(r.value.0, r.value.1)
    ensures r.Some? <==>
      (ColumnsAccept(p) && !SkuHeldByOther(t, p.sku.value, if p.id.None? || p.id.value !in t then nextId else p.id.value))
  {
    var isNew := p.id.None? || p.id.value !in t;
    var key := if isNew then nextId else p.id.value;
    var stored := p.(id := Some(key));
    if !ColumnsAccept(stored) || SkuHeldByOther(t, stored.sku.value, key) then None
    else
      var t' := t[key := stored];
      assert SkusDistinct(t') by {
        forall i, j | i in t' && j in t' && i != j ensures t'[i].sku != t'[j].sku {
          if i != key && j != key {
            assert t'[i] == t[i] && t'[j] == t[j];
          }
        }
      }
      Some((t', if isNew then nextId + 1 else nextId))
  }

  /** `saveAll(ps)` in its transaction: every row saved in list order, or,
      when one save fails, the whole batch rolled back (None). */
  function SaveAllOutcome(t: PlatformTable, nextId: int, ps: seq<PlatformRow>): (r: Option<(PlatformTable, int)>)
    requires WellFormed(t, nextId)
    ensures r.Some? ==> WellFormed(r.value.0, r.value.1)
    decreases |ps|
  {
    if ps == [] then Some((t, nextId))
    else
      match SaveStep(t, nextId, ps[0])
      case None => None
      case Some(s) => SaveAllOutcome(s.0, s.1, ps[1..])
  }

  /** The table after inserting every element of ps, in order, under
      consecutive ids from `from` on. */
  function InsertAll(t: PlatformTable, from: int, ps: seq<PlatformRow>): PlatformTable
    decreases |ps|
  {
    if ps == [] then t else InsertAll(t[from := ps[0].(id := Some(from))], from + 1, ps[1..])
  }

  /** Over a table whose keys lie below `from`, InsertAll keeps every stored row
      and adds exactly the keys from .. from + |ps| - 1, the i-th holding ps[i]
      with its new id. */
  lemma {:induction false} InsertAllContents(t: PlatformTable, from: int, ps: seq<PlatformRow>)
    requires forall id :: id in t ==> id < from
    ensures forall id :: id in InsertAll(t, from, ps) <==> id in t || from <= id < from + |ps|
    ensures forall id :: id in t ==> InsertAll(t, from, ps)[id] == t[id]
    ensures forall i :: 0 <= i < |ps| ==> InsertAll(t, from, ps)[from + i] == ps[i].(id := Some(from + i))
    decreases |ps|
  {
    if ps != [] {
      var t1 := t[from := ps[0].(id := Some(from))];
      InsertAllContents(t1, from + 1, ps[1..]);
      forall i | 0 <= i < |ps|
        ensures from + i in InsertAll(t, from, ps) && InsertAll(t, from, ps)[from + i] == ps[i].(id := Some(from + i))
      {
        if i > 0 {
          assert ps[1..][i - 1] == ps[i];
        }
      }
    }
  }

  predicate NewAndDistinct(t: PlatformTable, ps: seq<PlatformRow>) {
    && (forall i :: 0 <= i < |ps| ==> ps[i].id.None? && ColumnsAccept(ps[i]))
    && (forall i, j :: 0 <= i < j < |ps| ==> ps[i].sku != ps[j].sku)
    && (forall i, id :: 0 <= i < |ps| && id in t ==> t[id].sku != ps[i].sku)
  }

  /** The first save of such a batch inserts its row under nextId, and the
      rest of the batch is still new and distinct against the grown table. */
  lemma SaveFirstNew(t: PlatformTable, nextId: int, ps: seq<PlatformRow>)
    requires WellFormed(t, nextId)
    requires NewAndDistinct(t, ps) && ps != []
    ensures WellFormed(t[nextId := ps[0].(id := Some(nextId))], nextId + 1)
    ensures SaveAllOutcome(t, nextId, ps) == SaveAllOutcome(t[nextId := ps[0].(id := Some(nextId))], nextId + 1, ps[1..])
    ensures NewAndDistinct(t[nextId := ps[0].(id := Some(nextId))], ps[1..])
  {
    var p := ps[0];
    assert forall j :: j in t ==> t[j].sku != p.sku;
    assert !SkuHeldByOther(t, p.sku.value, nextId);
    assert SaveStep(t, nextId, p) == Some((t[nextId := p.(id := Some(nextId))], nextId + 1));
    var t1 := t[nextId := p.(id := Some(nextId))];
    var rest := ps[1..];
    forall i, id | 0 <= i < |rest| && id in t1 ensures t1[id].sku != rest[i].sku {
      assert rest[i] == ps[i + 1];
      if id != nextId {
        assert t1[id] == t[id];
      }
    }
    forall i, j | 0 <= i < j < |rest| ensures rest[i].sku != rest[j].sku {
      assert rest[i] == ps[i + 1] && rest[j] == ps[j + 1];
    }
  }

  /** A batch of new rows with distinct SKUs, none already stored, all
      accepted by the columns, is inserted as a whole under consecutive ids. */
  lemma {:induction false} SaveAllNew(t: PlatformTable, nextId: int, ps: seq<PlatformRow>)
    requires WellFormed(t, nextId)
    requires NewAndDistinct(t, ps)
    ensures SaveAllOutcome(t, nextId, ps) == Some((InsertAll(t, nextId, ps), nextId + |ps|))
    decreases |ps|
  {
    if ps != [] {
      var t1 := t[nextId := ps[0].(id := Some(nextId))];
      SaveFirstNew(t, nextId, ps);
      SaveAllNew(t1, nextId + 1, ps[1..]);
      assert (nextId + 1) + |ps[1..]| == nextId + |ps|;
      assert InsertAll(t, nextId, ps) == InsertAll(t1, nextId + 1, ps[1..]);
    }
  }

  /** The persistent store of the second variant. */
  class PlatformRepository {
    var rows: PlatformTable
    var nextId: int

    ghost predicate Valid()
      reads this
    {
      WellFormed(rows, nextId)
    }

    constructor ()
      ensures Valid() && rows == map[] && nextId == 1
    {
      rows, nextId := map[], 1;
    }

    /** count(), as in CatalogRepository.ProductRepository.Count but over this
        variant's table. */
    function Count(): (n: nat)
      reads this
      ensures n == 0 <==> rows == map[]
    {
      |rows.Keys|
    }

    /** saveAll(ps): the rows are saved one by one in list order; the first
        refused save rolls back the whole batch. */
    method SaveAll(ps: seq<PlatformRow>) returns (r: Result<(), CatalogRepository.DbError>)
      requires Valid()
      modifies this
      ensures Valid()
      ensures var o := SaveAllOutcome(old(rows), old(nextId), ps);
              && (o.Some? ==> r.Ok? && rows == o.value.0 && nextId == o.value.1)
              && (o.None? ==> r == Err(CatalogRepository.DataIntegrityViolation)
                              && rows == old(rows) && nextId == old(nextId))
    {
      var t, n := rows, nextId;
      var i := 0;
      while i < |ps|
        invariant 0 <= i <= |ps|
        invariant WellFormed(t, n)
        invariant SaveAllOutcome(rows, nextId, ps) == SaveAllOutcome(t, n, ps[i..])
        decreases |ps| - i
      {
        assert ps[i..][0] == ps[i] && ps[i..][1..] == ps[i + 1..];
        var step := SaveStep(t, n, ps[i]);
        if step.None? {
          return Err(CatalogRepository.DataIntegrityViolation);
        }
        t, n := step.value.0, step.value.1;
        i := i + 1;
      }
      rows, nextId := t, n;
      r := Ok(());
    }
  }

  // ----- queries -----

  predicate IsActive(p: PlatformRow) {
    p.active == Some(true)
  }

  /** `LOWER(p.name) LIKE LOWER(CONCAT('%', :search, '%'))`; a null search or
      a null name leaves the comparison unknown. */
  predicate NameLike(p: PlatformRow, search: Option<string>) {
    search.Some? && p.name.Some? && Text.LikeContainsIgnoreCase(p.name.value, search.value)
  }

  /** The same test on the description. */
  predicate DescriptionLike(p: PlatformRow, search: Option<string>) {
    search.Some? && p.description.Some? && Text.LikeContainsIgnoreCase(p.description.value, search.value)
  }

  /** searchByNameOrDescription: the three declarations, paged, listed and
      "pageable", carry the same JPQL text and so the same WHERE clause. */
  function SearchByNameOrDescription(t: PlatformTable, search: Option<string>): (r: set<int>)
    ensures r <= t.Keys
    ensures forall id :: id in r ==> IsActive(t[id]) && search.Some?
    ensures forall id :: id in r ==> t[id].name.Some? || t[id].description.Some?
  {
    set id | id in t && (NameLike(t[id], search) || DescriptionLike(t[id], search)) && IsActive(t[id])
  }

  /** For a search term without wildcards, a hit is an active row whose name
      or description contains the term, letter case aside; a row with a null
      description is found by its name alone. */
  lemma SearchIsSubstring(t: PlatformTable, search: string, id: int)
    requires Text.NoWildcards(search) && id in t
    ensures id in SearchByNameOrDescription(t, Some(search)) <==>
      && IsActive(t[id])
      && ((t[id].name.Some? && Text.Contains(Text.Lower(t[id].name.value), Text.Lower(search)))
          || (t[id].description.Some? && Text.Contains(Text.Lower(t[id].description.value), Text.Lower(search))))
  {
    if t[id].name.Some? {
      Text.LikeContainsIgnoreCaseIsSubstring(t[id].name.value, search);
    }
    if t[id].description.Some? {
      Text.LikeContainsIgnoreCaseIsSubstring(t[id].description.value, search);
    }
  }

  /** findWithFilters: each null parameter imposes nothing; category is
      exact, the price bounds inclusive, and the search group matches name or
      description. */
  predicate MatchesFilters(p: PlatformRow, category: Option<string>, minPrice: Option<int>,
                           maxPrice: Option<int>, search: Option<string>) {
    && (category.None? || p.category == category)
    && (minPrice.None? || (p.price.Some? && p.price.value >= minPrice.value))
    && (maxPrice.None? || (p.price.Some? && p.price.value <= maxPrice.value))
    && (search.None? || NameLike(p, search) || DescriptionLike(p, search))
    && IsActive(p)
  }

  function FindWithFilters(t: PlatformTable, category: Option<string>, minPrice: Option<int>,
                           maxPrice: Option<int>, search: Option<string>): (r: set<int>)
    ensures r <= t.Keys
    ensures forall id :: id in r ==> IsActive(t[id])
  {
    set id | id in t && MatchesFilters(t[id], category, minPrice, maxPrice, search)
  }

  /** The active products: what every query here narrows (findByActiveTrue,
      as CatalogRepository.FindByActiveTrue on the other variant's table). */
  function ActiveIds(t: PlatformTable): (r: set<int>)
    ensures forall id :: id in r <==> id in t && t[id].active == Some(true)
  {
    set id | id in t && IsActive(t[id])
  }

  /** With every filter null, findWithFilters returns every active product. */
  lemma FiltersAllNull(t: PlatformTable)
    ensures FindWithFilters(t, None, None, None, None) == ActiveIds(t)
  {
    forall id | id in t ensures MatchesFilters(t[id], None, None, None, None) <==> IsActive(t[id]) {
    }
  }

  /** With only the search given, findWithFilters and searchByNameOrDescription
      agree. */
  lemma FiltersSearchOnly(t: PlatformTable, search: string)
    ensures FindWithFilters(t, None, None, None, Some(search)) == SearchByNameOrDescription(t, Some(search))
  {
    forall id | id in t ensures MatchesFilters(t[id], None, None, None, Some(search)) <==>
        (NameLike(t[id], Some(search)) || DescriptionLike(t[id], Some(search))) && IsActive(t[id]) {
    }
  }

  /** With only the price bounds given, findWithFilters and
      findByPriceBetweenAndActiveTrue agree. */
  lemma FiltersPriceOnly(t: PlatformTable, lo: int, hi: int)
    ensures FindWithFilters(t, None, Some(lo), Some(hi), None) == FindByPriceBetweenAndActiveTrue(t, Some(lo), Some(hi))
  {
    forall id | id in t ensures MatchesFilters(t[id], None, Some(lo), Some(hi), None) <==>
        IsActive(t[id]) && t[id].price.Some? && lo <= t[id].price.value <= hi {
    }
  }

  /** A category filter keeps exactly the rows of that category among what the
      other filters find. */
  lemma FiltersCategoryExact(t: PlatformTable, category: string, minPrice: Option<int>,
                             maxPrice: Option<int>, search: Option<string>)
    ensures FindWithFilters(t, Some(category), minPrice, maxPrice, search) ==
      set id | id in FindWithFilters(t, None, minPrice, maxPrice, search) && t[id].category == Some(category)
  {
    forall id | id in t ensures MatchesFilters(t[id], Some(category), minPrice, maxPrice, search) <==>
        MatchesFilters(t[id], None, minPrice, maxPrice, search) && t[id].category == Some(category) {
    }
  }

  /** An empty search string becomes the pattern '%%', which every stored name
      matches: searching for "" filters nothing. */
  lemma {:induction false} EmptySearchFiltersNothing(t: PlatformTable, nextId: int, category: Option<string>,
                                                     minPrice: Option<int>, maxPrice: Option<int>)
    requires WellFormed(t, nextId)
    ensures FindWithFilters(t, category, minPrice, maxPrice, Some("")) == FindWithFilters(t, category, minPrice, maxPrice, None)
  {
    assert Text.Lower("%" + "" + "%") == "%%";
    forall id | id in t ensures MatchesFilters(t[id], category, minPrice, maxPrice, Some("")) <==>
        MatchesFilters(t[id], category, minPrice, maxPrice, None) {
      var n := Text.Lower(t[id].name.value);
      Text.LikePercentMatchesAll(n);
      assert "%%"[1..] == "%";
      assert Text.Like(n, "%%");
      assert NameLike(t[id], Some(""));
    }
  }

  /** findByPriceBetweenAndActiveTrue(min, max): inclusive on both ends; a null
      bound makes BETWEEN unknown, so nothing matches. */
  function FindByPriceBetweenAndActiveTrue(t: PlatformTable, minPrice: Option<int>, maxPrice: Option<int>): (r: set<int>)
    ensures forall id :: id in r <==>
      (id in t && t[id].active == Some(true) && minPrice.Some? && maxPrice.Some? && t[id].price.Some?
       && minPrice.value <= t[id].price.value <= maxPrice.value)
  {
    set id | id in t && minPrice.Some? && maxPrice.Some? && t[id].price.Some?
      && minPrice.value <= t[id].price.value <= maxPrice.value && IsActive(t[id])
  }

  /** A range whose lower end lies above its upper end finds nothing. */
  lemma EmptyPriceRange(t: PlatformTable, lo: int, hi: int)
    requires hi < lo
    ensures FindByPriceBetweenAndActiveTrue(t, Some(lo), Some(hi)) == {}
  {
    forall id | id in t ensures id !in FindByPriceBetweenAndActiveTrue(t, Some(lo), Some(hi)) {
    }
  }

  function ActiveCategories(t: PlatformTable): set<string> {
    set id | id in t && IsActive(t[id]) && t[id].category.Some? :: t[id].category.value
  }

  /** findDistinctCategories: each category of an active product once, ascending,
      as CatalogRepository.FindDistinctCategories over this variant's table. */
  ghost function FindDistinctCategories(t: PlatformTable): (r: seq<string>)
    ensures Lex.StrictlySorted(r)
    ensures forall c :: c in r <==> exists id :: id in t && t[id].active == Some(true) && t[id].category == Some(c)
  {
    var s := ActiveCategories(t);
    assert forall c :: c in s <==> exists id :: id in t && t[id].active == Some(true) && t[id].category == Some(c) by {
      forall c | c in s ensures exists id :: id in t && t[id].active == Some(true) && t[id].category == Some(c) {
        var id :| id in t && IsActive(t[id]) && t[id].category.Some? && t[id].category.value == c;
      }
    }
    Lex.Sorted(s)
  }

  /** findLowStockProducts(threshold): active products whose stock is at most
      the threshold; a null threshold matches none. */
  function FindLowStockProducts(t: PlatformTable, threshold: Option<Int32>): (r: set<int>)
    ensures forall id :: id in r <==>
      id in t && t[id].active == Some(true) && threshold.Some?
      && t[id].stock.Some? && t[id].stock.value <= threshold.value
  {
    set id | id in t && threshold.Some? && t[id].stock.Some? && t[id].stock.value <= threshold.value && IsActive(t[id])
  }

  /** Stock is NOT NULL, so at the largest threshold every active product is
      "low"; and a higher threshold never finds fewer. */
  lemma LowStockBounds(t: PlatformTable, nextId: int, a: Int32, b: Int32)
    requires WellFormed(t, nextId)
    requires a <= b
    ensures FindLowStockProducts(t, Some(INT32_MAX)) == ActiveIds(t)
    ensures FindLowStockProducts(t, Some(a)) <= FindLowStockProducts(t, Some(b))
    ensures FindLowStockProducts(t, None) == {}
  {
    forall id | id in t ensures id in FindLowStockProducts(t, Some(INT32_MAX)) <==> IsActive(t[id]) {
      assert ColumnsAccept(t[id]);
    }
  }

  /** findByIdInAndActiveTrue(ids): the listed ids that exist and are active;
      order and repetitions in the list do not matter. */
  function FindByIdInAndActiveTrue(t: PlatformTable, ids: seq<int>): (r: set<int>)
    ensures forall id :: id in r <==> id in ids && id in t && t[id].active == Some(true)
  {
    set id | id in t && id in ids && IsActive(t[id])
  }

  /** Listing every id finds every active product; listing none finds none. */
  lemma FindByIdInBounds(t: PlatformTable, ids: seq<int>)
    requires forall id :: id in t ==> id in ids
    ensures FindByIdInAndActiveTrue(t, ids) == ActiveIds(t)
    ensures FindByIdInAndActiveTrue(t, []) == {}
  {
    forall id | id in t ensures id in FindByIdInAndActiveTrue(t, ids) <==> IsActive(t[id]) {
    }
  }
}

=== FILE: platform_dtos.dfy ===
/** The request bodies of the second catalogue variant and their validation
    annotations. Its create body requires a stock figure and accepts a
    two-character SKU; its update body has no SKU field at all. */
module PlatformDtos {
  import opened Wrappers
  import BV = BeanValidation
  import opened ProductEntity
  import ProductRequests
  import PlatformCatalog

  /** ProductCreateDto; price in cents. */
  datatype CreateDto = CreateDto(
    name: Option<string>,
    description: Option<string>,
    price: Option<int>,
    category: Option<string>,
    stock: Option<Int32>,
    sku: Option<string>,
    imageUrl: Option<string>,
    active: Option<bool>)

  function AsInt(v: Option<Int32>): Option<int> {
    if v.Some? then Some(v.value as int) else None
  }

  /** The annotations on ProductCreateDto. */
  predicate CreateDtoValid(d: CreateDto) {
    && BV.NotBlank(d.name) && BV.Size(d.name, 2, 255)
    && BV.Size(d.description, 0, 1000)
    && BV.NotNull(d.price) && BV.DecimalMinInclusive(d.price, 1) && BV.PriceDigits(d.price)
    && BV.NotBlank(d.category) && BV.Size(d.category, 2, 100)
    && BV.NotNull(d.stock) && BV.Min(AsInt(d.stock), 0)
    && BV.NotBlank(d.sku) && BV.Size(d.sku, 2, 50)
    && BV.Size(d.imageUrl, 0, 500)
  }

  /** A body Jackson builds from a JSON object that names only the given
      fields: `active` keeps its initialiser, true. */
  function CreateDtoFromJson(name: Option<string>, description: Option<string>, price: Option<int>,
                             category: Option<string>, stock: Option<Int32>, sku: Option<string>,
                             imageUrl: Option<string>): (d: CreateDto)
    ensures d.active == Some(true)
  {
    CreateDto(name, description, price, category, stock, sku, imageUrl, Some(true))
  }

  /** What a valid create body guarantees: name, price, category, stock and
      SKU present; price at least one cent and below 10^10 currency units;
      stock not negative; SKU of 2 to 50 characters. */
  lemma CreateDtoValidMeaning(d: CreateDto)
    requires CreateDtoValid(d)
    ensures d.name.Some? && d.price.Some? && d.category.Some? && d.stock.Some? && d.sku.Some?
    ensures 1 <= d.price.value < BV.PRICE_CENTS_LIMIT
    ensures d.stock.value >= 0 && 2 <= |d.sku.value| <= 50 && 2 <= |d.name.value| <= 255
  {
  }

  /** The two create bodies disagree: a request without a stock figure passes
      the first variant's annotations and fails these, and a two-letter SKU
      passes these and fails the first variant's. */
  lemma CreateBodiesDiffer()
    ensures ProductRequests.CreateValid(ProductRequests.CreateRequest(
      Some("Mug"), Some("MUG"), None, Some(500), Some("Kitchen"), None, None, None, None, None))
    ensures !CreateDtoValid(CreateDto(Some("Mug"), None, Some(500), Some("Kitchen"), None, Some("MUG"), None, Some(true)))
    ensures CreateDtoValid(CreateDto(Some("Mug"), None, Some(500), Some("Kitchen"), Some(3), Some("MG"), None, Some(true)))
    ensures !ProductRequests.CreateValid(ProductRequests.CreateRequest(
      Some("Mug"), Some("MG"), None, Some(500), Some("Kitchen"), Some(3), None, None, None, None))
  {
    assert BV.NotBlank(Some("Mug")) by { assert "Mug"[0] > ' '; }
    assert BV.NotBlank(Some("MUG")) by { assert "MUG"[0] > ' '; }
    assert BV.NotBlank(Some("MG")) by { assert "MG"[0] > ' '; }
    assert BV.NotBlank(Some("Kitchen")) by { assert "Kitchen"[0] > ' '; }
  }

  /** A valid create body with a non-null `active` yields a row the table
      accepts: the annotations are at least as strict as the column
      definitions. */
  lemma CreateDtoFitsColumns(d: CreateDto)
    requires CreateDtoValid(d) && d.active.Some?
    ensures PlatformCatalog.ColumnsAccept(PlatformCatalog.PlatformRow(
      None, d.name, d.description, d.price, d.category, d.stock, d.sku, d.imageUrl, d.active))
  {
  }

  /** ProductUpdateDto: every field optional, and no SKU. */
  datatype UpdateDto = UpdateDto(
    name: Option<string>,
    description: Option<string>,
    price: Option<int>,
    category: Option<string>,
    stock: Option<Int32>,
    imageUrl: Option<string>,
    active: Option<bool>)

  /** The annotations on ProductUpdateDto: sizes and bounds only, nothing on
      `active`. */
  predicate UpdateDtoValid(d: UpdateDto) {
    && BV.Size(d.name, 2, 255)
    && BV.Size(d.description, 0, 1000)
    && BV.DecimalMinInclusive(d.price, 1) && BV.PriceDigits(d.price)
    && BV.Size(d.category, 2, 100)
    && BV.Min(AsInt(d.stock), 0)
    && BV.Size(d.imageUrl, 0, 500)
  }

  /** The body with every field null: valid, and with no default for `active`. */
  function EmptyUpdateDto(): (d: UpdateDto)
    ensures UpdateDtoValid(d)
    ensures d.active.None? && d.name.None? && d.price.None? && d.stock.None?
  {
    UpdateDto(None, None, None, None, None, None, None)
  }

  /** Null passes every update annotation, and each annotation bounds only its
      own field: a valid body stays valid when any one field is reset to null. */
  lemma UpdateDtoNullPasses(d: UpdateDto)
    requires UpdateDtoValid(d)
    ensures UpdateDtoValid(d.(name := None)) && UpdateDtoValid(d.(description := None))
    ensures UpdateDtoValid(d.(price := None)) && UpdateDtoValid(d.(category := None))
    ensures UpdateDtoValid(d.(stock := None)) && UpdateDtoValid(d.(imageUrl := None))
    ensures forall a: Option<bool> :: UpdateDtoValid(d.(active := a))
  {
  }

  /** What a valid update body guarantees of the fields it carries. */
  lemma UpdateDtoValidMeaning(d: UpdateDto)
    requires UpdateDtoValid(d)
    ensures d.name.Some? ==> 2 <= |d.name.value| <= 255
    ensures d.price.Some? ==> 1 <= d.price.value < BV.PRICE_CENTS_LIMIT
    ensures d.category.Some? ==> 2 <= |d.category.value| <= 100
    ensures d.stock.Some? ==> d.stock.value >= 0
  {
  }
}

=== FILE: popular_topics.dfy ===
/** The "popular topics" of the v2 analytics endpoint: the words of all
    logged questions, lower-cased and split on whitespace; a count for each
    word longer than three characters, kept in a dict whose keys stay in
    first-occurrence order; those entries sorted by count, descending, with
    Python's stable `sorted`; and the first five words. */
module PopularTopics {
  import Text
  import opened PyText

  const MIN_WORD_LENGTH: nat := 3
  const MAX_TOPICS: nat := 5

  predicate Counted(w: string) {
    |w| > MIN_WORD_LENGTH
  }

  /** The number of occurrences of w in ws. */
  function Occurrences(ws: seq<string>, w: string): (r: nat)
    ensures r <= |ws|
    ensures r > 0 <==> w in ws
  {
    if ws == [] then 0
    else Occurrences(ws[..|ws| - 1], w) + (if ws[|ws| - 1] == w then 1 else 0)
  }

  /** The index of the first occurrence of w in ws. */
  function FirstIndex(ws: seq<string>, w: string): (r: nat)
    requires w in ws
    ensures r < |ws| && ws[r] == w
    ensures forall k :: 0 <= k < r ==> ws[k] != w
  {
    if ws[0] == w then 0 else 1 + FirstIndex(ws[1..], w)
  }

  /** A word's first occurrence does not move when more words follow. */
  lemma FirstIndexPrefix(ws: seq<string>, m: nat, w: string)
    requires m <= |ws| && w in ws[..m]
    ensures w in ws && FirstIndex(ws, w) == FirstIndex(ws[..m], w)
  {
    var r := FirstIndex(ws[..m], w);
    var q := FirstIndex(ws, w);
    assert ws[r] == w;
    assert ws[..m][q] == w;
  }

  /** The dict's keys after `for word in ws`, in insertion order. */
  function FirstOccurrences(ws: seq<string>): seq<string> {
    if ws == [] then []
    else
      var keys := FirstOccurrences(ws[..|ws| - 1]);
      var x := ws[|ws| - 1];
      if Counted(x) && x !in keys then keys + [x] else keys
  }

  /** The dict's counts after `for word in ws`. */
  function Frequencies(ws: seq<string>): map<string, nat> {
    if ws == [] then map[]
    else
      var freq := Frequencies(ws[..|ws| - 1]);
      var x := ws[|ws| - 1];
      if Counted(x) then freq[x := (if x in freq then freq[x] else 0) + 1] else freq
  }

  /** The counts are the occurrences of exactly the long words. */
  lemma {:induction false} FrequenciesMeaning(ws: seq<string>)
    ensures forall w :: w in Frequencies(ws) <==> Counted(w) && w in ws
    ensures forall w :: w in Frequencies(ws) ==> Frequencies(ws)[w] == Occurrences(ws, w)
  {
    if ws != [] {
      var p := ws[..|ws| - 1];
      FrequenciesMeaning(p);
      assert ws == p + [ws[|ws| - 1]];
    }
  }

  /** keys are words of ws listed in the order of their first occurrence
      in ws. */
  predicate InFirstOccurrenceOrder(ws: seq<string>, keys: seq<string>) {
    && (forall k :: 0 <= k < |keys| ==> keys[k] in ws)
    && (forall i, j :: 0 <= i < j < |keys| ==> FirstIndex(ws, keys[i]) < FirstIndex(ws, keys[j]))
  }

  /** The keys are exactly the long words. */
  lemma {:induction false} FirstOccurrencesKeys(ws: seq<string>)
    ensures forall w :: w in FirstOccurrences(ws) <==> Counted(w) && w in ws
  {
    if ws != [] {
      var p := ws[..|ws| - 1];
      FirstOccurrencesKeys(p);
      assert ws == p + [ws[|ws| - 1]];
    }
  }

  /** Words listed in first-occurrence order over a prefix of ws stay so
      over ws, at the same first indices. */
  lemma PrefixOrderKept(ws: seq<string>, n: nat, keys: seq<string>)
    requires n <= |ws| && InFirstOccurrenceOrder(ws[..n], keys)
    ensures forall i :: 0 <= i < |keys| ==> keys[i] in ws && FirstIndex(ws, keys[i]) == FirstIndex(ws[..n], keys[i])
    ensures InFirstOccurrenceOrder(ws, keys)
  {
    forall i | 0 <= i < |keys|
      ensures keys[i] in ws && FirstIndex(ws, keys[i]) == FirstIndex(ws[..n], keys[i])
    {
      FirstIndexPrefix(ws, n, keys[i]);
    }
  }

  /** Appending a word first seen after every listed one keeps the order. */
  lemma AppendLaterKept(ws: seq<string>, keys: seq<string>, x: string)
    requires InFirstOccurrenceOrder(ws, keys) && x in ws
    requires forall k :: 0 <= k < |keys| ==> FirstIndex(ws, keys[k]) < FirstIndex(ws, x)
    ensures InFirstOccurrenceOrder(ws, keys + [x])
  {
    var c := keys + [x];
    forall i, j | 0 <= i < j < |c| ensures FirstIndex(ws, c[i]) < FirstIndex(ws, c[j]) {
      assert c[i] == keys[i];
      if j < |keys| {
        assert c[j] == keys[j];
      }
    }
  }

  /** Each key is listed once, in order of first occurrence. */
  lemma {:induction false} FirstOccurrencesOrder(ws: seq<string>)
    ensures InFirstOccurrenceOrder(ws, FirstOccurrences(ws))
  {
    if ws != [] {
      var n := |ws|;
      var p := ws[..n - 1];
      var x := ws[n - 1];
      FirstOccurrencesOrder(p);
      FirstOccurrencesKeys(p);
      var oldKeys := FirstOccurrences(p);
      PrefixOrderKept(ws, n - 1, oldKeys);
      if Counted(x) && x !in oldKeys {
        assert x !in p;
        assert FirstIndex(ws, x) == n - 1;
        AppendLaterKept(ws, oldKeys, x);
      }
    }
  }

  // ---------------------------------------------------------------------
  // The stable sort by count, descending

  /** a comes before b in the sorted list: a larger count, or the same count
      and an earlier first occurrence. */
  predicate Before(ws: seq<string>, freq: map<string, nat>, a: string, b: string) {
    && a in ws && b in ws && a in freq && b in freq
    && (freq[a] > freq[b] || (freq[a] == freq[b] && FirstIndex(ws, a) < FirstIndex(ws, b)))
  }

  predicate Ordered(ws: seq<string>, freq: map<string, nat>, s: seq<string>) {
    forall i, j :: 0 <= i < j < |s| ==> Before(ws, freq, s[i], s[j])
  }

  predicate AllCounted(freq: map<string, nat>, s: seq<string>) {
    forall k :: 0 <= k < |s| ==> s[k] in freq
  }

  /** Inserts x after every entry whose count is at least x's. */
  function Insert(freq: map<string, nat>, x: string, s: seq<string>): (r: seq<string>)
    requires x in freq && AllCounted(freq, s)
    ensures multiset(r) == multiset(s) + multiset{x}
    ensures AllCounted(freq, r)
  {
    if s == [] then [x]
    else if freq[s[0]] >= freq[x] then
      assert s == [s[0]] + s[1..];
      [s[0]] + Insert(freq, x, s[1..])
    else [x] + s
  }

  /** `sorted(keys, key=count, reverse=True)`: the stable sort of keys by
      count, descending. */
  function SortByCount(freq: map<string, nat>, keys: seq<string>): (r: seq<string>)
    requires AllCounted(freq, keys)
    ensures multiset(r) == multiset(keys)
    ensures AllCounted(freq, r)
  {
    if keys == [] then []
    else
      var p := keys[..|keys| - 1];
      assert keys == p + [keys[|keys| - 1]];
      Insert(freq, keys[|keys| - 1], SortByCount(freq, p))
  }

  /** Putting in front of an ordered list an entry that comes before all of
      its entries keeps it ordered. */
  lemma ConsOrdered(ws: seq<string>, freq: map<string, nat>, a: string, r: seq<string>)
    requires Ordered(ws, freq, r)
    requires forall k :: 0 <= k < |r| ==> Before(ws, freq, a, r[k])
    ensures Ordered(ws, freq, [a] + r)
  {
    var c := [a] + r;
    forall i, j | 0 <= i < j < |c| ensures Before(ws, freq, c[i], c[j]) {
      assert c[j] == r[j - 1];
      if i > 0 {
        assert c[i] == r[i - 1];
      }
    }
  }

  /** Inserting a word that occurs later than every listed one keeps the
      list ordered. */
  lemma {:induction false} InsertOrdered(ws: seq<string>, freq: map<string, nat>, x: string, s: seq<string>)
    requires x in ws && x in freq && AllCounted(freq, s) && Ordered(ws, freq, s)
    requires forall k :: 0 <= k < |s| ==> s[k] in ws && FirstIndex(ws, s[k]) < FirstIndex(ws, x)
    ensures Ordered(ws, freq, Insert(freq, x, s))
  {
    if s == [] {
      ConsOrdered(ws, freq, x, s);
      assert Insert(freq, x, s) == [x] + s;
    } else if freq[s[0]] >= freq[x] {
      var t := s[1..];
      assert Ordered(ws, freq, t) by {
        forall i, j | 0 <= i < j < |t| ensures Before(ws, freq, t[i], t[j]) {
          assert t[i] == s[i + 1] && t[j] == s[j + 1];
        }
      }
      InsertOrdered(ws, freq, x, t);
      var r := Insert(freq, x, t);
      forall k | 0 <= k < |r| ensures Before(ws, freq, s[0], r[k]) {
        assert r[k] in multiset(t) + multiset{x};
        if r[k] != x {
          var m :| 0 <= m < |t| && t[m] == r[k];
          assert Before(ws, freq, s[0], s[m + 1]);
        }
      }
      ConsOrdered(ws, freq, s[0], r);
      assert Insert(freq, x, s) == [s[0]] + r;
    } else {
      forall k | 0 <= k < |s| ensures Before(ws, freq, x, s[k]) {
        if k > 0 {
          assert Before(ws, freq, s[0], s[k]);
        }
      }
      ConsOrdered(ws, freq, x, s);
      assert Insert(freq, x, s) == [x] + s;
    }
  }

  /** Every entry of a rearrangement of all keys but the last was first
      seen before the last key. */
  lemma RearrangedEarlier(ws: seq<string>, keys: seq<string>, s: seq<string>)
    requires keys != [] && InFirstOccurrenceOrder(ws, keys)
    requires multiset(s) == multiset(keys[..|keys| - 1])
    ensures forall k :: 0 <= k < |s| ==> s[k] in ws && FirstIndex(ws, s[k]) < FirstIndex(ws, keys[|keys| - 1])
  {
    var p := keys[..|keys| - 1];
    forall k | 0 <= k < |s| ensures s[k] in ws && FirstIndex(ws, s[k]) < FirstIndex(ws, keys[|keys| - 1]) {
      assert s[k] in multiset(p);
      var m :| 0 <= m < |p| && p[m] == s[k];
      assert keys[m] == s[k];
    }
  }

  /** Sorting keys listed in first-occurrence order yields them by count,
      descending, and among equal counts in first-occurrence order. */
  lemma {:induction false} SortOrdered(ws: seq<string>, freq: map<string, nat>, keys: seq<string>)
    requires AllCounted(freq, keys)
    requires InFirstOccurrenceOrder(ws, keys)
    ensures Ordered(ws, freq, SortByCount(freq, keys))
  {
    if keys != [] {
      var n := |keys|;
      var p := keys[..n - 1];
      var x := keys[n - 1];
      assert AllCounted(freq, p) && InFirstOccurrenceOrder(ws, p) by {
        assert forall k :: 0 <= k < |p| ==> p[k] == keys[k];
      }
      SortOrdered(ws, freq, p);
      var s := SortByCount(freq, p);
      RearrangedEarlier(ws, keys, s);
      InsertOrdered(ws, freq, x, s);
      assert SortByCount(freq, keys) == Insert(freq, x, s);
    }
  }

  /** An ordered list has no repeated entry. */
  lemma OrderedDistinct(ws: seq<string>, freq: map<string, nat>, s: seq<string>)
    requires Ordered(ws, freq, s)
    ensures forall i, j :: 0 <= i < j < |s| ==> s[i] != s[j]
  {
    forall i, j | 0 <= i < j < |s| ensures s[i] != s[j] {
      assert Before(ws, freq, s[i], s[j]);
    }
  }

  // ---------------------------------------------------------------------
  // The topics

  /** The words of the logged questions, as the endpoint splits them. */
  function QuestionWords(questions: seq<string>): seq<string> {
    Words(Text.Lower(Join(" ", questions)))
  }

  /** The sorted keys of a count dict built in first-occurrence order. */
  function RankedWords(ws: seq<string>): seq<string> {
    FirstOccurrencesKeys(ws);
    FrequenciesMeaning(ws);
    SortByCount(Frequencies(ws), FirstOccurrences(ws))
  }

  /** The first five entries of a ranked list: `[topic[0] for topic in
      ranked[:5]]`. */
  function Top(ranked: seq<string>): (r: seq<string>)
    ensures |r| <= MAX_TOPICS && |r| <= |ranked| && r == ranked[..|r|]
    ensures |r| < MAX_TOPICS ==> r == ranked
  {
    if |ranked| <= MAX_TOPICS then ranked else ranked[..MAX_TOPICS]
  }

  /** The analytics endpoint's `popular_topics` for the logged questions. */
  function Topics(questions: seq<string>): seq<string> {
    Top(RankedWords(QuestionWords(questions)))
  }

  /** The ranked words are exactly the long words, by count descending and
      first occurrence among equal counts. */
  lemma RankedWordsMeaning(ws: seq<string>)
    ensures forall w :: w in RankedWords(ws) <==> Counted(w) && w in ws
    ensures Ordered(ws, Frequencies(ws), RankedWords(ws))
  {
    FirstOccurrencesKeys(ws);
    FirstOccurrencesOrder(ws);
    FrequenciesMeaning(ws);
    var keys := FirstOccurrences(ws);
    SortOrdered(ws, Frequencies(ws), keys);
    forall w ensures w in RankedWords(ws) <==> w in keys {
      assert w in RankedWords(ws) <==> w in multiset(keys);
    }
  }

  /** In a list ordered by the counts of ws, a listed word occurs at least
      as often as every later one, and earlier when as often. */
  lemma OrderedByOccurrences(ws: seq<string>, t: seq<string>)
    requires Ordered(ws, Frequencies(ws), t)
    ensures forall i, j :: 0 <= i < j < |t| ==> Occurrences(ws, t[i]) >= Occurrences(ws, t[j])
    ensures forall i, j :: 0 <= i < j < |t| && Occurrences(ws, t[i]) == Occurrences(ws, t[j]) ==>
              FirstIndex(ws, t[i]) < FirstIndex(ws, t[j])
  {
    var freq := Frequencies(ws);
    FrequenciesMeaning(ws);
    forall i, j | 0 <= i < j < |t|
      ensures Occurrences(ws, t[i]) >= Occurrences(ws, t[j])
      ensures Occurrences(ws, t[i]) == Occurrences(ws, t[j]) ==> FirstIndex(ws, t[i]) < FirstIndex(ws, t[j])
    {
      assert Before(ws, freq, t[i], t[j]);
    }
  }

  /** The five words listed are distinct long words of ws, by non-increasing
      count, equal counts in first-occurrence order. */
  lemma TopOrdered(ws: seq<string>)
    ensures var t := Top(RankedWords(ws));
      && (forall i :: 0 <= i < |t| ==> Counted(t[i]) && t[i] in ws)
      && (forall i, j :: 0 <= i < j < |t| ==> t[i] != t[j])
      && (forall i, j :: 0 <= i < j < |t| ==> Occurrences(ws, t[i]) >= Occurrences(ws, t[j]))
      && (forall i, j :: 0 <= i < j < |t| && Occurrences(ws, t[i]) == Occurrences(ws, t[j]) ==>
            FirstIndex(ws, t[i]) < FirstIndex(ws, t[j]))
  {
    var ranked := RankedWords(ws);
    var t := Top(ranked);
    var freq := Frequencies(ws);
    RankedWordsMeaning(ws);
    assert Ordered(ws, freq, t) by {
      forall i, j | 0 <= i < j < |t| ensures Before(ws, freq, t[i], t[j]) {
        assert t[i] == ranked[i] && t[j] == ranked[j];
      }
    }
    OrderedDistinct(ws, freq, t);
    OrderedByOccurrences(ws, t);
    forall i | 0 <= i < |t| ensures Counted(t[i]) && t[i] in ws {
      assert t[i] == ranked[i] && ranked[i] in ranked;
    }
  }

  /** No long word left out of the five occurs more often than a listed one,
      and a word is left out only when five are listed. */
  lemma TopComplete(ws: seq<string>)
    ensures var t := Top(RankedWords(ws));
      forall w :: Counted(w) && w in ws && w !in t ==>
        |t| == MAX_TOPICS && forall i :: 0 <= i < |t| ==> Occurrences(ws, t[i]) >= Occurrences(ws, w)
  {
    var ranked := RankedWords(ws);
    var t := Top(ranked);
    var freq := Frequencies(ws);
    RankedWordsMeaning(ws);
    FrequenciesMeaning(ws);
    forall w | Counted(w) && w in ws && w !in t
      ensures |t| == MAX_TOPICS && forall i :: 0 <= i < |t| ==> Occurrences(ws, t[i]) >= Occurrences(ws, w)
    {
      var m :| 0 <= m < |ranked| && ranked[m] == w;
      assert m >= |t|;
      forall i | 0 <= i < |t| ensures Occurrences(ws, t[i]) >= Occurrences(ws, w) {
        assert t[i] == ranked[i] && Before(ws, freq, ranked[i], ranked[m]);
      }
    }
  }

  /** What `popular_topics` holds: at most five distinct lower-cased words
      longer than three characters taken from the questions, by
      non-increasing count, equal counts in first-occurrence order; and no
      word left out occurs more often than any word listed. */
  lemma TopicsMeaning(questions: seq<string>)
    ensures var ws := QuestionWords(questions); var t := Topics(questions);
      && |t| <= MAX_TOPICS
      && (forall i :: 0 <= i < |t| ==> Counted(t[i]) && t[i] in ws && Text.IsLower(t[i]))
      && (forall i, j :: 0 <= i < j < |t| ==> t[i] != t[j])
      && (forall i, j :: 0 <= i < j < |t| ==> Occurrences(ws, t[i]) >= Occurrences(ws, t[j]))
      && (forall i, j :: 0 <= i < j < |t| && Occurrences(ws, t[i]) == Occurrences(ws, t[j]) ==>
            FirstIndex(ws, t[i]) < FirstIndex(ws, t[j]))
      && (forall w :: Counted(w) && w in ws && w !in t ==>
            |t| == MAX_TOPICS && forall i :: 0 <= i < |t| ==> Occurrences(ws, t[i]) >= Occurrences(ws, w))
  {
    var ws := QuestionWords(questions);
    var t := Topics(questions);
    TopOrdered(ws);
    TopComplete(ws);
    Text.LowerIsLower(Join(" ", questions));
    WordsOfLower(Text.Lower(Join(" ", questions)));
    forall i | 0 <= i < |t| ensures Text.IsLower(t[i]) {
      var m := FirstIndex(ws, t[i]);
      assert ws[m] == t[i];
    }
  }
}

=== FILE: product_controller.dfy ===
/** The catalogue's REST controller: for each endpoint, the HTTP status and
    body produced from the service's outcome. The controller catches only
    IllegalArgumentException; anything else the service raises reaches
    Spring's default handler as a 500, and a request body refused by @Valid
    is answered 400 before the service runs. Neither of those bodies is an
    ApiResponse, and neither is a `ResponseEntity.notFound().build()`, so all
    three carry no body here. */
module ProductController {
  import opened Wrappers
  import opened ProductEntity
  import opened CatalogRepository
  import opened ProductRequests
  import opened CatalogService
  import SearchRequest
  import Text

  /** The envelope every handler answers with. */
  datatype ApiResponse<T> = ApiResponse(success: bool, message: string, data: Option<T>)

  /** A ResponseEntity: status code and optional body. */
  datatype Reply<T> = Reply(status: int, body: Option<ApiResponse<T>>)

  const OK: int := 200
  const CREATED: int := 201
  const BAD_REQUEST: int := 400
  const NOT_FOUND: int := 404
  const SERVER_ERROR: int := 500

  /** What becomes of an exception the controller does not catch. */
  function Uncaught<T>(): Reply<T> {
    Reply(SERVER_ERROR, None)
  }

  function Failure<T>(status: int, e: ServiceError): Reply<T> {
    Reply(status, Some(ApiResponse(false, Message(e), None)))
  }

  /** createProduct: 201 with the product; any IllegalArgumentException,
      a duplicate SKU included, is 400 with its message. */
  function CreateReply(valid: bool, r: Result<ProductResponse, ServiceError>): (reply: Reply<ProductResponse>)
    ensures !valid ==> reply.status == BAD_REQUEST && reply.body.None?
    ensures valid && r.Ok? ==> reply == Reply(CREATED, Some(ApiResponse(true, "Product created successfully", Some(r.value))))
    ensures valid && r.Err? && r.error.IsIllegalArgument() ==>
      reply.status == BAD_REQUEST && reply.body == Some(ApiResponse(false, Message(r.error), None))
    ensures valid && r.Err? && !r.error.IsIllegalArgument() ==> reply.status == SERVER_ERROR
  {
    if !valid then Reply(BAD_REQUEST, None)
    else match r
      case Ok(p) => Reply(CREATED, Some(ApiResponse(true, "Product created successfully", Some(p))))
      case Err(e) => if e.IsIllegalArgument() then Failure(BAD_REQUEST, e) else Uncaught()
  }

  /** A duplicate SKU is answered 400, not the 409 the endpoint documents. */
  lemma DuplicateSkuIsBadRequest(sku: string)
    ensures CreateReply(true, Err(DuplicateSku(sku))).status == BAD_REQUEST
    ensures CreateReply(true, Err(DuplicateSku(sku))).body.value.message ==
      "Product with SKU '" + sku + "' already exists"
  {
  }

  /** getProductById and getProductBySku: 200 with the product, or 404 with
      no body for any IllegalArgumentException. */
  function LookupReply(r: Result<ProductResponse, ServiceError>): (reply: Reply<ProductResponse>)
    ensures r.Ok? ==> reply == Reply(OK, Some(ApiResponse(true, "Product retrieved successfully", Some(r.value))))
    ensures r.Err? && r.error.IsIllegalArgument() ==> reply == Reply(NOT_FOUND, None)
  {
    match r
    case Ok(p) => Reply(OK, Some(ApiResponse(true, "Product retrieved successfully", Some(p))))
    case Err(e) => if e.IsIllegalArgument() then Reply(NOT_FOUND, None) else Uncaught()
  }

  /** The lookup by id answers 200 exactly for a stored id, with that row. */
  lemma GetByIdReplyMeaning(t: Table, id: int)
    ensures LookupReply(GetProductById(t, id)).status == OK <==> id in t
    ensures id in t ==> LookupReply(GetProductById(t, id)).body.value.data.value.fields == t[id]
    ensures id !in t ==> LookupReply(GetProductById(t, id)) == Reply(NOT_FOUND, None)
  {
  }

  /** The catch block of updateProduct, updateStock and addStock as written:
      404 with no body when the message contains "not found", otherwise 400
      with the message. */
  function ClassifyAsWritten<T>(e: ServiceError): (reply: Reply<T>)
    ensures reply.status == NOT_FOUND <==> Text.Contains(Message(e), "not found")
    ensures reply.status != NOT_FOUND ==> reply == Failure(BAD_REQUEST, e)
  {
    if Text.Contains(Message(e), "not found") then Reply(NOT_FOUND, None) else Failure(BAD_REQUEST, e)
  }

  /** The corrected catch block, deciding by the kind of failure. */
  function Classify<T>(e: ServiceError): (reply: Reply<T>)
    ensures reply.status == NOT_FOUND <==> e.NotFoundById?
  {
    if e.NotFoundById? then Reply(NOT_FOUND, None) else Failure(BAD_REQUEST, e)
  }

  /** The corrected updateProduct, updateStock and addStock: 200 with the
      product and the endpoint's message, or the failure classified by kind. */
  function MutationReply(valid: bool, okMessage: string, r: Result<ProductResponse, ServiceError>): (reply: Reply<ProductResponse>)
    ensures !valid ==> reply == Reply(BAD_REQUEST, None)
    ensures valid && r.Ok? ==> reply == Reply(OK, Some(ApiResponse(true, okMessage, Some(r.value))))
    ensures valid && r.Err? && r.error.IsIllegalArgument() ==>
      (reply.status == NOT_FOUND <==> r.error.NotFoundById?)
    ensures valid && r.Err? && !r.error.IsIllegalArgument() ==> reply == Reply(SERVER_ERROR, None)
  {
    if !valid then Reply(BAD_REQUEST, None)
    else match r
      case Ok(p) => Reply(OK, Some(ApiResponse(true, okMessage, Some(p))))
      case Err(e) => if e.IsIllegalArgument() then Classify(e) else Uncaught()
  }

  /** updateProduct, updateStock and addStock as written: 400 for a body
      refused by @Valid, 200 with the product and the endpoint's message, an
      IllegalArgumentException answered 404 with no body exactly when its
      message contains "not found" and 400 with the message otherwise, and
      any other exception 500. */
  function MutationReplyAsWritten(valid: bool, okMessage: string, r: Result<ProductResponse, ServiceError>): (reply: Reply<ProductResponse>)
    ensures !valid ==> reply == Reply(BAD_REQUEST, None)
    ensures valid && r.Ok? ==> reply == Reply(OK, Some(ApiResponse(true, okMessage, Some(r.value))))
    ensures valid && r.Err? && r.error.IsIllegalArgument() ==>
      (reply.status == NOT_FOUND <==> Text.Contains(Message(r.error), "not found"))
    ensures valid && r.Err? && r.error.IsIllegalArgument() && reply.status != NOT_FOUND ==>
      reply == Reply(BAD_REQUEST, Some(ApiResponse(false, Message(r.error), None)))
    ensures valid && r.Err? && !r.error.IsIllegalArgument() ==> reply == Reply(SERVER_ERROR, None)
  {
    if !valid then Reply(BAD_REQUEST, None)
    else match r
      case Ok(p) => Reply(OK, Some(ApiResponse(true, okMessage, Some(p))))
      case Err(e) => if e.IsIllegalArgument() then ClassifyAsWritten(e) else Uncaught()
  }

  /** The "not found" message contains "not found", so for an unknown id the
      handlers as written and the corrected ones agree. */
  lemma NotFoundAgrees(id: int, okMessage: string)
    ensures Text.Contains(Message(NotFoundById(id)), "not found")
    ensures MutationReplyAsWritten(true, okMessage, Err(NotFoundById(id))) ==
            MutationReply(true, okMessage, Err(NotFoundById(id)))
  {
    var m := Message(NotFoundById(id));
    assert m[8..17] == "not found";
    assert Text.OccursAt(m, "not found", 8);
  }

  /** As written, updating a product to a SKU another product holds, when that
      SKU contains "not found", is answered 404 with no body; deciding by
      kind answers 400 with the duplicate-SKU message. */
  lemma SkuSayingNotFoundIs404(okMessage: string)
    ensures MutationReplyAsWritten(true, okMessage, Err(DuplicateSku("not found"))).status == NOT_FOUND
    ensures MutationReply(true, okMessage, Err(DuplicateSku("not found"))).status == BAD_REQUEST
  {
    var m := Message(DuplicateSku("not found"));
    assert m[18..27] == "not found";
    assert Text.OccursAt(m, "not found", 18);
  }

  /** deleteProduct: 200 with no data, or 404 with no body. */
  function DeleteReply(r: Result<(), ServiceError>): (reply: Reply<()>)
    ensures r.Ok? ==> reply == Reply(OK, Some(ApiResponse(true, "Product deleted successfully", None)))
    ensures r.Err? && r.error.IsIllegalArgument() ==> reply == Reply(NOT_FOUND, None)
  {
    match r
    case Ok(_) => Reply(OK, Some(ApiResponse(true, "Product deleted successfully", None)))
    case Err(e) => if e.IsIllegalArgument() then Reply(NOT_FOUND, None) else Uncaught()
  }

  /** The list endpoints catch nothing: 200 with the result, or 500. */
  function ListReply<T>(okMessage: string, r: Result<T, ServiceError>): (reply: Reply<T>)
    ensures r.Ok? <==> reply.status == OK
    ensures r.Ok? ==> reply.body == Some(ApiResponse(true, okMessage, Some(r.value)))
  {
    match r
    case Ok(v) => Reply(OK, Some(ApiResponse(true, okMessage, Some(v))))
    case Err(_) => Uncaught()
  }

  /** getAllProducts: a bad direction, an empty sort property or one that is
      not a Product attribute once decapitalised, a negative page or a page
      size below one is a 500. */
  lemma GetAllProductsReplyMeaning(t: Table, page: Int32, size: Int32, sortBy: string, direction: string)
    ensures ListReply("Products retrieved successfully", GetAllProducts(t, page, size, sortBy, direction)).status == OK
      <==> DirectionValid(direction) && Decapitalize(sortBy) in SORTABLE && page >= 0 && size >= 1
  {
  }

  /** searchProducts: a request its setters have normalised fails only on an
      unknown sort property. */
  lemma SearchReplyMeaning(t: Table, req: SearchRequest.ProductSearchRequest)
    requires req.Valid()
    ensures ListReply("Search completed successfully",
              CatalogService.SearchProducts(t, req.Criteria(), req.page, req.size, req.sortBy, req.sortDirection)).status == OK
      <==> req.sortBy in SORTABLE
  {
    NormalisedPagingOnlyFailsOnSortBy(req.page, req.size, req.sortBy, req.sortDirection);
    SortableHaveText();
  }

  /** checkAvailability: always 200 and success, carrying the answer. */
  function AvailabilityReply(t: Table, id: int, quantity: Int32): (reply: Reply<bool>)
    ensures reply.status == OK && reply.body.Some? && reply.body.value.success
    ensures reply.body.value.data == Some(IsProductAvailable(t, id, quantity))
  {
    Reply(OK, Some(ApiResponse(true, "Availability checked successfully", Some(IsProductAvailable(t, id, quantity)))))
  }

  /** healthCheck: always 200 with data "OK". */
  function HealthReply(): (reply: Reply<string>)
    ensures reply.status == OK && reply.body.Some? && reply.body.value.success
    ensures reply.body.value.data == Some("OK")
  {
    Reply(OK, Some(ApiResponse(true, "Product service is healthy", Some("OK"))))
  }

  /** The controller over its service: the handlers that change the table. */
  class ProductController {
    const service: ProductService

    ghost predicate Valid()
      reads service, service.repo
    {
      service.Valid()
    }

    constructor (s: ProductService)
      requires s.Valid()
      ensures service == s && Valid()
    {
      service := s;
    }

    /** POST /api/products */
    method CreateProduct(q: CreateRequest) returns (reply: Reply<ProductResponse>)
      requires Valid()
      modifies service.repo
      ensures Valid()
      ensures !CreateValid(q) ==> reply == Reply(BAD_REQUEST, None) && service.repo.rows == old(service.repo.rows)
      ensures CreateValid(q) ==>
        reply == CreateReply(true, Respond(CreateOutcome(old(service.repo.rows), old(service.repo.nextId), q)))
        && service.repo.rows == Written(old(service.repo.rows), CreateOutcome(old(service.repo.rows), old(service.repo.nextId), q))
    {
      if !CreateValid(q) {
        return Reply(BAD_REQUEST, None);
      }
      var r := service.CreateProduct(q);
      reply := CreateReply(true, r);
    }

    /** PUT /api/products/{id} */
    method UpdateProduct(id: int, q: UpdateRequest) returns (reply: Reply<ProductResponse>)
      requires Valid()
      modifies service.repo
      ensures Valid()
      ensures !UpdateValid(q) ==> reply == Reply(BAD_REQUEST, None) && service.repo.rows == old(service.repo.rows)
      ensures UpdateValid(q) ==>
        reply == MutationReplyAsWritten(true, "Product updated successfully", Respond(UpdateOutcome(old(service.repo.rows), id, q)))
        && service.repo.rows == Written(old(service.repo.rows), UpdateOutcome(old(service.repo.rows), id, q))
    {
      if !UpdateValid(q) {
        return Reply(BAD_REQUEST, None);
      }
      var r := service.UpdateProduct(id, q);
      reply := MutationReplyAsWritten(true, "Product updated successfully", r);
    }

    /** DELETE /api/products/{id} */
    method DeleteProduct(id: int) returns (reply: Reply<()>)
      requires Valid()
      modifies service.repo
      ensures Valid()
      ensures reply == DeleteReply(Acknowledge(DeleteOutcome(old(service.repo.rows), id)))
      ensures service.repo.rows == Written(old(service.repo.rows), DeleteOutcome(old(service.repo.rows), id))
    {
      var r := service.DeleteProduct(id);
      reply := DeleteReply(r);
    }

    /** PUT /api/products/{id}/stock */
    method UpdateStock(id: int, quantity: Int32) returns (reply: Reply<ProductResponse>)
      requires Valid()
      modifies service.repo
      ensures Valid()
      ensures reply == MutationReplyAsWritten(true, "Stock updated successfully", Respond(UpdateStockOutcome(old(service.repo.rows), id, quantity)))
      ensures service.repo.rows == Written(old(service.repo.rows), UpdateStockOutcome(old(service.repo.rows), id, quantity))
    {
      var r := service.UpdateStock(id, quantity);
      reply := MutationReplyAsWritten(true, "Stock updated successfully", r);
    }

    /** POST /api/products/{id}/stock/add */
    method AddStock(id: int, quantity: Int32) returns (reply: Reply<ProductResponse>)
      requires Valid()
      modifies service.repo
      ensures Valid()
      ensures reply == MutationReplyAsWritten(true, "Stock added successfully", Respond(AddStockOutcome(old(service.repo.rows), id, quantity)))
      ensures service.repo.rows == Written(old(service.repo.rows), AddStockOutcome(old(service.repo.rows), id, quantity))
    {
      var r := service.AddStock(id, quantity);
      reply := MutationReplyAsWritten(true, "Stock added successfully", r);
    }

    /** GET /api/products/sku/{sku} */
    method GetProductBySku(sku: string) returns (reply: Reply<ProductResponse>)
      requires Valid()
      ensures reply.status == OK <==> ExistsBySku(service.repo.rows, sku)
      ensures reply.status != OK ==> reply == Reply(NOT_FOUND, None)
      ensures reply.status == OK ==>
        exists id :: id in service.repo.rows && service.repo.rows[id].sku == Some(sku)
          && reply.body == Some(ApiResponse(true, "Product retrieved successfully",
                                            Some(ConvertToResponse(service.repo.rows[id]))))
    {
      var r := service.GetProductBySku(sku);
      reply := LookupReply(r);
    }
  }

  /** Updating stock of an unknown id is 404 whatever the quantity; a
      negative quantity for a stored product is 400 and changes nothing. */
  lemma UpdateStockReplyMeaning(t: Table, id: int, quantity: Int32)
    ensures id !in t ==>
      MutationReplyAsWritten(true, "Stock updated successfully", Respond(UpdateStockOutcome(t, id, quantity))) == Reply(NOT_FOUND, None)
    ensures id in t && quantity < 0 ==>
      MutationReplyAsWritten(true, "Stock updated successfully", Respond(UpdateStockOutcome(t, id, quantity))).status == BAD_REQUEST
      && Written(t, UpdateStockOutcome(t, id, quantity)) == t
  {
    if id !in t {
      NotFoundAgrees(id, "Stock updated successfully");
    } else if quantity < 0 {
      assert "not found"[4] == 'f';
      Text.MissingCharNotContained(Message(NegativeStock), "not found", 4);
    }
  }

  /** Adding stock: an unknown id is 404, a quantity that is not positive is
      400; a positive quantity whose sum passes 2^31 - 1 wraps to a negative
      stock that the save refuses, which the handler does not catch, so the
      client gets 500 and nothing is stored. */
  lemma AddStockReplyMeaning(t: Table, n: int, id: int, quantity: Int32)
    requires WellFormed(t, n)
    ensures id !in t ==>
      MutationReplyAsWritten(true, "Stock added successfully", Respond(AddStockOutcome(t, id, quantity))) == Reply(NOT_FOUND, None)
    ensures id in t && quantity <= 0 ==>
      MutationReplyAsWritten(true, "Stock added successfully", Respond(AddStockOutcome(t, id, quantity))).status == BAD_REQUEST
    ensures id in t && 0 < quantity && t[id].stockQuantity.value + quantity > INT32_MAX ==>
      MutationReplyAsWritten(true, "Stock added successfully", Respond(AddStockOutcome(t, id, quantity))) == Reply(SERVER_ERROR, None)
    ensures id in t ==>
      (Written(t, AddStockOutcome(t, id, quantity)) == t <==> AddStockOutcome(t, id, quantity).Err?)
  {
    if id !in t {
      NotFoundAgrees(id, "Stock added successfully");
    } else {
      AddStockExact(t, n, id, quantity);
      if quantity <= 0 {
        assert "not found"[4] == 'f';
        Text.MissingCharNotContained(Message(NonPositiveAdd), "not found", 4);
      } else if AddStockOutcome(t, id, quantity).Ok? {
        StockNeverNegative(t, n, id);
        assert Written(t, AddStockOutcome(t, id, quantity))[id].stockQuantity != t[id].stockQuantity;
      }
    }
  }
}

=== FILE: product_entity.dfy ===
/** The catalogue's Product entity: its persistent fields, the validation
    annotations on them, the stock arithmetic of reduceStock/addStock on
    Java's 32-bit int, and equality by (id, sku). */
module ProductEntity {
  import opened Wrappers
  import BV = BeanValidation

  const INT32_MIN: int := -0x8000_0000
  const INT32_MAX: int := 0x7fff_ffff

  /** A value of Java's int (and of a non-null Integer). */
  type Int32 = x: int | -0x8000_0000 <= x <= 0x7fff_ffff

  /** Java's int addition and subtraction: the exact value, wrapped into 32
      bits two's complement. */
  function Wrap32(x: int): (r: Int32)
    ensures INT32_MIN <= x <= INT32_MAX ==> r == x
    ensures x > INT32_MAX && x <= 2 * INT32_MAX + 1 ==> r == x - 0x1_0000_0000
  {
    (x + 0x8000_0000) % 0x1_0000_0000 - 0x8000_0000
  }

  /** The field values of one product; price in cents, weight in thousandths
      of its unit. Timestamps are not modelled. */
  datatype ProductRow = ProductRow(
    id: Option<int>,
    name: Option<string>,
    sku: Option<string>,
    description: Option<string>,
    price: Option<int>,
    category: Option<string>,
    stockQuantity: Option<Int32>,
    imageUrl: Option<string>,
    active: Option<bool>,
    brand: Option<string>,
    weight: Option<int>,
    weightUnit: Option<string>)
  {
    /** isInStock() */
    predicate InStock() {
      stockQuantity.Some? && stockQuantity.value > 0
    }

    /** isAvailable() */
    predicate Available() {
      active == Some(true) && InStock()
    }
  }

  /** The fields of `new Product()`: stock 0, active, everything else null. */
  function FreshRow(): (r: ProductRow)
    ensures r.stockQuantity == Some(0) && r.active == Some(true)
    ensures r.id.None? && r.sku.None? && !r.InStock()
  {
    ProductRow(None, None, None, None, None, None, Some(0), None, Some(true), None, None, None)
  }

  function StockOf(r: ProductRow): Option<int> {
    if r.stockQuantity.Some? then Some(r.stockQuantity.value) else None
  }

  /** The validation annotations on the entity's fields, checked by the
      persistence provider before a row is inserted or updated. */
  predicate BeanConstraintsHold(r: ProductRow) {
    && BV.NotBlank(r.name) && BV.Size(r.name, 2, 255)
    && BV.NotBlank(r.sku) && BV.Size(r.sku, 3, 50)
    && BV.Size(r.description, 0, 1000)
    && BV.NotNull(r.price) && BV.DecimalMinExclusive(r.price, 0) && BV.PriceDigits(r.price)
    && BV.NotBlank(r.category) && BV.Size(r.category, 2, 100)
    && BV.Min(StockOf(r), 0)
    && BV.Size(r.imageUrl, 0, 500)
    && BV.Size(r.brand, 0, 100)
    && BV.DecimalMinInclusive(r.weight, 0)
    && BV.Size(r.weightUnit, 0, 50)
  }

  /** 10^8 thousandths: the weight column holds 8 digits, 3 after the point. */
  const WEIGHT_LIMIT: int := 100_000_000

  /** What the table's column definitions add: the NOT NULL columns and the
      numeric precision of weight (the price precision equals its @Digits). */
  predicate ColumnConstraintsHold(r: ProductRow) {
    && r.name.Some? && r.sku.Some? && r.price.Some? && r.category.Some?
    && r.stockQuantity.Some? && r.active.Some?
    && (r.weight.None? || -WEIGHT_LIMIT < r.weight.value < WEIGHT_LIMIT)
  }

  /** A row that both checks accept: what every stored row satisfies. */
  predicate Storable(r: ProductRow) {
    BeanConstraintsHold(r) && ColumnConstraintsHold(r)
  }

  /** A storable row has a non-negative stock and a known active flag. */
  lemma StorableStock(r: ProductRow)
    requires Storable(r)
    ensures r.stockQuantity.Some? && r.stockQuantity.value >= 0 && r.active.Some?
    ensures r.InStock() <==> r.stockQuantity.value != 0
  {
  }

  const INSUFFICIENT_STOCK := "Insufficient stock"
  const NEGATIVE_ADD := "Quantity to add cannot be negative"
  const ADD_OVERFLOW := "Quantity to add would exceed the maximum stock"

  /** How an entity method ends: normally, or with IllegalArgumentException. */
  datatype Outcome = Done | IllegalArgument(message: string)

  /** The managed entity object: JPA loads a row into it, the service changes
      its fields, and saving writes Row() back. */
  class Product {
    var id: Option<int>
    var name: Option<string>
    var sku: Option<string>
    var description: Option<string>
    var price: Option<int>
    var category: Option<string>
    var stockQuantity: Option<Int32>
    var imageUrl: Option<string>
    var active: Option<bool>
    var brand: Option<string>
    var weight: Option<int>
    var weightUnit: Option<string>

    function Row(): ProductRow
      reads this
    {
      ProductRow(id, name, sku, description, price, category, stockQuantity,
                 imageUrl, active, brand, weight, weightUnit)
    }

    /** `new Product()` */
    constructor ()
      ensures Row() == FreshRow()
    {
      id, name, sku, description, price, category := None, None, None, None, None, None;
      stockQuantity, imageUrl, active := Some(0), None, Some(true);
      brand, weight, weightUnit := None, None, None;
    }

    /** The entity JPA materialises from a stored row. */
    constructor FromRow(r: ProductRow)
      ensures Row() == r
    {
      id, name, sku, description, price, category := r.id, r.name, r.sku, r.description, r.price, r.category;
      stockQuantity, imageUrl, active := r.stockQuantity, r.imageUrl, r.active;
      brand, weight, weightUnit := r.brand, r.weight, r.weightUnit;
    }

    /** reduceStock(quantity): refuses a null stock or one below the quantity
        and then changes nothing; otherwise subtracts in int arithmetic. A
        negative quantity is not refused and raises the stock. Only the
        stock field can change. */
    method ReduceStock(quantity: Int32) returns (outcome: Outcome)
      modifies this`stockQuantity
      ensures old(stockQuantity).None? || old(stockQuantity).value < quantity ==>
        outcome == IllegalArgument(INSUFFICIENT_STOCK) && stockQuantity == old(stockQuantity)
      ensures old(stockQuantity).Some? && old(stockQuantity).value >= quantity ==>
        outcome == Done && stockQuantity == Some(Wrap32(old(stockQuantity).value - quantity))
    {
      if stockQuantity.None? || stockQuantity.value < quantity {
        return IllegalArgument(INSUFFICIENT_STOCK);
      }
      stockQuantity := Some(Wrap32(stockQuantity.value - quantity));
      return Done;
    }

    /** addStock(quantity) as written: refuses a negative quantity with no
        change; otherwise the stock (0 when null) plus the quantity, in int
        arithmetic, so that a sum past 2^31 - 1 wraps to a negative stock. */
    method AddStock(quantity: Int32) returns (outcome: Outcome)
      modifies this`stockQuantity
      ensures quantity < 0 ==> outcome == IllegalArgument(NEGATIVE_ADD) && stockQuantity == old(stockQuantity)
      ensures quantity >= 0 ==>
        outcome == Done && stockQuantity == Some(Wrap32(old(stockQuantity).GetOr(0) + quantity))
    {
      if quantity < 0 {
        return IllegalArgument(NEGATIVE_ADD);
      }
      stockQuantity := Some(Wrap32(stockQuantity.GetOr(0) + quantity));
      return Done;
    }

    /** addStock with the overflow refused: a non-negative stock stays
        non-negative, and the stock rises by exactly the quantity. */
    method AddStockChecked(quantity: Int32) returns (outcome: Outcome)
      modifies this`stockQuantity
      ensures quantity < 0 ==> outcome == IllegalArgument(NEGATIVE_ADD) && stockQuantity == old(stockQuantity)
      ensures quantity >= 0 && old(stockQuantity).GetOr(0) + quantity > INT32_MAX ==>
        outcome == IllegalArgument(ADD_OVERFLOW) && stockQuantity == old(stockQuantity)
      ensures quantity >= 0 && old(stockQuantity).GetOr(0) + quantity <= INT32_MAX ==>
        outcome == Done && stockQuantity == Some(old(stockQuantity).GetOr(0) + quantity)
      ensures old(stockQuantity).GetOr(0) >= 0 ==> stockQuantity.GetOr(0) >= 0
    {
      if quantity < 0 {
        return IllegalArgument(NEGATIVE_ADD);
      }
      var base := stockQuantity.GetOr(0);
      if base + quantity > INT32_MAX {
        return IllegalArgument(ADD_OVERFLOW);
      }
      stockQuantity := Some(base + quantity);
      return Done;
    }

    /** equals(o): the same object, or another Product with equal id and equal
        sku (null equal to null); no other field takes part. */
    predicate Equals(o: Product?)
      reads this, o
      ensures Equals(o) <==> o != null && id == o.id && sku == o.sku
    {
      if this == o then true
      else if o == null then false
      else id == o.id && sku == o.sku
    }

    /** The pair hashCode() is computed from. */
    function HashKey(): (Option<int>, Option<string>)
      reads this
    {
      (id, sku)
    }
  }

  /** equals is an equivalence on products and agrees with hashCode. */
  lemma EqualsIsEquivalence(a: Product, b: Product, c: Product)
    ensures a.Equals(a)
    ensures a.Equals(b) ==> b.Equals(a) && a.HashKey() == b.HashKey()
    ensures a.Equals(b) && b.Equals(c) ==> a.Equals(c)
  {
  }

  /** reduceStock on the stock the service has checked, 0 < q <= stock, does
      not wrap: the new stock is exactly stock - q and not negative. */
  lemma ReduceWithinStock(stock: Int32, q: Int32)
    requires 0 < q <= stock
    ensures Wrap32(stock - q) == stock - q >= 0
  {
  }

  /** As written, addStock can store a negative stock: adding 1 to a stock of
      2^31 - 1 wraps to -2^31. */
  lemma AddStockWrapsNegative()
    ensures Wrap32(INT32_MAX + 1) == INT32_MIN
  {
  }
}

=== FILE: product_requests.dfy ===
/** The request bodies of the catalogue's create and update endpoints and the
    validation annotations on their fields. A create request must name the
    product, its SKU, price and category; an update request may leave any
    field null, and null passes every one of its constraints. */
module ProductRequests {
  import opened Wrappers
  import BV = BeanValidation
  import opened ProductEntity

  /** ProductCreateRequest; price in cents, weight in thousandths. */
  datatype CreateRequest = CreateRequest(
    name: Option<string>,
    sku: Option<string>,
    description: Option<string>,
    price: Option<int>,
    category: Option<string>,
    stockQuantity: Option<Int32>,
    imageUrl: Option<string>,
    brand: Option<string>,
    weight: Option<int>,
    weightUnit: Option<string>)

  /** The annotations on ProductCreateRequest, as @Valid checks them. */
  predicate CreateValid(q: CreateRequest) {
    && BV.NotBlank(q.name) && BV.Size(q.name, 2, 255)
    && BV.NotBlank(q.sku) && BV.Size(q.sku, 3, 50)
    && BV.Size(q.description, 0, 1000)
    && BV.NotNull(q.price) && BV.DecimalMinExclusive(q.price, 0) && BV.PriceDigits(q.price)
    && BV.NotBlank(q.category) && BV.Size(q.category, 2, 100)
    && BV.Min(if q.stockQuantity.Some? then Some(q.stockQuantity.value as int) else None, 0)
    && BV.Size(q.imageUrl, 0, 500)
    && BV.Size(q.brand, 0, 100)
    && BV.DecimalMinInclusive(q.weight, 0)
    && BV.Size(q.weightUnit, 0, 50)
  }

  /** ProductUpdateRequest: every field optional, `active` included. */
  datatype UpdateRequest = UpdateRequest(
    name: Option<string>,
    sku: Option<string>,
    description: Option<string>,
    price: Option<int>,
    category: Option<string>,
    stockQuantity: Option<Int32>,
    imageUrl: Option<string>,
    active: Option<bool>,
    brand: Option<string>,
    weight: Option<int>,
    weightUnit: Option<string>)

  /** The annotations on ProductUpdateRequest: sizes and bounds only, no
      @NotNull and no @NotBlank, nothing on `active`. */
  predicate UpdateValid(q: UpdateRequest) {
    && BV.Size(q.name, 2, 255)
    && BV.Size(q.sku, 3, 50)
    && BV.Size(q.description, 0, 1000)
    && BV.DecimalMinExclusive(q.price, 0) && BV.PriceDigits(q.price)
    && BV.Size(q.category, 2, 100)
    && BV.Min(if q.stockQuantity.Some? then Some(q.stockQuantity.value as int) else None, 0)
    && BV.Size(q.imageUrl, 0, 500)
    && BV.Size(q.brand, 0, 100)
    && BV.DecimalMinInclusive(q.weight, 0)
    && BV.Size(q.weightUnit, 0, 50)
  }

  /** The update request that changes nothing. */
  function EmptyUpdate(): (q: UpdateRequest)
    ensures UpdateValid(q)
  {
    UpdateRequest(None, None, None, None, None, None, None, None, None, None, None)
  }

  /** The update that sets every field a create request carries, to the same
      values, and leaves `active` alone. */
  function AsUpdate(q: CreateRequest): UpdateRequest {
    UpdateRequest(q.name, q.sku, q.description, q.price, q.category, q.stockQuantity,
                  q.imageUrl, None, q.brand, q.weight, q.weightUnit)
  }

  /** Every create constraint is at least as strict as the update constraint
      on the same field. */
  lemma CreateValidIsUpdateValid(q: CreateRequest)
    requires CreateValid(q)
    ensures UpdateValid(AsUpdate(q))
  {
  }

  /** A validated create request carries a name, a SKU, a positive price and a
      category, and no negative stock. */
  lemma CreateValidRequiredFields(q: CreateRequest)
    requires CreateValid(q)
    ensures q.name.Some? && q.sku.Some? && q.price.Some? && q.category.Some?
    ensures q.price.value > 0 && 3 <= |q.sku.value| <= 50
    ensures q.stockQuantity.Some? ==> q.stockQuantity.value >= 0
  {
  }

  /** Blankness is not checked on update: a name of two spaces passes the
      update annotations although the entity's @NotBlank refuses it. */
  lemma BlankNamePassesUpdate()
    ensures UpdateValid(EmptyUpdate().(name := Some("  ")))
    ensures !BV.NotBlank(Some("  "))
  {
  }
}

=== FILE: product_service.dfy ===
/** The catalogue's business layer: creating, updating, soft-deleting and
    restocking products over the repository, and the read-only queries with
    their sort and paging arguments. Each write is specified by a function of
    the table before the call, giving the row written or the error raised;
    the lemmas below state what those outcomes mean and that every write
    keeps the table well formed (unique SKUs, no negative stock). */
module CatalogService {
  import opened Wrappers
  import opened ProductEntity
  import opened CatalogRepository
  import opened ProductRequests
  import Text

  /** Why a service call fails. The first eight are the
      IllegalArgumentExceptions the service throws itself; the sort and paging
      errors come from Spring Data's Sort and PageRequest; NullPointer is the
      unboxing of a null stock; Persistence is a refused write. */
  datatype ServiceError =
    | NotFoundById(id: int)
    | NotFoundBySku(sku: string)
    | DuplicateSku(sku: string)
    | NegativeStock
    | NonPositiveReduce
    | InsufficientStock(available: int, requested: int)
    | NonPositiveAdd
    | InvalidDirection(direction: string)
    | EmptySortProperty
    | NegativePage
    | SizeBelowOne
    | UnknownSortProperty(property: string)
    | NullPointer
    | Persistence(cause: DbError)
  {
    /** Raised as an IllegalArgumentException, the one exception type the
        controller catches. */
    predicate IsIllegalArgument() {
      !UnknownSortProperty? && !NullPointer? && !Persistence?
    }
  }

  /** The message of each exception the service raises itself. The texts of
      the library exceptions are not part of this model and are empty here. */
  function Message(e: ServiceError): string {
    match e
    case NotFoundById(id) => "Product not found with ID: " + Text.IntToString(id)
    case NotFoundBySku(sku) => "Product not found with SKU: " + sku
    case DuplicateSku(sku) => "Product with SKU '" + sku + "' already exists"
    case NegativeStock => "Stock quantity cannot be negative"
    case NonPositiveReduce => "Quantity to reduce must be positive"
    case InsufficientStock(a, q) =>
      "Insufficient stock. Available: " + Text.IntToString(a) + ", Requested: " + Text.IntToString(q)
    case NonPositiveAdd => "Quantity to add must be positive"
    case _ => ""
  }

  // ----- responses -----

  /** ProductResponse: every field of the product plus the two derived flags.
      The audit timestamps are not modelled. */
  datatype ProductResponse = ProductResponse(fields: ProductRow, inStock: bool, available: bool)

  /** convertToResponse */
  function ConvertToResponse(row: ProductRow): (r: ProductResponse)
    ensures r.fields == row
    ensures r.inStock <==> row.stockQuantity.Some? && row.stockQuantity.value > 0
    ensures r.available <==> row.active == Some(true) && r.inStock
  {
    ProductResponse(row, row.InStock(), row.Available())
  }

  function Respond(o: Result<ProductRow, ServiceError>): Result<ProductResponse, ServiceError> {
    match o
    case Ok(row) => Ok(ConvertToResponse(row))
    case Err(e) => Err(e)
  }

  function Acknowledge(o: Result<ProductRow, ServiceError>): Result<(), ServiceError> {
    match o
    case Ok(_) => Ok(())
    case Err(e) => Err(e)
  }

  // ----- the writes, as functions of the table -----

  /** What save does with `row` stored under `key`: the stored row, or the
      validation or database error that refuses it. */
  function SaveOutcome(t: Table, key: int, row: ProductRow): (r: Result<ProductRow, ServiceError>)
    ensures r.Ok? ==> r.value == row.(id := Some(key)) && Storable(r.value)
    ensures r.Ok? ==> !ExistsBySkuAndIdNot(t, r.value.sku.value, key)
    ensures r.Err? ==> r.error.Persistence?
  {
    var stored := row.(id := Some(key));
    if !BeanConstraintsHold(stored) then Err(Persistence(ConstraintViolation))
    else if !ColumnConstraintsHold(stored) || ExistsBySkuAndIdNot(t, stored.sku.value, key) then
      Err(Persistence(DataIntegrityViolation))
    else Ok(stored)
  }

  /** The table after a write with this outcome. */
  function Written(t: Table, o: Result<ProductRow, ServiceError>): Table {
    if o.Ok? && o.value.id.Some? then t[o.value.id.value := o.value] else t
  }

  /** A successful save of an existing row, or of a new row under the next
      id, keeps the table well formed: SKUs stay distinct and every stored row
      stays valid, so no stock is negative. */
  lemma SaveKeepsWellFormed(t: Table, n: int, key: int, row: ProductRow)
    requires WellFormed(t, n) && (key in t || key == n)
    requires SaveOutcome(t, key, row).Ok?
    ensures WellFormed(Written(t, SaveOutcome(t, key, row)), if key in t then n else n + 1)
  {
    var stored := SaveOutcome(t, key, row).value;
    var t' := t[key := stored];
    assert Written(t, SaveOutcome(t, key, row)) == t';
    forall i, j | i in t' && j in t' && i != j ensures t'[i].sku != t'[j].sku {
      if i == key {
        assert j in t && j != key;
      } else if j == key {
        assert i in t && i != key;
      }
    }
  }

  /** Every row of a well-formed table has a non-negative stock. */
  lemma StockNeverNegative(t: Table, n: int, id: int)
    requires WellFormed(t, n) && id in t
    ensures t[id].stockQuantity.Some? && t[id].stockQuantity.value >= 0
  {
    StorableStock(t[id]);
  }

  /** The entity createProduct fills in: the request's fields, stock 0 when
      none is given, active. */
  function NewRow(q: CreateRequest): (r: ProductRow)
    ensures r.id.None? && r.active == Some(true)
    ensures r.stockQuantity.Some? && r.stockQuantity.value == if q.stockQuantity.Some? then q.stockQuantity.value else 0
  {
    ProductRow(None, q.name, q.sku, q.description, q.price, q.category,
               Some(q.stockQuantity.GetOr(0)), q.imageUrl, Some(true), q.brand, q.weight, q.weightUnit)
  }

  /** createProduct on a table whose next IDENTITY value is n. A null SKU
      matches no stored row, so only a non-null one can be a duplicate. */
  function CreateOutcome(t: Table, n: int, q: CreateRequest): (r: Result<ProductRow, ServiceError>)
    ensures q.sku.Some? && ExistsBySku(t, q.sku.value) ==> r == Err(DuplicateSku(q.sku.value))
    ensures r.Ok? ==> r.value.id == Some(n) && r.value.sku == q.sku && r.value.active == Some(true)
    ensures r.Ok? ==> r.value.stockQuantity == Some(q.stockQuantity.GetOr(0))
  {
    if q.sku.Some? && ExistsBySku(t, q.sku.value) then Err(DuplicateSku(q.sku.value))
    else SaveOutcome(t, n, NewRow(q))
  }

  /** The weight fits the column's eight digits. */
  predicate WeightFits(q: CreateRequest) {
    q.weight.None? || q.weight.value < WEIGHT_LIMIT
  }

  /** A create request that passed @Valid, whose weight fits its column and
      whose SKU is new, is stored under the next id; one whose SKU is taken is
      refused; nothing else can go wrong. */
  lemma {:induction false} CreateValidSucceeds(t: Table, n: int, q: CreateRequest)
    requires WellFormed(t, n) && CreateValid(q) && WeightFits(q)
    ensures CreateOutcome(t, n, q).Ok? <==> !ExistsBySku(t, q.sku.value)
    ensures CreateOutcome(t, n, q).Ok? ==>
      CreateOutcome(t, n, q).value == NewRow(q).(id := Some(n))
  {
    ExistsBySkuAndIdNotMeaning(t, q.sku.value, n);
    assert n !in t;
  }

  /** A create keeps the table well formed. */
  lemma CreateKeepsWellFormed(t: Table, n: int, q: CreateRequest)
    requires WellFormed(t, n) && CreateOutcome(t, n, q).Ok?
    ensures WellFormed(Written(t, CreateOutcome(t, n, q)), n + 1)
    ensures Written(t, CreateOutcome(t, n, q)).Keys == t.Keys + {n}
  {
    assert n !in t;
    SaveKeepsWellFormed(t, n, n, NewRow(q));
  }

  /** The row after a partial update: each non-null request field overwrites
      the stored value, each null one leaves it. */
  function ApplyUpdate(row: ProductRow, q: UpdateRequest): ProductRow {
    row.(name := if q.name.Some? then q.name else row.name,
         sku := if q.sku.Some? then q.sku else row.sku,
         description := if q.description.Some? then q.description else row.description,
         price := if q.price.Some? then q.price else row.price,
         category := if q.category.Some? then q.category else row.category,
         stockQuantity := if q.stockQuantity.Some? then q.stockQuantity else row.stockQuantity,
         imageUrl := if q.imageUrl.Some? then q.imageUrl else row.imageUrl,
         active := if q.active.Some? then q.active else row.active,
         brand := if q.brand.Some? then q.brand else row.brand,
         weight := if q.weight.Some? then q.weight else row.weight,
         weightUnit := if q.weightUnit.Some? then q.weightUnit else row.weightUnit)
  }

  /** A null request field leaves its stored value unchanged; the id never
      changes; an all-null request leaves the row as it was; applying the same
      request twice is the same as applying it once. */
  lemma UpdateNullKeepsValue(row: ProductRow, q: UpdateRequest)
    ensures ApplyUpdate(row, q).id == row.id
    ensures q.name.None? ==> ApplyUpdate(row, q).name == row.name
    ensures q.sku.None? ==> ApplyUpdate(row, q).sku == row.sku
    ensures q.description.None? ==> ApplyUpdate(row, q).description == row.description
    ensures q.price.None? ==> ApplyUpdate(row, q).price == row.price
    ensures q.category.None? ==> ApplyUpdate(row, q).category == row.category
    ensures q.stockQuantity.None? ==> ApplyUpdate(row, q).stockQuantity == row.stockQuantity
    ensures q.imageUrl.None? ==> ApplyUpdate(row, q).imageUrl == row.imageUrl
    ensures q.active.None? ==> ApplyUpdate(row, q).active == row.active
    ensures q.brand.None? ==> ApplyUpdate(row, q).brand == row.brand
    ensures q.weight.None? ==> ApplyUpdate(row, q).weight == row.weight
    ensures q.weightUnit.None? ==> ApplyUpdate(row, q).weightUnit == row.weightUnit
    ensures ApplyUpdate(row, EmptyUpdate()) == row
    ensures ApplyUpdate(ApplyUpdate(row, q), q) == ApplyUpdate(row, q)
  {
  }

  /** The uniqueness check of updateProduct fires only when the request names
      a SKU different from the stored one that another product holds. */
  predicate SkuTaken(t: Table, id: int, q: UpdateRequest)
    requires id in t
  {
    q.sku.Some? && q.sku != t[id].sku && ExistsBySkuAndIdNot(t, q.sku.value, id)
  }

  /** updateProduct(id, request) */
  function UpdateOutcome(t: Table, id: int, q: UpdateRequest): (r: Result<ProductRow, ServiceError>)
    ensures id !in t ==> r == Err(NotFoundById(id))
    ensures id in t && SkuTaken(t, id, q) ==> r == Err(DuplicateSku(q.sku.value))
  {
    if id !in t then Err(NotFoundById(id))
    else if SkuTaken(t, id, q) then Err(DuplicateSku(q.sku.value))
    else SaveOutcome(t, id, ApplyUpdate(t[id], q))
  }

  /** On a well-formed table an update either fails with no change, or
      writes exactly the merged row under the same id, keeping SKUs distinct
      and stock non-negative; an all-null update rewrites the row unchanged. */
  lemma UpdateKeepsWellFormed(t: Table, n: int, id: int, q: UpdateRequest)
    requires WellFormed(t, n)
    ensures UpdateOutcome(t, id, q).Ok? ==>
      UpdateOutcome(t, id, q).value == ApplyUpdate(t[id], q)
      && WellFormed(Written(t, UpdateOutcome(t, id, q)), n)
      && Written(t, UpdateOutcome(t, id, q)).Keys == t.Keys
    ensures id in t ==> UpdateOutcome(t, id, EmptyUpdate()) == Ok(t[id])
  {
    if UpdateOutcome(t, id, q).Ok? {
      SaveKeepsWellFormed(t, n, id, ApplyUpdate(t[id], q));
    }
    if id in t {
      UpdateNullKeepsValue(t[id], EmptyUpdate());
      assert !ExistsBySkuAndIdNot(t, t[id].sku.value, id);
    }
  }

  /** deleteProduct(id): the row is kept with active = false. */
  function DeleteOutcome(t: Table, id: int): (r: Result<ProductRow, ServiceError>)
    ensures id !in t ==> r == Err(NotFoundById(id))
  {
    if id !in t then Err(NotFoundById(id))
    else SaveOutcome(t, id, t[id].(active := Some(false)))
  }

  /** A soft delete of a stored product always succeeds, keeps every record,
      changes only the active flag, and repeating it changes nothing more. */
  lemma SoftDeleteKeepsRecord(t: Table, n: int, id: int)
    requires WellFormed(t, n) && id in t
    ensures DeleteOutcome(t, id) == Ok(t[id].(active := Some(false)))
    ensures Written(t, DeleteOutcome(t, id)).Keys == t.Keys
    ensures WellFormed(Written(t, DeleteOutcome(t, id)), n)
    ensures var t' := Written(t, DeleteOutcome(t, id));
            DeleteOutcome(t', id) == Ok(t'[id]) && Written(t', DeleteOutcome(t', id)) == t'
  {
    assert !ExistsBySkuAndIdNot(t, t[id].sku.value, id);
    SaveKeepsWellFormed(t, n, id, t[id].(active := Some(false)));
    var t' := Written(t, DeleteOutcome(t, id));
    assert !ExistsBySkuAndIdNot(t', t'[id].sku.value, id);
  }

  /** updateStock(id, quantity): existence is checked before the sign. */
  function UpdateStockOutcome(t: Table, id: int, quantity: Int32): (r: Result<ProductRow, ServiceError>)
    ensures id !in t ==> r == Err(NotFoundById(id))
    ensures id in t && quantity < 0 ==> r == Err(NegativeStock)
  {
    if id !in t then Err(NotFoundById(id))
    else if quantity < 0 then Err(NegativeStock)
    else SaveOutcome(t, id, t[id].(stockQuantity := Some(quantity)))
  }

  lemma UpdateStockSets(t: Table, n: int, id: int, quantity: Int32)
    requires WellFormed(t, n)
    ensures UpdateStockOutcome(t, id, quantity).Ok? <==> id in t && quantity >= 0
    ensures UpdateStockOutcome(t, id, quantity).Ok? ==>
      UpdateStockOutcome(t, id, quantity).value == t[id].(stockQuantity := Some(quantity))
      && WellFormed(Written(t, UpdateStockOutcome(t, id, quantity)), n)
  {
    if id in t && quantity >= 0 {
      assert !ExistsBySkuAndIdNot(t, t[id].sku.value, id);
      SaveKeepsWellFormed(t, n, id, t[id].(stockQuantity := Some(quantity)));
    }
  }

  /** reduceStock(id, quantity) */
  function ReduceStockOutcome(t: Table, id: int, quantity: Int32): (r: Result<ProductRow, ServiceError>)
    ensures id !in t ==> r == Err(NotFoundById(id))
    ensures id in t && quantity <= 0 ==> r == Err(NonPositiveReduce)
  {
    if id !in t then Err(NotFoundById(id))
    else if quantity <= 0 then Err(NonPositiveReduce)
    else if t[id].stockQuantity.None? then Err(NullPointer)
    else if t[id].stockQuantity.value < quantity then
      Err(InsufficientStock(t[id].stockQuantity.value, quantity))
    else SaveOutcome(t, id, t[id].(stockQuantity := Some(t[id].stockQuantity.value - quantity)))
  }

  /** reduceStock succeeds exactly when 0 < quantity <= stock, lowers the stock
      by exactly the quantity, and otherwise reports the shortfall. */
  lemma ReduceStockExact(t: Table, n: int, id: int, quantity: Int32)
    requires WellFormed(t, n) && id in t
    ensures ReduceStockOutcome(t, id, quantity).Ok? <==>
      0 < quantity <= t[id].stockQuantity.value
    ensures ReduceStockOutcome(t, id, quantity).Ok? ==>
      ReduceStockOutcome(t, id, quantity).value.stockQuantity == Some(t[id].stockQuantity.value - quantity)
      && WellFormed(Written(t, ReduceStockOutcome(t, id, quantity)), n)
    ensures 0 < quantity && t[id].stockQuantity.value < quantity ==>
      ReduceStockOutcome(t, id, quantity) == Err(InsufficientStock(t[id].stockQuantity.value, quantity))
  {
    StockNeverNegative(t, n, id);
    var s := t[id].stockQuantity.value;
    if 0 < quantity <= s {
      assert !ExistsBySkuAndIdNot(t, t[id].sku.value, id);
      SaveKeepsWellFormed(t, n, id, t[id].(stockQuantity := Some(s - quantity)));
    }
  }

  /** addStock(id, quantity): existence, then the sign, then the entity's
      addStock in int arithmetic, whose sum wraps past 2^31 - 1, and a save. */
  function AddStockOutcome(t: Table, id: int, quantity: Int32): (r: Result<ProductRow, ServiceError>)
    ensures id !in t ==> r == Err(NotFoundById(id))
    ensures id in t && quantity <= 0 ==> r == Err(NonPositiveAdd)
  {
    if id !in t then Err(NotFoundById(id))
    else if quantity <= 0 then Err(NonPositiveAdd)
    else SaveOutcome(t, id, t[id].(stockQuantity := Some(Wrap32(t[id].stockQuantity.GetOr(0) + quantity))))
  }

  /** addStock succeeds exactly when quantity > 0 and the sum fits an int,
      raising the stock by exactly the quantity; a sum past 2^31 - 1 wraps to
      a negative stock, which the save refuses as a constraint violation. */
  lemma AddStockExact(t: Table, n: int, id: int, quantity: Int32)
    requires WellFormed(t, n) && id in t
    ensures AddStockOutcome(t, id, quantity).Ok? <==>
      0 < quantity && t[id].stockQuantity.value + quantity <= INT32_MAX
    ensures AddStockOutcome(t, id, quantity).Ok? ==>
      AddStockOutcome(t, id, quantity).value.stockQuantity == Some(t[id].stockQuantity.value + quantity)
      && WellFormed(Written(t, AddStockOutcome(t, id, quantity)), n)
    ensures 0 < quantity && t[id].stockQuantity.value + quantity > INT32_MAX ==>
      AddStockOutcome(t, id, quantity) == Err(Persistence(ConstraintViolation))
  {
    StockNeverNegative(t, n, id);
    var s := t[id].stockQuantity.value;
    if 0 < quantity && s + quantity <= INT32_MAX {
      assert !ExistsBySkuAndIdNot(t, t[id].sku.value, id);
      SaveKeepsWellFormed(t, n, id, t[id].(stockQuantity := Some(s + quantity)));
    } else if 0 < quantity {
      assert Wrap32(s + quantity) < 0;
    }
  }

  /** As written, addStock wraps the sum past 2^31 - 1 to a negative stock,
      and saving the entity then fails its @Min(0) check: the caller gets a
      validation error (a server error) instead of an IllegalArgumentException. */
  lemma WrappedStockIsRefused(t: Table, id: int)
    requires id in t && t[id].stockQuantity == Some(INT32_MAX as Int32)
    ensures SaveOutcome(t, id, t[id].(stockQuantity := Some(Wrap32(INT32_MAX + 1)))) ==
      Err(Persistence(ConstraintViolation))
  {
    AddStockWrapsNegative();
  }

  // ----- the reads -----

  /** getProductById */
  function GetProductById(t: Table, id: int): (r: Result<ProductResponse, ServiceError>)
    ensures r.Ok? <==> id in t
    ensures r.Ok? ==> r.value.fields == t[id]
    ensures r.Err? ==> r.error == NotFoundById(id)
  {
    if id in t then Ok(ConvertToResponse(t[id])) else Err(NotFoundById(id))
  }

  /** isProductAvailable(id, quantity) */
  function IsProductAvailable(t: Table, id: int, quantity: Int32): (r: bool)
    ensures r <==> id in t && t[id].active == Some(true) && t[id].stockQuantity.Some?
                   && t[id].stockQuantity.value > 0 && t[id].stockQuantity.value >= quantity
  {
    id in t && t[id].Available() && t[id].stockQuantity.value >= quantity
  }

  /** For a positive quantity, a product is available exactly when it is
      active and reduceStock with that quantity would succeed; a product that
      is available for some quantity is available for every smaller one. */
  lemma AvailableMeansReducible(t: Table, n: int, id: int, quantity: Int32, smaller: Int32)
    requires WellFormed(t, n) && id in t && quantity > 0
    ensures IsProductAvailable(t, id, quantity) <==>
      t[id].active == Some(true) && ReduceStockOutcome(t, id, quantity).Ok?
    ensures smaller <= quantity && IsProductAvailable(t, id, quantity) ==>
      IsProductAvailable(t, id, smaller)
  {
    ReduceStockExact(t, n, id, quantity);
  }

  /** For a quantity that is not positive, which reduceStock refuses, a
      stored product is available exactly when it is active and in stock. */
  lemma AvailableWithoutQuantity(t: Table, n: int, id: int, quantity: Int32)
    requires WellFormed(t, n) && id in t && quantity <= 0
    ensures IsProductAvailable(t, id, quantity) <==> t[id].active == Some(true) && t[id].InStock()
    ensures ReduceStockOutcome(t, id, quantity).Err?
  {
    StockNeverNegative(t, n, id);
  }

  // ----- sorting and paging -----

  /** Character.isWhitespace: the space separators other than the
      non-breaking ones, and the ASCII control characters it names. */
  predicate JavaWhitespace(c: char) {
    || c == ' ' || '\t' <= c <= '\r' || '\U{1C}' <= c <= '\U{1F}'
    || c == '\U{1680}' || '\U{2000}' <= c <= '\U{2006}' || '\U{2008}' <= c <= '\U{200A}'
    || c == '\U{2028}' || c == '\U{2029}' || c == '\U{205F}' || c == '\U{3000}'
  }

  /** StringUtils.hasText, which Sort.Order demands of a property name. */
  predicate HasText(s: string) {
    exists i :: 0 <= i < |s| && !JavaWhitespace(s[i])
  }

  /** The persistent attributes of Product a query can be sorted by. */
  const SORTABLE: set<string> := {"id", "name", "sku", "description", "price", "category",
    "stockQuantity", "imageUrl", "active", "brand", "weight", "weightUnit", "createdAt", "updatedAt"}

  lemma SortableHaveText()
    ensures forall s :: s in SORTABLE ==> HasText(s)
  {
    forall s | s in SORTABLE ensures HasText(s) {
      assert !JavaWhitespace(s[0]);
    }
  }

  /** Sort.Direction.fromString: "asc" or "desc" in any case. */
  predicate DirectionValid(direction: string) {
    Text.EqualsIgnoreCase(direction, "ASC") || Text.EqualsIgnoreCase(direction, "DESC")
  }

  /** Character.isUpperCase, on the ASCII letters only. */
  predicate UpperChar(c: char) {
    'A' <= c <= 'Z'
  }

  /** Introspector.decapitalize: the first character is lower-cased unless
      the first two are both upper case ("Name" becomes "name", "URL" stays). */
  function Decapitalize(s: string): (r: string)
    ensures |r| == |s|
    ensures |s| > 0 ==> r[1..] == s[1..]
    ensures |s| > 0 && !UpperChar(s[0]) ==> r == s
    ensures |s| > 1 && UpperChar(s[0]) && UpperChar(s[1]) ==> r == s
    ensures |s| > 0 && UpperChar(s[0]) && (|s| == 1 || !UpperChar(s[1])) ==> !UpperChar(r[0]) && r != s
  {
    if |s| == 0 then s
    else if |s| > 1 && UpperChar(s[1]) && UpperChar(s[0]) then s
    else [Text.LowerChar(s[0])] + s[1..]
  }

  /** Whether the query accepts `sortBy` as a sort property. A derived query
      (findByActiveTrue, findByCategoryAndActiveTrue, ...) resolves it through
      Spring Data's PropertyPath, which decapitalises it first; an @Query's
      ORDER BY names the attribute as given, and it must match exactly. */
  predicate SortResolves(sortBy: string, derived: bool) {
    if derived then Decapitalize(sortBy) in SORTABLE else sortBy in SORTABLE
  }

  /** A resolvable property has text: every sortable name is two or more
      letters long, and decapitalising changes only the first character. */
  lemma ResolvableHasText(sortBy: string, derived: bool)
    requires SortResolves(sortBy, derived)
    ensures HasText(sortBy)
  {
    var d := if derived then Decapitalize(sortBy) else sortBy;
    assert d in SORTABLE;
    assert |d| >= 2 && !JavaWhitespace(d[1]);
    assert d[1..] == sortBy[1..];
    assert d[1] == d[1..][0] == sortBy[1..][0] == sortBy[1];
    assert !JavaWhitespace(sortBy[1]);
  }

  /** The first exception building and running a sorted page request raises:
      the direction, then the property's text, then the page index and size,
      and finally, when the query runs, a property the query cannot resolve
      (named as the query resolved it). */
  function PagingError(page: Int32, size: Int32, sortBy: string, direction: string, derived: bool): (r: Option<ServiceError>)
    ensures r.None? <==> DirectionValid(direction) && SortResolves(sortBy, derived) && page >= 0 && size >= 1
  {
    assert SortResolves(sortBy, derived) ==> HasText(sortBy) by {
      if SortResolves(sortBy, derived) { ResolvableHasText(sortBy, derived); }
    }
    if !DirectionValid(direction) then Some(InvalidDirection(direction))
    else if !HasText(sortBy) then Some(EmptySortProperty)
    else if page < 0 then Some(NegativePage)
    else if size < 1 then Some(SizeBelowOne)
    else if !SortResolves(sortBy, derived) then
      Some(UnknownSortProperty(if derived then Decapitalize(sortBy) else sortBy))
    else None
  }

  /** A page of the matching ids: the result is the set the page is cut
      from, ordered by the sort property. */
  function Paged(ids: set<int>, page: Int32, size: Int32, sortBy: string, direction: string, derived: bool): (r: Result<set<int>, ServiceError>)
    ensures r.Ok? <==> PagingError(page, size, sortBy, direction, derived).None?
    ensures r.Ok? ==> r.value == ids
  {
    var e := PagingError(page, size, sortBy, direction, derived);
    if e.Some? then Err(e.value) else Ok(ids)
  }

  /** Every sortable name starts lower-case, so the derived queries accept
      each of them as it is; they also accept the capitalised spelling,
      which the @Query of searchProducts refuses. */
  lemma DerivedAcceptsCapitalised(s: string)
    requires s in SORTABLE
    ensures Decapitalize(s) == s && SortResolves(s, true) && SortResolves(s, false)
    ensures SortResolves([s[0] - 32 as char] + s[1..], true)
    ensures !SortResolves([s[0] - 32 as char] + s[1..], false)
  {
    var c := [s[0] - 32 as char] + s[1..];
    assert |s| >= 2 && 'a' <= s[0] <= 'z' && !UpperChar(s[1]);
    assert c[1..] == s[1..];
    assert Decapitalize(c) == [Text.LowerChar(c[0])] + c[1..] == s;
    assert c !in SORTABLE by { assert UpperChar(c[0]); }
  }

  /** getAllProducts(page, size, sortBy, sortDirection): active products only. */
  function GetAllProducts(t: Table, page: Int32, size: Int32, sortBy: string, direction: string): (r: Result<set<int>, ServiceError>)
    ensures r.Ok? ==> forall id :: id in r.value <==> id in t && t[id].active == Some(true)
  {
    Paged(FindByActiveTrue(t), page, size, sortBy, direction, true)
  }

  /** searchProducts(request) */
  function SearchProducts(t: Table, c: SearchCriteria, page: Int32, size: Int32, sortBy: string, direction: string): (r: Result<set<int>, ServiceError>)
    ensures r.Ok? ==> forall id :: id in r.value <==> id in t && MatchesSearch(t[id], c)
  {
    Paged(CatalogRepository.SearchProducts(t, c), page, size, sortBy, direction, false)
  }

  /** getProductsByCategory(category, page, size), sorted by name. */
  function GetProductsByCategory(t: Table, category: string, page: Int32, size: Int32): (r: Result<set<int>, ServiceError>)
    ensures r.Ok? <==> page >= 0 && size >= 1
    ensures r.Ok? ==> r.value == FindByCategoryAndActiveTrue(t, category)
  {
    assert DirectionValid("ASC") && SortResolves("name", true);
    Paged(FindByCategoryAndActiveTrue(t, category), page, size, "name", "ASC", true)
  }

  /** getProductsByBrand(brand, page, size), sorted by name. */
  function GetProductsByBrand(t: Table, brand: string, page: Int32, size: Int32): (r: Result<set<int>, ServiceError>)
    ensures r.Ok? <==> page >= 0 && size >= 1
    ensures r.Ok? ==> r.value == FindByBrandAndActiveTrue(t, brand)
  {
    assert DirectionValid("ASC") && SortResolves("name", true);
    Paged(FindByBrandAndActiveTrue(t, brand), page, size, "name", "ASC", true)
  }

  /** With a page index, size and direction a normalised search request
      guarantees, only the sort property can make a search fail. */
  lemma NormalisedPagingOnlyFailsOnSortBy(page: Int32, size: Int32, sortBy: string, direction: string)
    requires page >= 0 && 1 <= size <= 100 && (direction == "ASC" || direction == "DESC")
    ensures PagingError(page, size, sortBy, direction, false) ==
      if !HasText(sortBy) then Some(EmptySortProperty)
      else if sortBy !in SORTABLE then Some(UnknownSortProperty(sortBy))
      else None
  {
    assert Text.Lower("ASC") == "asc" && Text.Lower("DESC") == "desc";
  }

  // ----- the service object -----

  /** ProductService over its repository. Every write method does what the
      matching outcome function says and keeps the repository valid. */
  class ProductService {
    const repo: ProductRepository

    ghost predicate Valid()
      reads repo
    {
      repo.Valid()
    }

    constructor (repository: ProductRepository)
      requires repository.Valid()
      ensures repo == repository && Valid()
    {
      repo := repository;
    }

    /** productRepository.save(row), with its refusal as a service error. */
    method SaveRow(row: ProductRow) returns (r: Result<ProductRow, ServiceError>)
      requires Valid()
      modifies repo
      ensures Valid()
      ensures var key := if row.id.None? || row.id.value !in old(repo.rows) then old(repo.nextId) else row.id.value;
              && r == SaveOutcome(old(repo.rows), key, row)
              && repo.rows == Written(old(repo.rows), r)
              && repo.nextId == if r.Ok? && key == old(repo.nextId) then old(repo.nextId) + 1 else old(repo.nextId)
    {
      var saved := repo.Save(row);
      match saved {
        case Ok(stored) => r := Ok(stored);
        case Err(e) => r := Err(Persistence(e));
      }
    }

    /** createProduct(request) */
    method CreateProduct(q: CreateRequest) returns (r: Result<ProductResponse, ServiceError>)
      requires Valid()
      modifies repo
      ensures Valid()
      ensures r == Respond(CreateOutcome(old(repo.rows), old(repo.nextId), q))
      ensures repo.rows == Written(old(repo.rows), CreateOutcome(old(repo.rows), old(repo.nextId), q))
    {
      if q.sku.Some? && ExistsBySku(repo.rows, q.sku.value) {
        return Err(DuplicateSku(q.sku.value));
      }
      var p := new Product();
      p.name, p.sku, p.description, p.price, p.category := q.name, q.sku, q.description, q.price, q.category;
      p.stockQuantity := Some(q.stockQuantity.GetOr(0));
      p.imageUrl, p.brand, p.weight, p.weightUnit := q.imageUrl, q.brand, q.weight, q.weightUnit;
      p.active := Some(true);
      assert p.Row() == NewRow(q);
      var saved := SaveRow(p.Row());
      r := Respond(saved);
    }

    /** The "update fields if provided" block of updateProduct, first half:
        the descriptive fields the request gives overwrite the entity's. */
    static method CopyProvidedDetails(p: Product, q: UpdateRequest)
      modifies p
      ensures p.name == (if q.name.Some? then q.name else old(p.name))
      ensures p.description == (if q.description.Some? then q.description else old(p.description))
      ensures p.category == (if q.category.Some? then q.category else old(p.category))
      ensures p.imageUrl == (if q.imageUrl.Some? then q.imageUrl else old(p.imageUrl))
      ensures p.brand == (if q.brand.Some? then q.brand else old(p.brand))
      ensures p.id == old(p.id) && p.sku == old(p.sku) && p.price == old(p.price)
      ensures p.stockQuantity == old(p.stockQuantity) && p.active == old(p.active)
      ensures p.weight == old(p.weight) && p.weightUnit == old(p.weightUnit)
    {
      if q.name.Some? { p.name := q.name; }
      if q.description.Some? { p.description := q.description; }
      if q.category.Some? { p.category := q.category; }
      if q.imageUrl.Some? { p.imageUrl := q.imageUrl; }
      if q.brand.Some? { p.brand := q.brand; }
    }

    /** Second half: price, stock, weight and the active flag. */
    static method CopyProvidedQuantities(p: Product, q: UpdateRequest)
      modifies p
      ensures p.price == (if q.price.Some? then q.price else old(p.price))
      ensures p.stockQuantity == (if q.stockQuantity.Some? then q.stockQuantity else old(p.stockQuantity))
      ensures p.weight == (if q.weight.Some? then q.weight else old(p.weight))
      ensures p.weightUnit == (if q.weightUnit.Some? then q.weightUnit else old(p.weightUnit))
      ensures p.active == (if q.active.Some? then q.active else old(p.active))
      ensures p.id == old(p.id) && p.sku == old(p.sku) && p.name == old(p.name)
      ensures p.description == old(p.description) && p.category == old(p.category)
      ensures p.imageUrl == old(p.imageUrl) && p.brand == old(p.brand)
    {
      if q.price.Some? { p.price := q.price; }
      if q.stockQuantity.Some? { p.stockQuantity := q.stockQuantity; }
      if q.weight.Some? { p.weight := q.weight; }
      if q.weightUnit.Some? { p.weightUnit := q.weightUnit; }
      if q.active.Some? { p.active := q.active; }
    }

    /** updateProduct(id, request) */
    method UpdateProduct(id: int, q: UpdateRequest) returns (r: Result<ProductResponse, ServiceError>)
      requires Valid()
      modifies repo
      ensures Valid() && repo.nextId == old(repo.nextId)
      ensures r == Respond(UpdateOutcome(old(repo.rows), id, q))
      ensures repo.rows == Written(old(repo.rows), UpdateOutcome(old(repo.rows), id, q))
    {
      if id !in repo.rows {
        return Err(NotFoundById(id));
      }
      ghost var t := repo.rows;
      var p := new Product.FromRow(repo.rows[id]);
      if q.sku.Some? && q.sku != p.sku {
        if ExistsBySkuAndIdNot(repo.rows, q.sku.value, id) {
          return Err(DuplicateSku(q.sku.value));
        }
        p.sku := q.sku;
      }
      assert !SkuTaken(t, id, q);
      assert p.Row() == t[id].(sku := if q.sku.Some? then q.sku else t[id].sku);
      CopyProvidedDetails(p, q);
      CopyProvidedQuantities(p, q);
      ghost var row := ApplyUpdate(t[id], q);
      assert p.Row() == row;
      assert row.id == Some(id);
      var saved := SaveRow(p.Row());
      assert saved == SaveOutcome(t, id, row);
      r := Respond(saved);
    }

    /** deleteProduct(id) */
    method DeleteProduct(id: int) returns (r: Result<(), ServiceError>)
      requires Valid()
      modifies repo
      ensures Valid() && repo.nextId == old(repo.nextId)
      ensures r == Acknowledge(DeleteOutcome(old(repo.rows), id))
      ensures repo.rows == Written(old(repo.rows), DeleteOutcome(old(repo.rows), id))
    {
      if id !in repo.rows {
        return Err(NotFoundById(id));
      }
      var p := new Product.FromRow(repo.rows[id]);
      p.active := Some(false);
      var saved := SaveRow(p.Row());
      r := Acknowledge(saved);
    }

    /** updateStock(id, quantity) */
    method UpdateStock(id: int, quantity: Int32) returns (r: Result<ProductResponse, ServiceError>)
      requires Valid()
      modifies repo
      ensures Valid() && repo.nextId == old(repo.nextId)
      ensures r == Respond(UpdateStockOutcome(old(repo.rows), id, quantity))
      ensures repo.rows == Written(old(repo.rows), UpdateStockOutcome(old(repo.rows), id, quantity))
    {
      if id !in repo.rows {
        return Err(NotFoundById(id));
      }
      var p := new Product.FromRow(repo.rows[id]);
      if quantity < 0 {
        return Err(NegativeStock);
      }
      p.stockQuantity := Some(quantity);
      var saved := SaveRow(p.Row());
      r := Respond(saved);
    }

    /** reduceStock(id, quantity), through the entity's reduceStock. */
    method ReduceStock(id: int, quantity: Int32) returns (r: Result<(), ServiceError>)
      requires Valid()
      modifies repo
      ensures Valid() && repo.nextId == old(repo.nextId)
      ensures r == Acknowledge(ReduceStockOutcome(old(repo.rows), id, quantity))
      ensures repo.rows == Written(old(repo.rows), ReduceStockOutcome(old(repo.rows), id, quantity))
    {
      if id !in repo.rows {
        return Err(NotFoundById(id));
      }
      var p := new Product.FromRow(repo.rows[id]);
      if quantity <= 0 {
        return Err(NonPositiveReduce);
      }
      StockNeverNegative(repo.rows, repo.nextId, id);
      if p.stockQuantity.value < quantity {
        return Err(InsufficientStock(p.stockQuantity.value, quantity));
      }
      ReduceWithinStock(p.stockQuantity.value, quantity);
      var outcome := p.ReduceStock(quantity);
      var saved := SaveRow(p.Row());
      r := Acknowledge(saved);
    }

    /** addStock(id, quantity), through the entity's addStock as written. */
    method AddStock(id: int, quantity: Int32) returns (r: Result<ProductResponse, ServiceError>)
      requires Valid()
      modifies repo
      ensures Valid() && repo.nextId == old(repo.nextId)
      ensures r == Respond(AddStockOutcome(old(repo.rows), id, quantity))
      ensures repo.rows == Written(old(repo.rows), AddStockOutcome(old(repo.rows), id, quantity))
    {
      if id !in repo.rows {
        return Err(NotFoundById(id));
      }
      var p := new Product.FromRow(repo.rows[id]);
      if quantity <= 0 {
        return Err(NonPositiveAdd);
      }
      var outcome := p.AddStock(quantity);
      var saved := SaveRow(p.Row());
      r := Respond(saved);
    }

    /** getProductBySku(sku): the product holding the SKU, or "not found". */
    method GetProductBySku(sku: string) returns (r: Result<ProductResponse, ServiceError>)
      requires Valid()
      ensures r.Ok? <==> ExistsBySku(repo.rows, sku)
      ensures r.Ok? ==> r.value.fields.sku == Some(sku) && r.value.fields in repo.rows.Values
      ensures r.Ok? ==> exists id :: id in repo.rows && repo.rows[id].sku == Some(sku)
                                    && r.value == ConvertToResponse(repo.rows[id])
      ensures r.Err? ==> r.error == NotFoundBySku(sku)
    {
      var ids := FindBySku(repo.rows, sku);
      if ids == {} {
        return Err(NotFoundBySku(sku));
      }
      var id :| id in repo.rows && repo.rows[id].sku == Some(sku);
      assert repo.rows[id] in repo.rows.Values;
      r := Ok(ConvertToResponse(repo.rows[id]));
    }
  }
}

=== FILE: py_text.dfy ===
/** Python's `str.split()` with no argument and `sep.join(parts)`: splitting
    on runs of whitespace, with no empty pieces, and joining with a
    separator. */
module PyText {
  import Text

  /** The characters for which Python's `str.isspace` holds. */
  predicate IsSpace(c: char) {
    || c == ' ' || '\t' <= c <= '\r' || '\U{1C}' <= c <= '\U{1F}'
    || c == '\U{85}' || c == '\U{A0}' || c == '\U{1680}' || '\U{2000}' <= c <= '\U{200A}'
    || c == '\U{2028}' || c == '\U{2029}' || c == '\U{202F}' || c == '\U{205F}' || c == '\U{3000}'
  }

  /** A piece `split()` can produce: not empty, no whitespace. */
  predicate IsWord(w: string) {
    |w| > 0 && forall i :: 0 <= i < |w| ==> !IsSpace(w[i])
  }

  /** The length of the run of non-whitespace characters that starts s. */
  function Run(s: string): (n: nat)
    ensures n <= |s|
    ensures forall i :: 0 <= i < n ==> !IsSpace(s[i])
    ensures n < |s| ==> IsSpace(s[n])
  {
    if s == [] || IsSpace(s[0]) then 0 else 1 + Run(s[1..])
  }

  /** `s.split()`. */
  function Words(s: string): (r: seq<string>)
    ensures forall k :: 0 <= k < |r| ==> IsWord(r[k])
    decreases |s|
  {
    if s == [] then []
    else if IsSpace(s[0]) then Words(s[1..])
    else
      var n := Run(s);
      [s[..n]] + Words(s[n..])
  }

  /** `sep.join(parts)`. */
  function Join(sep: string, parts: seq<string>): (r: string)
    ensures |parts| == 1 ==> r == parts[0]
  {
    if |parts| == 0 then ""
    else if |parts| == 1 then parts[0]
    else parts[0] + sep + Join(sep, parts[1..])
  }

  /** A word followed by nothing or by whitespace is exactly one run. */
  lemma RunOfWord(w: string, rest: string)
    requires IsWord(w) && (rest == [] || IsSpace(rest[0]))
    ensures Run(w + rest) == |w|
    ensures (w + rest)[..|w|] == w && (w + rest)[|w|..] == rest
  {
    var s := w + rest;
    assert forall i :: 0 <= i < |w| ==> s[i] == w[i];
    assert |w| < |s| ==> s[|w|] == rest[0];
  }

  /** Splitting a space-joined list of words gives the list back. */
  lemma {:induction false} SplitJoin(ws: seq<string>)
    requires forall k :: 0 <= k < |ws| ==> IsWord(ws[k])
    ensures Words(Join(" ", ws)) == ws
  {
    if |ws| == 0 {
    } else if |ws| == 1 {
      RunOfWord(ws[0], "");
      assert ws[0] + "" == ws[0];
    } else {
      var rest := Join(" ", ws[1..]);
      SplitJoin(ws[1..]);
      assert Join(" ", ws) == ws[0] + (" " + rest);
      RunOfWord(ws[0], " " + rest);
      assert (" " + rest)[1..] == rest;
      assert Words(" " + rest) == Words(rest);
      assert [ws[0]] + ws[1..] == ws;
    }
  }

  /** Every piece of a lower-cased string is lower-cased. */
  lemma {:induction false} WordsOfLower(s: string)
    requires Text.IsLower(s)
    ensures forall k :: 0 <= k < |Words(s)| ==> Text.IsLower(Words(s)[k])
    decreases |s|
  {
    if s == [] {
    } else if IsSpace(s[0]) {
      WordsOfLower(s[1..]);
    } else {
      var n := Run(s);
      assert Text.IsLower(s[..n]);
      WordsOfLower(s[n..]);
    }
  }
}

=== FILE: search_request.dfy ===
/** The search request of the catalogue's search endpoint: six optional
    filters and a page request whose setters normalise what they are given,
    so that the page index is never negative, the page size stays within
    1..100, the sort property is never null and the direction is always
    "ASC" or "DESC". */
module SearchRequest {
  import opened Wrappers
  import Text
  import opened ProductEntity
  import CatalogRepository

  const DEFAULT_PAGE: Int32 := 0
  const DEFAULT_SIZE: Int32 := 20
  const MAX_SIZE: Int32 := 100
  const DEFAULT_SORT_BY: string := "name"
  const ASC: string := "ASC"
  const DESC: string := "DESC"

  /** What setPage stores: Math.max(0, page). */
  function ClampPage(page: Int32): (r: Int32)
    ensures r >= 0
    ensures page >= 0 ==> r == page
    ensures page < 0 ==> r == 0
  {
    if page < 0 then 0 else page
  }

  /** What setSize stores: Math.min(Math.max(1, size), 100). */
  function ClampSize(size: Int32): (r: Int32)
    ensures 1 <= r <= MAX_SIZE
    ensures 1 <= size <= MAX_SIZE ==> r == size
    ensures size < 1 ==> r == 1
    ensures size > MAX_SIZE ==> r == MAX_SIZE
  {
    var atLeastOne := if size < 1 then 1 else size;
    if atLeastOne > MAX_SIZE then MAX_SIZE else atLeastOne
  }

  /** What setSortBy stores: the argument, or "name" for null. */
  function SortByOrDefault(sortBy: Option<string>): (r: string)
    ensures sortBy.Some? ==> r == sortBy.value
    ensures sortBy.None? ==> r == DEFAULT_SORT_BY
  {
    sortBy.GetOr(DEFAULT_SORT_BY)
  }

  /** What setSortDirection stores: "DESC" when the argument equals "DESC"
      ignoring case, "ASC" for anything else, null included. */
  function NormalizeDirection(direction: Option<string>): (r: string)
    ensures r == DESC || r == ASC
    ensures r == DESC <==> direction.Some? && Text.EqualsIgnoreCase(direction.value, DESC)
  {
    if direction.Some? && Text.EqualsIgnoreCase(direction.value, DESC) then DESC else ASC
  }

  /** The four page fields as the setters leave them. */
  predicate Normalised(page: Int32, size: Int32, sortDirection: string) {
    page >= 0 && 1 <= size <= MAX_SIZE && (sortDirection == ASC || sortDirection == DESC)
  }

  /** Each normaliser maps its own results to themselves, so setting a
      getter's value back changes nothing; and every result is normalised. */
  lemma NormalisersIdempotent(page: Int32, size: Int32, sortBy: Option<string>, direction: Option<string>)
    ensures ClampPage(ClampPage(page)) == ClampPage(page)
    ensures ClampSize(ClampSize(size)) == ClampSize(size)
    ensures SortByOrDefault(Some(SortByOrDefault(sortBy))) == SortByOrDefault(sortBy)
    ensures NormalizeDirection(Some(NormalizeDirection(direction))) == NormalizeDirection(direction)
    ensures Normalised(ClampPage(page), ClampSize(size), NormalizeDirection(direction))
  {
    assert Text.Lower(DESC) == "desc" && Text.Lower(ASC) == "asc";
  }

  /** Case does not matter to setSortDirection: "desc" and "Desc" give
      "DESC"; a value that is not DESC, such as "down", gives "ASC". */
  lemma DirectionIgnoresCase()
    ensures NormalizeDirection(Some("desc")) == DESC
    ensures NormalizeDirection(Some("Desc")) == DESC
    ensures NormalizeDirection(Some("down")) == ASC
    ensures NormalizeDirection(None) == ASC
  {
    assert Text.Lower("desc") == "desc" && Text.Lower("Desc") == "desc" && Text.Lower(DESC) == "desc";
    assert Text.Lower("down") == "down";
  }

  /** ProductSearchRequest: Jackson fills it through its setters. */
  class ProductSearchRequest {
    var name: Option<string>
    var category: Option<string>
    var brand: Option<string>
    var minPrice: Option<int>
    var maxPrice: Option<int>
    var inStock: Option<bool>
    var page: Int32
    var size: Int32
    var sortBy: string
    var sortDirection: string

    /** The invariant the defaults establish and every setter keeps. */
    ghost predicate Valid()
      reads this
    {
      Normalised(page, size, sortDirection)
    }

    /** The field initialisers: no filters, page 0 of size 20, by name, ascending. */
    constructor ()
      ensures Valid()
      ensures name.None? && category.None? && brand.None?
      ensures minPrice.None? && maxPrice.None? && inStock.None?
      ensures page == DEFAULT_PAGE && size == DEFAULT_SIZE
      ensures sortBy == DEFAULT_SORT_BY && sortDirection == ASC
    {
      name, category, brand := None, None, None;
      minPrice, maxPrice, inStock := None, None, None;
      page, size, sortBy, sortDirection := DEFAULT_PAGE, DEFAULT_SIZE, DEFAULT_SORT_BY, ASC;
    }

    /** The filters as the repository query receives them. */
    function Criteria(): (c: CatalogRepository.SearchCriteria)
      reads this
      ensures c.name == name && c.category == category && c.brand == brand
      ensures c.minPrice == minPrice && c.maxPrice == maxPrice && c.inStock == inStock
    {
      CatalogRepository.SearchCriteria(name, category, brand, minPrice, maxPrice, inStock)
    }

    /** setName, setCategory, setBrand, setMinPrice, setMaxPrice, setInStock:
        each stores its argument. */
    method SetFilters(name': Option<string>, category': Option<string>, brand': Option<string>,
                      minPrice': Option<int>, maxPrice': Option<int>, inStock': Option<bool>)
      requires Valid()
      modifies this`name, this`category, this`brand, this`minPrice, this`maxPrice, this`inStock
      ensures Valid()
      ensures Criteria() == CatalogRepository.SearchCriteria(name', category', brand', minPrice', maxPrice', inStock')
    {
      name, category, brand := name', category', brand';
      minPrice, maxPrice, inStock := minPrice', maxPrice', inStock';
    }

    method SetPage(page': Int32)
      requires Valid()
      modifies this`page
      ensures Valid()
      ensures page == ClampPage(page')
    {
      page := if page' < 0 then 0 else page';
    }

    method SetSize(size': Int32)
      requires Valid()
      modifies this`size
      ensures Valid()
      ensures size == ClampSize(size')
    {
      var atLeastOne := if size' < 1 then 1 else size';
      size := if atLeastOne > MAX_SIZE then MAX_SIZE else atLeastOne;
    }

    method SetSortBy(sortBy': Option<string>)
      requires Valid()
      modifies this`sortBy
      ensures Valid()
      ensures sortBy == SortByOrDefault(sortBy')
    {
      sortBy := if sortBy'.Some? then sortBy'.value else DEFAULT_SORT_BY;
    }

    method SetSortDirection(direction: Option<string>)
      requires Valid()
      modifies this`sortDirection
      ensures Valid()
      ensures sortDirection == NormalizeDirection(direction)
    {
      sortDirection := if direction.Some? && Text.EqualsIgnoreCase(direction.value, DESC) then DESC else ASC;
    }
  }
}

=== FILE: text.dfy ===
/** String operations that the Java and Python sources take from their
    platforms: ASCII case folding (SQL LOWER, String.equalsIgnoreCase, Python
    str.lower), substring search, the SQL LIKE matcher with its two wildcards,
    Bean Validation's @NotBlank test and decimal rendering of integers. */
module Text {

  /** Lower-cases one character; only the ASCII letters A-Z change. */
  function LowerChar(c: char): char {
    if 'A' <= c <= 'Z' then (c as int + 32) as char else c
  }

  function Lower(s: string): (r: string)
    ensures |r| == |s|
  {
    seq(|s|, i requires 0 <= i < |s| => LowerChar(s[i]))
  }

  predicate IsLower(s: string) {
    forall i :: 0 <= i < |s| ==> LowerChar(s[i]) == s[i]
  }

  lemma LowerIsLower(s: string)
    ensures IsLower(Lower(s))
  {
    forall i | 0 <= i < |s| ensures LowerChar(Lower(s)[i]) == Lower(s)[i] {
      assert Lower(s)[i] == LowerChar(s[i]);
    }
  }

  lemma LowerOfLower(s: string)
    requires IsLower(s)
    ensures Lower(s) == s
  {
  }

  lemma LowerConcat(a: string, b: string)
    ensures Lower(a + b) == Lower(a) + Lower(b)
  {
    assert forall i :: 0 <= i < |a + b| ==> Lower(a + b)[i] == (Lower(a) + Lower(b))[i];
  }

  /** Java's String.equalsIgnoreCase against a possibly-null argument. */
  predicate EqualsIgnoreCase(a: string, b: string) {
    Lower(a) == Lower(b)
  }

  predicate IsPrefix(t: string, s: string) {
    |t| <= |s| && s[..|t|] == t
  }

  predicate EndsWith(s: string, suffix: string) {
    |suffix| <= |s| && s[|s| - |suffix|..] == suffix
  }

  /** t occurs in s starting at index i. */
  predicate OccursAt(s: string, t: string, i: int) {
    0 <= i <= |s| && IsPrefix(t, s[i..])
  }

  /** Substring test: Java's String.contains, Python's `in` on strings. */
  predicate Contains(s: string, t: string) {
    exists i :: 0 <= i <= |s| && OccursAt(s, t, i)
  }

  /** A string lacking one of t's characters does not contain t. */
  lemma MissingCharNotContained(s: string, t: string, k: nat)
    requires k < |t| && t[k] !in s
    ensures !Contains(s, t)
  {
  }

  /** Bean Validation's @NotBlank for a non-null string: after Java's trim(),
      which strips every character up to U+0020 from both ends, something is left. */
  predicate NotBlank(s: string) {
    exists i :: 0 <= i < |s| && s[i] > ' '
  }

  /** Python's truthiness of a string: only the empty string is false. */
  predicate Truthy(s: string) {
    s != ""
  }

  /** The pattern has no LIKE wildcard in it, and no backslash, which
      PostgreSQL, H2 and MySQL read as LIKE's default escape character. */
  predicate NoWildcards(t: string) {
    forall i :: 0 <= i < |t| ==> t[i] != '%' && t[i] != '_' && t[i] != '\\'
  }

  /** SQL LIKE without an ESCAPE clause, where no character escapes: `%`
      matches any run of characters, `_` any single character, every other
      character itself. On a pattern without a backslash this agrees with
      the databases whose default escape is the backslash. */
  predicate Like(s: string, p: string)
    decreases |s| + |p|
  {
    if p == [] then s == []
    else if p[0] == '%' then Like(s, p[1..]) || (s != [] && Like(s[1..], p))
    else s != [] && (p[0] == '_' || p[0] == s[0]) && Like(s[1..], p[1..])
  }

  /** The match of JPQL's `LOWER(column) LIKE LOWER(CONCAT('%', arg, '%'))`. */
  predicate LikeContainsIgnoreCase(column: string, arg: string) {
    Like(Lower(column), Lower("%" + arg + "%"))
  }

  predicate LikeFrom(s: string, q: string, i: int)
    requires 0 <= i <= |s|
  {
    Like(s[i..], q)
  }

  lemma {:induction false} LikePercentMatchesAll(s: string)
    ensures Like(s, "%")
    decreases |s|
  {
    assert "%"[1..] == [];
    if s != [] {
      LikePercentMatchesAll(s[1..]);
    }
  }

  lemma {:induction false} LikeLiteralThenPercent(s: string, t: string)
    requires NoWildcards(t)
    ensures Like(s, t + "%") <==> IsPrefix(t, s)
    decreases |t|
  {
    if t == [] {
      assert t + "%" == "%";
      LikePercentMatchesAll(s);
    } else {
      var p := t + "%";
      assert p[0] == t[0] && p[0] != '%' && p[0] != '_';
      assert p[1..] == t[1..] + "%";
      assert NoWildcards(t[1..]) by {
        forall i | 0 <= i < |t[1..]| ensures t[1..][i] != '%' && t[1..][i] != '_' && t[1..][i] != '\\' {
          assert t[1..][i] == t[i + 1];
        }
      }
      if s != [] {
        LikeLiteralThenPercent(s[1..], t[1..]);
        if IsPrefix(t, s) {
          assert s[1..][..|t[1..]|] == s[..|t|][1..];
        }
        if IsPrefix(t[1..], s[1..]) && s[0] == t[0] {
          assert s[..|t|] == [s[0]] + s[1..][..|t[1..]|];
        }
      }
    }
  }

  lemma {:induction false} LikeLeadingPercent(s: string, q: string)
    ensures Like(s, "%" + q) <==> exists i :: 0 <= i <= |s| && LikeFrom(s, q, i)
    decreases |s|
  {
    var p := "%" + q;
    assert p[0] == '%' && p[1..] == q;
    assert LikeFrom(s, q, 0) <==> Like(s, q) by { assert s[0..] == s; }
    if s != [] {
      LikeLeadingPercent(s[1..], q);
      forall i | 0 <= i <= |s[1..]| ensures LikeFrom(s[1..], q, i) <==> LikeFrom(s, q, i + 1) {
        assert s[1..][i..] == s[i + 1..];
      }
      if exists i :: 0 <= i <= |s| && LikeFrom(s, q, i) {
        var i :| 0 <= i <= |s| && LikeFrom(s, q, i);
        if i > 0 {
          assert LikeFrom(s[1..], q, i - 1);
        }
      }
    } else {
      if exists i :: 0 <= i <= |s| && LikeFrom(s, q, i) {
        var i :| 0 <= i <= |s| && LikeFrom(s, q, i);
        assert i == 0;
      }
    }
  }

  /** A LIKE pattern `%t%` whose middle has no wildcard is a plain substring test. */
  lemma LikeSurroundedIsContains(s: string, t: string)
    requires NoWildcards(t)
    ensures Like(s, "%" + t + "%") <==> Contains(s, t)
  {
    assert "%" + t + "%" == "%" + (t + "%");
    LikeLeadingPercent(s, t + "%");
    forall i | 0 <= i <= |s| ensures LikeFrom(s, t + "%", i) <==> OccursAt(s, t, i) {
      LikeLiteralThenPercent(s[i..], t);
    }
    if Contains(s, t) {
      var i :| 0 <= i <= |s| && OccursAt(s, t, i);
      LikeLiteralThenPercent(s[i..], t);
      assert LikeFrom(s, t + "%", i);
    }
  }

  lemma LowerKeepsNoWildcards(t: string)
    requires NoWildcards(t)
    ensures NoWildcards(Lower(t))
  {
    forall i | 0 <= i < |t| ensures Lower(t)[i] != '%' && Lower(t)[i] != '_' && Lower(t)[i] != '\\' {
      assert Lower(t)[i] == LowerChar(t[i]);
    }
  }

  /** With no wildcard in the argument, the JPQL name filter is a
      case-insensitive substring test. */
  lemma LikeContainsIgnoreCaseIsSubstring(column: string, arg: string)
    requires NoWildcards(arg)
    ensures LikeContainsIgnoreCase(column, arg) <==> Contains(Lower(column), Lower(arg))
  {
    LowerConcat("%" + arg, "%");
    LowerConcat("%", arg);
    assert Lower("%") == "%";
    LowerKeepsNoWildcards(arg);
    LikeSurroundedIsContains(Lower(column), Lower(arg));
  }

  /** The wildcards are live: `_` in a search argument matches any character,
      so "a_c" finds "ABC" although "abc" does not contain "a_c". */
  lemma UnderscoreIsAWildcard()
    ensures LikeContainsIgnoreCase("ABC", "a_c")
    ensures !Contains(Lower("ABC"), Lower("a_c"))
  {
    assert Lower("ABC") == "abc";
    assert Lower("a_c") == "a_c";
    assert Lower("%a_c%") == "%a_c%";
    assert Like("", "");
    assert Like("", "%");
    assert Like("c", "c%");
    assert Like("bc", "_c%");
    assert Like("abc", "a_c%");
    assert Like("abc", "%a_c%");
    assert "%" + "a_c" + "%" == "%a_c%";
    assert "abc"[1] != "a_c"[1];
  }

  function DigitChar(d: int): char
    requires 0 <= d < 10
  {
    "0123456789"[d]
  }

  function NatToString(n: nat): (r: string)
    ensures |r| >= 1
    decreases n
  {
    if n < 10 then [DigitChar(n)] else NatToString(n / 10) + [DigitChar(n % 10)]
  }

  /** Decimal rendering of a (Java long) integer, as string concatenation does it. */
  function IntToString(i: int): string {
    if i < 0 then "-" + NatToString(-i) else NatToString(i)
  }
}

=== FILE: wrappers.dfy ===
/** Failure-carrying values shared by every module of the model: Java's
    nullable references and Python's None become Option, thrown exceptions
    and error replies become the Err side of a Result. */
module Wrappers {

  datatype Option<+T> = None | Some(value: T) {
    function GetOr(default: T): T {
      match this
      case Some(v) => v
      case None => default
    }
  }

  datatype Result<+T, +E> = Ok(value: T) | Err(error: E)
}
